=== FILE: README.md ===
# ffmpeg-mcp-server in Dafny

A model of the sequential decision logic of `ffmpeg-mcp-server`, an MCP
tool server that runs `ffmpeg`, `ffprobe` and `ffplay` on behalf of
clients. Threads, subprocesses, the network and the file system itself are
outside the model. What the server decides is inside it:

- the background-task registry (`task_manager.py`);
- time conversion, URL detection and default output paths (`utils.py`);
- the base URL, the mapping of a file path to its static URL, the video
  search, the output listing, and the file-access policy of
  `download_video` and `delete_videos` (`server.py`);
- how a process outcome becomes the `(code, log, append_msg)` result of
  `run_command`, and how `run_ffmpeg`, `run_ffprobe` and `run_ffplay`
  assemble their results (`ffmpeg.py`).

Modules, one per concern:

| module | file | what it holds |
|---|---|---|
| `Values` | `values.dfy` | `Option`, `Result`, and `Value`, a Python value (int, float, bool, string, tuple, list, dict, `None`) |
| `Strings` | `strings.dfy` | `str.lower` (ASCII), `startswith`/`endswith`, `find`/`rfind`, `split`/`join` for a one-character separator, `rstrip`, and the split/join round trips |
| `PosixPath` | `posixpath.dfy` | `os.path.join`, `basename`, `splitext`, `normpath`, `abspath` and `relpath` as pure functions, plus lemmas about already normalised absolute paths |
| `Seqs` | `seqs.dfy` | the loops the server writes, in generic form: the first element that passes a test, and filter-then-map, over flat and nested sequences |
| `TaskManager`, `Registry` | `taskmanager.dfy` | the task record, the three registry operations as pure functions over `map<string, TaskInfo>`, and a `TaskRegistry` class that holds the map and delegates to them |
| `Utils` | `utils.dfy` | `convert_to_seconds`, `is_url`, `get_default_output_path` |
| `Ffmpeg` | `ffmpeg.dfy` | `run_command` and its three wrappers |
| `Server` | `server.dfy` | `get_base_url`, `get_file_url`, `find_video_path`, `list_output_videos` |
| `FileAccess` | `access.dfy` | the allow-list, `download_video`, `delete_videos` |

Inputs that the source obtains from the outside world are parameters here:

- the environment, as a map;
- the current directory, as a string;
- the file system, as a map from normalised absolute path to a file or a
  directory with its size;
- the triples `os.walk` yields, as a sequence of `(root, files)` entries;
- the directory `command_dir()` returned;
- what happened to a started process: it exited with a code, it timed out,
  or it failed to start, together with the lines captured so far;
- a fresh task id and the clock reading;
- the numeral reader `float()`, as a function from string to optional real.

`os.path.exists(p)` is modelled as "`p` is non-empty and `abspath(p)` is a
key of the file system" (`Server.Exists`); see "Left out" for where that
differs from asking the kernel.

Behaviour of the code that a reader of its names and messages might not
expect, modelled as written:

- `update_task` (`task_manager.py:47-48`) only ever sets `end_time`; it
  never clears it. A task moved back to `RUNNING` after `COMPLETED` keeps
  its end time (`TaskManager.EndTimeOutlivesTerminalStatus`). The end time
  is unset exactly until the first terminal update
  (`TaskManager.EndTimeUnsetUntilTerminal`), not "exactly while the status
  is terminal".
- `download_video` checks that the path exists (`server.py:211`) before it
  checks the allow-list (`server.py:215-225`); `delete_videos` checks the
  allow-list (`server.py:290-298`) before existence
  (`server.py:300-302`). A missing path outside the allow-list is "not
  found" for the first and "outside the allowed directories" for the second
  (`FileAccess.DownloadAndDeleteDisagree`).
- The allow-list is a plain text prefix test, which also admits sibling
  directories such as `/videos2` (see Findings).
- `get_file_url` uses the same kind of prefix test, so a file under a
  sibling directory such as `/output_old` gets a URL inside the `/output`
  mount that climbs out with `..` (`Server.FileUrlSiblingPrefix`).
- `convert_to_seconds` on a 3-tuple of three strings, three lists or three
  tuples returns the repeated sequence `h * 3600 + m * 60 + s`, not a
  number of seconds (`Utils.ConvertStringTriple`).

## Model

| member | source | states |
|---|---|---|
| TaskManager.ToDict | src/ffmpeg_mcp/task_manager.py:7-19 | the field dictionary has exactly the eight fields of `TaskInfo` |
| TaskManager.FromDictToDict | src/ffmpeg_mcp/task_manager.py:18-19 | the field dictionary loses nothing: reading it back gives the record |
| TaskManager.CreateTask | src/ffmpeg_mcp/task_manager.py:26-36 | the fresh id is added and holds a `PENDING` record with the given tool and params, no result, no error, no end time and the current start time; every existing record is unchanged |
| TaskManager.UpdateTask | src/ffmpeg_mcp/task_manager.py:38-48 | an unknown id leaves the map unchanged; otherwise the status is always set, the result and the error are overwritten only by non-`None` arguments, `end_time` is stamped on `COMPLETED`/`FAILED` and kept otherwise, id/tool/params/start time never change, and no other record changes |
| TaskManager.GetTaskStatus | src/ffmpeg_mcp/task_manager.py:50-55 | `None` exactly for an unknown id; for a known id, a dictionary with exactly the eight field keys that reads back to the stored record |
| Registry.TaskRegistry.CreateTask | src/ffmpeg_mcp/task_manager.py:26-36 | the registry object adds the fresh id and returns it, its map becoming what `TaskManager.CreateTask` gives |
| Registry.TaskRegistry.UpdateTask | src/ffmpeg_mcp/task_manager.py:38-48 | the registry object's map becomes what `TaskManager.UpdateTask` gives |
| Registry.TaskRegistry.GetTaskStatus | src/ffmpeg_mcp/task_manager.py:50-55 | the registry object answers as `TaskManager.GetTaskStatus` on its map |
| TaskManager.UpdatesKeepIdentity | src/ffmpeg_mcp/task_manager.py:38-48 | any sequence of updates keeps the set of ids and each task's id, tool, params and start time |
| TaskManager.EndTimeUnsetUntilTerminal | src/ffmpeg_mcp/task_manager.py:47-48 | after any sequence of updates, a new task's end time is unset if and only if none of the updates gave it a terminal status |
| TaskManager.EndTimeStaysSet | src/ffmpeg_mcp/task_manager.py:47-48 | once stamped, an end time is never cleared by later updates |
| TaskManager.EndTimeOutlivesTerminalStatus | src/ffmpeg_mcp/task_manager.py:42-48 | `COMPLETED` then `RUNNING` leaves status `RUNNING` with the end time of the first update |
| Utils.ParseParts | src/ffmpeg_mcp/utils.py:26-27 | the parts convert exactly when every part is a numeral, then to the numbers in order; otherwise the error names a part that is not |
| Utils.HMS | src/ffmpeg_mcp/utils.py:28-39 | three fields give h·3600+m·60+s, two give m·60+s, one gives s |
| Utils.SequenceHMS | src/ffmpeg_mcp/utils.py:41-53 | `h * 3600 + m * 60 + s` on three non-numbers succeeds exactly when all three are strings, all lists or all tuples, and gives a value of that kind |
| Utils.ConvertToSeconds | src/ffmpeg_mcp/utils.py:6-55 | numbers always convert, to themselves; a string converts exactly when it splits on `:` into one to three numerals; a tuple converts exactly when it has one to three elements, all numbers, or three strings, three lists or three tuples; a repeated-sequence result comes only from such a non-numeric 3-tuple; only a value of another type fails with the type error |
| Utils.ConvertNumberUnchanged | src/ffmpeg_mcp/utils.py:22-23 | an `int` or `float` is returned as it is |
| Utils.ConvertClock | src/ffmpeg_mcp/utils.py:25-39 | a clock string of three, two or one numerals gives h·3600+m·60+s, m·60+s or s |
| Utils.ConvertTooManyParts | src/ffmpeg_mcp/utils.py:37-38 | more than three numeric parts is rejected as a bad clock format |
| Utils.ConvertTupleLikeClock | src/ffmpeg_mcp/utils.py:41-53 | a tuple of one to three numbers converts, to the same value as the clock string of the same numbers |
| Utils.ConvertStringTriple | src/ffmpeg_mcp/utils.py:41-53 | three strings give the first repeated 3600 times, the second 60 times, then the third, with that length and those characters; one or two strings are an error |
| Utils.ConvertMixedTriple | src/ffmpeg_mcp/utils.py:41-53 | a number with strings, or strings with a list, is an error |
| Utils.ConvertRejects | src/ffmpeg_mcp/utils.py:51-55 | a tuple of another length, and a value of another type, are rejected |
| Utils.IsUrl | src/ffmpeg_mcp/utils.py:81-87 | only a string of at least seven characters can be a URL |
| Utils.LowerStartsWith | src/ffmpeg_mcp/utils.py:87 | the lower-cased string starts with a lower-case prefix exactly when the string matches it ignoring case |
| Utils.IsUrlIff | src/ffmpeg_mcp/utils.py:81-87 | a value is a URL exactly when it is a string starting with `http://` or `https://` in any letter case |
| Utils.IsUrlCaseInsensitive | src/ffmpeg_mcp/utils.py:87 | lower-casing a string does not change whether it is a URL |
| Utils.RemoveUnsafe | src/ffmpeg_mcp/utils.py:101 | the URL text with tabs, carriage returns and line feeds deleted: what remains holds none of them and only characters of the input, and a URL without them is unchanged |
| Utils.UrlPath | src/ffmpeg_mcp/utils.py:101-102 | the path `urlparse` reports for an `http`/`https` URL holds no tab, carriage return, line feed, `?` or `#` |
| Utils.UrlPathOfParts | src/ffmpeg_mcp/utils.py:101-102 | for `scheme + host + path + tail`, where the scheme is `http://` or `https://` in any letter case, the host holds no `/`, `?`, `#`, tab, carriage return or line feed, the path is empty or starts with `/` and holds no `?`, `#`, `;` or those three, and the tail is empty or starts with `?` or `#`: the string is a URL and its path is exactly `path` |
| Utils.UrlPathIgnoresUnsafe | src/ffmpeg_mcp/utils.py:101-102 | deleting tabs, carriage returns and line feeds from a URL keeps it a URL and does not change its path |
| Utils.StripParams | src/ffmpeg_mcp/utils.py:101-102 | cutting off `;params` leaves a prefix of the path |
| Utils.StripParamsWithoutParams | src/ffmpeg_mcp/utils.py:101-102 | a path without `;` is kept whole |
| Utils.StripParamsCutsLastSegment | src/ffmpeg_mcp/utils.py:101-102 | in `<dir>/<segment>;<params>`, with no `/` or `;` in the segment and no `/` in the parameters, exactly `;<params>` is cut off |
| Utils.GetDefaultOutputPath | src/ffmpeg_mcp/utils.py:89-112 | the output path ends with the output file name made from the input's name and the suffix, and, for a suffix without `/`, starts with the output directory |
| Utils.OutputFileNameShape | src/ffmpeg_mcp/utils.py:108-112 | the output file name has no `/` and splits back into the input's stem with the suffix, and the input's extension (or `.mp4`) |
| Utils.OutputPathShape | src/ffmpeg_mcp/utils.py:108-112 | the joined output path starts with the directory, its base name is stem + suffix + extension, and its extension is the output extension |
| Utils.DefaultOutputKeepsExtension | src/ffmpeg_mcp/utils.py:89-112 | the default output path lies in the output directory, is named after the input with the suffix before the extension, and keeps the input's extension or gets `.mp4` |
| PosixPath.BasenameOfParts | src/ffmpeg_mcp/utils.py:106 | the base name of `<dir>/<name>`, or of a bare name, is the name |
| Utils.LocalInputFileName | src/ffmpeg_mcp/utils.py:105-106 | a local path's file name is its last component |
| Utils.OutputFileNameOfParts | src/ffmpeg_mcp/utils.py:108-112 | `<stem><ext>` becomes `<stem><suffix><ext>`, and a name without a dot becomes `<name><suffix>.mp4` |
| Utils.DefaultOutputOfLocalFile | src/ffmpeg_mcp/utils.py:89-112 | a local input `<dir>/<stem><ext>` gives the output directory joined with `<stem><suffix><ext>` (`.mp4` for a name without a dot), which is `/output/<stem><suffix><ext>` when `/output` exists: `clip.mp4` gives `/output/clip<suffix>.mp4` |
| Utils.UrlWithoutFileName | src/ffmpeg_mcp/utils.py:99-104 | a URL whose path has an empty base name gives `<dir>/downloaded_video<suffix>.mp4` |
| Utils.DefaultFileName | src/ffmpeg_mcp/utils.py:103-112 | the fallback name `downloaded_video.mp4` becomes `downloaded_video<suffix>.mp4` |
| Server.Host | src/ffmpeg_mcp/server.py:21-23 | a configured `MCP_HOST` other than `0.0.0.0` is the host; with none configured, or the wildcard, it is `localhost`, so the wildcard never reaches the URL |
| Server.GetBaseUrl | src/ffmpeg_mcp/server.py:15-25 | a non-empty external URL is returned without its trailing slashes (a prefix of it that does not end in `/`, followed in it only by slashes); otherwise `http://<host>:<port>` |
| Server.BaseUrlDefaults | src/ffmpeg_mcp/server.py:21-25 | with nothing configured, or host `0.0.0.0`, the base URL is `http://localhost:8032` |
| Server.BaseUrlIgnoresTrailingSlash | src/ffmpeg_mcp/server.py:17-19 | appending `/` to the external URL does not change the base URL |
| Server.MountOf | src/ffmpeg_mcp/server.py:34-48 | a path gets a mount exactly when it starts with `/output`, `/videos`, `<cwd>/output` or `<cwd>/videos`; the mount is `output` or `videos`, and the path starts with the mounted directory |
| Server.MountOfIsFirstMatch | src/ffmpeg_mcp/server.py:34-48 | the mount is the first entry, in the order `/output`, `/videos`, `<cwd>/output`, `<cwd>/videos`, whose directory is a prefix of the path, each name paired with its own directory; none exactly when no directory is a prefix |
| Server.FirstOfFour | src/ffmpeg_mcp/server.py:34-48 | a chain of four prefix tests finds the first matching entry of a four-entry table |
| Server.GetFileUrl | src/ffmpeg_mcp/server.py:27-50 | the empty path gives `""`; any other path gives `""` exactly when no mount prefix matches, and otherwise a URL starting with the base URL and the mount |
| Server.FileUrlUnderServedDir | src/ffmpeg_mcp/server.py:34-39 | a file below `/output` or `/videos` gets `<base>/<mount>/<path below the directory>` |
| Server.MountOfServedDir | src/ffmpeg_mcp/server.py:34-39 | a path below `/output` or `/videos` is its own `abspath` and is served by that mount, `/output` first |
| Server.RelpathOfServedDir | src/ffmpeg_mcp/server.py:35 | `relpath` from a directory to a path below it is the path's remaining components |
| Server.FileUrlUnderCwdMount | src/ffmpeg_mcp/server.py:42-48 | in a current directory whose first component starts with neither `output` nor `videos`, a file below `<cwd>/output` or `<cwd>/videos` gets `<base>/<mount>/<path below the directory>` |
| Server.CwdMountOf | src/ffmpeg_mcp/server.py:42-48 | such a file is taken by the mount under the current directory with the same name, not by the root mounts or the other one |
| Server.FileUrlSiblingPrefix | src/ffmpeg_mcp/server.py:34-36 | a file below a sibling such as `/output_old` gets `<base>/output/../output_old/...` |
| Server.MountOfSibling | src/ffmpeg_mcp/server.py:34-36 | a path below a sibling whose name starts with `output` is taken by the `/output` mount |
| Server.RelpathOfSibling | src/ffmpeg_mcp/server.py:35 | `relpath` from a directory to a path below a sibling directory climbs one level and descends into the sibling |
| Server.Target | src/ffmpeg_mcp/server.py:61-65 | the target's stem and extension put back together give the name; the extension is kept exactly when it is a video extension, and is otherwise folded into the stem |
| Server.VideoExtShape | src/ffmpeg_mcp/server.py:61 | every video extension is a lower-case dot-extension without `/` |
| Server.FindVideoPath | src/ffmpeg_mcp/server.py:52-73 | the nested loop over the walk returns the same path as the flat search `FoundPath`, which the two lemmas below characterise |
| Server.FoundPathIsFirstMatch | src/ffmpeg_mcp/server.py:67-72 | when position `k` of the walk is the first file whose stem and extension match, the result is that file joined to its root |
| Server.FoundNothingIffNoMatch | src/ffmpeg_mcp/server.py:67-73 | the result is `""` if and only if no walked file matches |
| Server.AnyVideoExtMatches | src/ffmpeg_mcp/server.py:61-72 | a target with a video extension is matched by a file with the same stem in any letter case and any video extension |
| Server.NonVideoNameIsStem | src/ffmpeg_mcp/server.py:62-71 | for a name without a video extension, a file matches exactly when its stem equals the whole name, ignoring case |
| Server.ListingMember | src/ffmpeg_mcp/server.py:67-68 | every walked pair is a root together with one of its files |
| Server.ExistsOfNormal | src/ffmpeg_mcp/server.py:211 | for a normalised absolute path, `os.path.exists` holds exactly when the file system has an entry at that path |
| Server.OutputDirOf | src/ffmpeg_mcp/server.py:256-260 | the directory chosen exists and is `/output` or `<cwd>/output`; `/output` is chosen whenever it exists; none exactly when neither exists |
| Server.ListOutputVideos | src/ffmpeg_mcp/server.py:248-267 | with no output directory the list is empty; otherwise it is the absolute paths of the walked files with a video extension, in walk order |
| Server.ListedIsVideo | src/ffmpeg_mcp/server.py:263-266 | every listed path is the absolute path of a walked file with a video extension |
| Server.VideoIsListed | src/ffmpeg_mcp/server.py:263-266 | every walked file with a video extension is listed |
| Server.VideoListingInWalkOrder | src/ffmpeg_mcp/server.py:263-267 | the listing of a walk is the listing of its first part followed by that of the rest |
| Ffmpeg.RunCommand | src/ffmpeg_mcp/ffmpeg.py:16-74 | the log is the captured lines followed by `append_msg`, joined by newlines; an exit keeps its code with an empty message; a timeout gives -1 and `Timeout expired`; a spawn failure gives -1 and `An error occurred: ...` |
| Ffmpeg.RunCommandLogEndsWithMessage | src/ffmpeg_mcp/ffmpeg.py:73-74 | the log is the message alone or the joined lines, a newline and the message |
| Ffmpeg.RunCommandLogSplits | src/ffmpeg_mcp/ffmpeg.py:73-74 | for any captured lines, splitting the log on newlines gives the fields of every captured line, in order, then those of the message |
| Ffmpeg.RunCommandLogOfReadLines | src/ffmpeg_mcp/ffmpeg.py:32-74 | for lines as `readline` returns them (ending in their one newline), the log splits into each line's text followed by an empty field, then the message, which is one field unless the process failed to start |
| Ffmpeg.ReadLinesSplit | src/ffmpeg_mcp/ffmpeg.py:35-39 | the fields of `readline` lines are each line's text and an empty field |
| Ffmpeg.ClassifyOutcome | src/ffmpeg_mcp/ffmpeg.py:58-65 | an exit reports its code through `run_ffmpeg` and `run_ffprobe`; a timeout reports -1 with a log ending in the timeout message; a spawn failure reports -1 with just the error message |
| Ffmpeg.RunFfmpeg | src/ffmpeg_mcp/ffmpeg.py:134-144 | no command directory gives `(-1, "Not Support Platform")`; otherwise the code of the run |
| Ffmpeg.RunFfmpegLog | src/ffmpeg_mcp/ffmpeg.py:138-144 | the log is the command line, the run's log and `append_msg`, so a timeout message ends it twice |
| Ffmpeg.RunFfmpegLogSplits | src/ffmpeg_mcp/ffmpeg.py:138-144 | splitting the `run_ffmpeg` log on newlines gives the command line's fields, every captured line's fields, then the message's fields twice; a command line without a newline is the first field |
| Ffmpeg.RunFfprobe | src/ffmpeg_mcp/ffmpeg.py:146-158 | a 2-tuple variant exactly when there is no command directory; otherwise the code and the command line, with the raw log on code 0 and the command, log and message on any other code |
| Ffmpeg.RunFfplay | src/ffmpeg_mcp/ffmpeg.py:160-172 | as `run_ffprobe`, for `ffplay`: the same unsupported case, exit code and success log as `run_ffprobe` on the same outcome; only the binary on the command line differs |
| Ffmpeg.ViewerLogSplits | src/ffmpeg_mcp/ffmpeg.py:146-172 | splitting the log of `run_ffprobe` or `run_ffplay` on newlines gives, after a failure, the command line's fields, the captured lines' fields and the message's fields twice, and after success the captured lines' fields and the message's |
| FileAccess.AllowedDirsOf | src/ffmpeg_mcp/server.py:217-220 | for a normalised current directory, the allowed directories are `/videos`, `/output` and the current directory |
| PosixPath.NormPathAbsolute | src/ffmpeg_mcp/server.py:216 | `normpath` of an absolute path is `/` followed by its normalised components joined with `/`, with a second leading `/` kept exactly when the path starts with exactly two |
| PosixPath.NormPathDropsParent | src/ffmpeg_mcp/server.py:216 | in a normalised absolute path, `<c>/..` is removed together: `normpath(/<pre>/<c>/../<rest>)` is `/<pre>/<rest>` |
| FileAccess.AbspathInNormalCwd | src/ffmpeg_mcp/server.py:216 | in a normalised current directory, `abspath` of any path is a normalised absolute path, or, for a path starting with exactly two slashes, `/` followed by one |
| FileAccess.InsideDirIffPrefix | src/ffmpeg_mcp/server.py:219-222 | a normalised path lies inside a normalised directory exactly when the directory's components are a prefix of the path's |
| FileAccess.AllowedImpliesAllowedAsWritten | src/ffmpeg_mcp/server.py:219-222 | every path the corrected test admits, the written test admits too |
| FileAccess.AllowedByComponents | src/ffmpeg_mcp/server.py:215-225 | the corrected test admits a normalised path exactly when its components start with `videos`, `output` or the current directory's |
| PosixPath.StartsWithTop | src/ffmpeg_mcp/server.py:220 | a normalised absolute path starts with `/<top>` exactly when its first component starts with `top` |
| FileAccess.AllowedAsWrittenByComponents | src/ffmpeg_mcp/server.py:215-222 | the written test admits a normalised path exactly when its first component begins with `videos` or `output`, or its text begins with the current directory's |
| FileAccess.AllowListSiblingPrefix | src/ffmpeg_mcp/server.py:219-222 | the written test admits a path under `/videos2`, which no allowed directory contains |
| FileAccess.DownloadWith | src/ffmpeg_mcp/server.py:211-245 | for any allow test: "not found" exactly when the path does not exist; refused exactly when it exists and fails the test; too large exactly when it exists, passes and exceeds 200 MiB; a served file is a regular file of at most 200 MiB, reported with its base name and size |
| FileAccess.DownloadVideo | src/ffmpeg_mcp/server.py:200-245 | with the written prefix test: "not found" exactly when the path does not exist; refused exactly when it exists and fails the prefix test; served exactly when it exists, passes, is a regular file and is at most 200 MiB, with its base name and size |
| FileAccess.DownloadServesAsWritten | src/ffmpeg_mcp/server.py:211-245 | a normalised path is served exactly when it is a regular file of at most 200 MiB whose first component begins with `videos` or `output` or whose text begins with the current directory's |
| FileAccess.DownloadSiblingAsWritten | src/ffmpeg_mcp/server.py:215-225 | a file under `/videos2` is served by `download_video` and refused by the corrected version |
| FileAccess.DownloadVideoIntended | src/ffmpeg_mcp/server.py:211-245 | with the test the error message describes: refused exactly when the path exists and lies in no allowed directory; whatever `download_video` refuses is refused; otherwise the same answer as `download_video` |
| FileAccess.DownloadServesOnlyAllowedFiles | src/ffmpeg_mcp/server.py:211-245 | with the corrected test, a normalised path is served exactly when it is a regular file of at most 200 MiB under `/videos`, `/output` or the current directory |
| FileAccess.DownloadIntendedStaysInside | src/ffmpeg_mcp/server.py:211-245 | for every input path, normalised or not: if the corrected download serves it, its absolute path is normalised and its components start with `videos`, `output` or the current directory's |
| FileAccess.ParentEscapeIsCollapsed | src/ffmpeg_mcp/server.py:215-225 | `/<top>/../<rest>` has absolute path `/<rest>`; `download_video` serves it exactly when it serves `/<rest>`, and the corrected version exactly when `/<rest>` is a regular file of at most 200 MiB under an allowed directory |
| FileAccess.DownloadSizeBoundary | src/ffmpeg_mcp/server.py:228-230 | the limit is inclusive: exactly 200 MiB is served, one byte more is refused with its size |
| FileAccess.DeleteStep | src/ffmpeg_mcp/server.py:287-305 | a path is removed exactly when it is allowed and names a regular file; refused as outside exactly when it is not allowed; missing exactly when allowed and absent; only a removal changes the file system, by that one file |
| FileAccess.DeleteEach | src/ffmpeg_mcp/server.py:281-309 | the input paths are an order-preserving merge of successes and failures; the file system only loses entries; exactly the successes' files are gone; no file is reported removed twice |
| FileAccess.DeleteEachRemovesExactly | src/ffmpeg_mcp/server.py:285-305 | for any allow test, the files the loop removes are exactly the regular files named by the list that pass the test |
| FileAccess.StricterRemovesLess | src/ffmpeg_mcp/server.py:290-305 | with a stricter allow test the loop removes exactly the files the looser test removes that also pass the stricter one |
| FileAccess.DeleteVideos | src/ffmpeg_mcp/server.py:270-309 | with the written prefix test, the files removed are exactly the regular files named by the list whose absolute path passes the prefix test |
| FileAccess.DeleteVideosAsWritten | src/ffmpeg_mcp/server.py:285-305 | a normalised file is removed exactly when the list names it, it is a regular file, and its first component begins with `videos` or `output` or its text begins with the current directory's |
| FileAccess.DeleteVideosIntended | src/ffmpeg_mcp/server.py:270-309 | with the test the error message describes, a file is removed exactly when `delete_videos` removes it and it lies in an allowed directory |
| FileAccess.InterleavesPartition | src/ffmpeg_mcp/server.py:297-305 | every input path lands in exactly one of the two lists: their sizes add up and together they are a permutation of the input |
| FileAccess.DeleteReportHonest | src/ffmpeg_mcp/server.py:289-305 | every success was an allowed regular file before the call; a failure is "outside" exactly when the path is not allowed, "missing" only for an allowed path absent afterwards, and a removal error exactly for an allowed path naming a directory |
| FileAccess.NothingLeftToDelete | src/ffmpeg_mcp/server.py:300-302 | when no path is in the file system, nothing is removed |
| FileAccess.DeleteAgainRemovesNothing | src/ffmpeg_mcp/server.py:300-305 | deleting the reported successes again removes nothing |
| FileAccess.DeleteSamePathTwice | src/ffmpeg_mcp/server.py:300-305 | a file listed twice is removed once, then reported missing |
| FileAccess.DeleteVideosOnlyAllowed | src/ffmpeg_mcp/server.py:282-298 | with the corrected test, a removed file lies under `/videos`, `/output` or the current directory |
| FileAccess.DeleteSiblingAsWritten | src/ffmpeg_mcp/server.py:291-294 | `delete_videos` removes a file under `/videos2`; with the corrected test it is refused and nothing changes |
| FileAccess.DownloadAndDeleteDisagree | src/ffmpeg_mcp/server.py:211-302 | a missing path is "not found" for `download_video`; for `delete_videos` it is "missing" when it passes the prefix test and "outside the allowed directories" otherwise |

## Left out

- Locking in `TaskManager`: each operation is one atomic step on the map.
- The reader thread, `Popen`, `wait(timeout)`, kill and join in
  `run_command`. The process outcome is an input. The cleanup guard tests
  `globals()`, so its kill and join never run in the source either.
- `shlex.split`: the command line is kept as one string.
- `command_dir` and its auto-install by git, chmod and unzip: platform
  probing and I/O, so its result is an input.
- `uuid4` and `time.time()`: a fresh id and a clock reading are parameters.
- File reading, base64 encoding and `mimetypes` in `download_video`: a file
  that is allowed and within the limit is `Served`. A read error is
  modelled only for a directory.
- `os.walk`, `os.remove` and `os.path.exists`: modelled as an abstract walk
  sequence and a map of files.
- The sub-directory list `os.walk` yields: it only steers the walk, which is
  given whole.
- Symbolic links: `abspath` does not resolve them, and the model has none.
- `create_temp_file` and `unzip_to_current_directory`: file-system I/O.
- The FastMCP tool wiring, the static-file mounting in `main`, `cut_video`
  and `typedef`. `cut_video.py` and `typedef.py` are not part of this model,
  and neither is `media_format_ctx`, which depends on `typedef`.
- The test clients `test_client.py` and `test_sse.py`: network clients.
- Utils.ConvertToSeconds: `float()` on the parts is the parameter `numeral`.
  Arithmetic is on reals, not IEEE doubles. A repeated sequence is modelled
  for three strings, lists or tuples; the other Python types that support
  `*` and `+` (bytes, `bytearray`, objects with operator methods) have no
  `Value` constructor.
- Strings.Lower: ASCII letters only, while Python's `str.lower` is Unicode.
  For the `http://`/`https://` test in `is_url` the two agree. They differ
  in Server.FindVideoPath, which compares lower-cased stems (`É.mp4` and
  `é.mp4` match in Python, not here), and in Server.ListOutputVideos, which
  lower-cases the extension (a Kelvin sign in `.mKv` makes it `.mkv` in
  Python, not here).
- Utils.UrlPath: only the `path` field of `urlparse` for `http`/`https`
  URLs: network location, query, fragment and `;params` are cut off.
  Other schemes never reach it. `urlsplit` also raises `ValueError` on an
  unbalanced `[` or `]` in the network location (`http://[::1/a.mp4`) and,
  in some Python versions, on other malformed network locations; the model
  returns a path for those URLs instead of the exception.
- Server.Exists: `abspath` collapses `..` on the text, while
  `os.path.exists` asks the kernel, which resolves `..` after following
  symbolic links. The two agree when no symbolic links are involved, and
  the model has none. A path through a missing directory (`/a/missing/../b`)
  is found here when `/a/b` exists, while the kernel reports it missing.
- Server.Exists: a path that starts with exactly two slashes keeps both
  under `abspath`, as POSIX `normpath` allows, and is then looked up under
  that text. Linux treats `//videos/a.mp4` as `/videos/a.mp4`, so the
  model misses such files. As a result, FileAccess.DownloadVideo answers
  "not found" for `//videos/a.mp4` where the source gets past its existence
  check and refuses the path. FileAccess.DeleteVideos with current
  directory `/` reports that path missing where the source removes
  `/videos/a.mp4`. The file system is keyed by path text, and the model
  does not alias `//` to `/`.
- Console output: the `print` calls at ffmpeg.py:60 (on a timeout) and at
  ffmpeg.py:123 and 129 (in `command_dir`, which is itself left out)
  write to standard output. The model has no standard output, and none
  of these calls changes a returned value.
- FileAccess.DownloadVideo: the error messages, including the size in MB
  with two decimals, are not modelled; the result names the error case and
  carries the path or size it reports.
- FileAccess.DeleteEach: `delete_videos` also catches exceptions raised for
  a path that is not a string. Paths are strings here, and the only
  `os.remove` failure modelled is a directory.
- Server.FindVideoPath: the walk order is whatever `os.walk` produced; the
  model states the result relative to that order.

## Findings

| source | as written | input that shows it | evidently intended | confidence | as-written member | corrected member |
|---|---|---|---|---|---|---|
| src/ffmpeg_mcp/server.py:215-225 | `abs_path.startswith(os.path.abspath(d))` admits any path whose text begins with an allowed directory; `delete_videos` at lines 291-294 uses the same test | `/videos2/a.mp4` with current directory `/home/u`: admitted, although the error message says only `/videos` and `/output` may be accessed | the path lies inside one of the directories: equal to it, or starting with it followed by `/` | high; not executed | FileAccess.AllowListSiblingPrefix | FileAccess.AllowedByComponents |

The as-written test is `FileAccess.IsAllowedAsWritten`. The counterexample
lemma `FileAccess.AllowListSiblingPrefix` shows it admitting
`/videos2/...`, and `FileAccess.DeleteSiblingAsWritten` shows
`delete_videos` removing such a file under it. The corrected test is
`FileAccess.IsAllowed`. `FileAccess.AllowedByComponents` proves it admits
exactly the paths under `/videos`, `/output` or the current directory.
`FileAccess.AllowedImpliesAllowedAsWritten` proves it never admits more than
the written test. `FileAccess.DownloadVideo` and `FileAccess.DeleteVideos` model the two tools as
written, with the prefix test; `FileAccess.DownloadSiblingAsWritten` and
`FileAccess.DeleteSiblingAsWritten` show each of them letting a file under
`/videos2` through. `FileAccess.DownloadVideoIntended` and
`FileAccess.DeleteVideosIntended` are the same tools with the corrected
test, and `FileAccess.DownloadServesOnlyAllowedFiles` and
`FileAccess.DeleteVideosOnlyAllowed` prove they reach only files in the
allowed directories.

=== FILE: access.dfy ===
/** The file-access policy of `server.py`: the allow-list shared by
    `download_video` and `delete_videos`, the checks `download_video` makes
    before it reads a file, and the per-path outcome of `delete_videos`.
    Reading, base64 encoding and MIME guessing are outside the model; the
    file system is a map from normalised absolute path to entry. */
module FileAccess {
  import opened Strings
  import opened PosixPath
  import opened Server

  // ---------------------------------------------------------------------
  // The allow-list

  /** `[os.path.abspath(d) for d in ["/videos", "/output", os.getcwd()]]`. */
  function AllowedDirs(cwd: string): (dirs: seq<string>)
    ensures |dirs| == 3
  {
    [Abspath("/" + VideosName, cwd), Abspath("/" + OutputName, cwd), Abspath(cwd, cwd)]
  }

  /** `p` is the directory `d` or lies below it. */
  predicate InsideDir(p: string, d: string) {
    p == d || StartsWith(p, if EndsWith(d, "/") then d else d + "/")
  }

  predicate StartsWithAny(p: string, dirs: seq<string>) {
    exists i :: 0 <= i < |dirs| && StartsWith(p, dirs[i])
  }

  predicate InsideAny(p: string, dirs: seq<string>) {
    exists i :: 0 <= i < |dirs| && InsideDir(p, dirs[i])
  }

  /** The test as the server writes it: `abs_path.startswith(d)` for some
      allowed `d`, a test on text that also admits siblings such as
      `/videos2`. */
  predicate IsAllowedAsWritten(abs: string, cwd: string) {
    StartsWithAny(abs, AllowedDirs(cwd))
  }

  /** The test the error message describes: the path lies in one of the
      allowed directories. */
  predicate IsAllowed(abs: string, cwd: string) {
    InsideAny(abs, AllowedDirs(cwd))
  }

  /** The allowed directories when the current directory is normalised. */
  function FixedDirs(cc: seq<string>): seq<string> {
    [AbsPathOf([VideosName]), AbsPathOf([OutputName]), AbsPathOf(cc)]
  }

  lemma AllowedDirsOf(cc: seq<string>)
    requires AllNormal(cc)
    ensures AllowedDirs(AbsPathOf(cc)) == FixedDirs(cc)
  {
    var cwd := AbsPathOf(cc);
    assert AbsPathOf([VideosName]) == "/" + VideosName;
    assert AbsPathOf([OutputName]) == "/" + OutputName;
    AbspathOfServedDir(VideosName, cwd);
    AbspathOfServedDir(OutputName, cwd);
    AbspathOfAbsPathOf(cc, cwd);
  }

  /** Appending a slash to both sides: `P/` starts with `D/` exactly when
      `P` is `D` or starts with `D/`. */
  lemma SlashPrefix(p: string, d: string)
    ensures StartsWith(p + "/", d + "/") <==> p == d || StartsWith(p, d + "/")
  {
    if |p| == |d| {
      if StartsWith(p + "/", d + "/") {
        assert p == (p + "/")[..|p|] == (d + "/")[..|d|] == d;
      }
    } else if |p| > |d| {
      assert (p + "/")[..|d| + 1] == p[..|d| + 1];
    }
  }

  /** For normalised absolute paths, lying inside a directory is having the
      directory's components as a prefix. */
  lemma InsideDirIffPrefix(ca: seq<string>, cd: seq<string>)
    requires AllNormal(ca) && AllNormal(cd)
    ensures InsideDir(AbsPathOf(ca), AbsPathOf(cd)) <==> cd <= ca
  {
    var p, d := AbsPathOf(ca), AbsPathOf(cd);
    if cd == [] {
      assert d == "/";
      assert p[..1] == "/";
    } else {
      JoinLast(cd);
      var last := cd[|cd| - 1];
      assert NormalComp(last);
      assert last[|last| - 1] in last;
      assert d[|d| - 1] == last[|last| - 1];
      SlashPrefix(p, d);
      JoinTerminated(cd);
      assert d + "/" == "/" + Terminated(cd);
      if ca == [] {
        assert p + "/" == "//";
        assert |Terminated(cd)| >= 2 by {
          assert Terminated(cd) == cd[0] + "/" + Terminated(cd[1..]);
        }
      } else {
        JoinTerminated(ca);
        assert p + "/" == "/" + Terminated(ca);
        StartsWithShared("/", Terminated(ca), Terminated(cd));
        TerminatedPrefix(ca, cd);
      }
    }
  }

  /** Lying inside a directory implies starting with its text. */
  lemma InsideDirStartsWith(p: string, d: string)
    requires InsideDir(p, d)
    ensures StartsWith(p, d)
  {
    if p != d && !EndsWith(d, "/") {
      assert p[..|d|] == p[..|d| + 1][..|d|];
    }
  }

  /** The corrected test admits nothing the written one rejects. */
  lemma AllowedImpliesAllowedAsWritten(abs: string, cwd: string)
    requires IsAllowed(abs, cwd)
    ensures IsAllowedAsWritten(abs, cwd)
  {
    var dirs := AllowedDirs(cwd);
    var i :| 0 <= i < |dirs| && InsideDir(abs, dirs[i]);
    InsideDirStartsWith(abs, dirs[i]);
  }

  lemma InsideFixedDirs(ca: seq<string>, cc: seq<string>)
    requires AllNormal(ca) && AllNormal(cc)
    ensures InsideAny(AbsPathOf(ca), FixedDirs(cc))
            <==> [VideosName] <= ca || [OutputName] <= ca || cc <= ca
  {
    var dirs := FixedDirs(cc);
    InsideDirIffPrefix(ca, [VideosName]);
    InsideDirIffPrefix(ca, [OutputName]);
    InsideDirIffPrefix(ca, cc);
    if [VideosName] <= ca || [OutputName] <= ca || cc <= ca {
      assert InsideDir(AbsPathOf(ca), dirs[0]) || InsideDir(AbsPathOf(ca), dirs[1]) || InsideDir(AbsPathOf(ca), dirs[2]);
    }
  }

  /** For normalised paths, the corrected test admits exactly the paths
      under `/videos`, under `/output` or under the current directory. */
  lemma AllowedByComponents(ca: seq<string>, cc: seq<string>)
    requires AllNormal(ca) && AllNormal(cc)
    ensures IsAllowed(AbsPathOf(ca), AbsPathOf(cc))
            <==> [VideosName] <= ca || [OutputName] <= ca || cc <= ca
  {
    AllowedDirsOf(cc);
    InsideFixedDirs(ca, cc);
  }

  /** For normalised paths, the written test admits exactly the paths whose
      first component begins with `videos` or `output`, and those whose text
      begins with the current directory's. */
  lemma AllowedAsWrittenByComponents(ca: seq<string>, cc: seq<string>)
    requires AllNormal(ca) && AllNormal(cc)
    ensures IsAllowedAsWritten(AbsPathOf(ca), AbsPathOf(cc))
            <==> || (ca != [] && (StartsWith(ca[0], VideosName) || StartsWith(ca[0], OutputName)))
                 || StartsWith(AbsPathOf(ca), AbsPathOf(cc))
  {
    AllowedDirsOf(cc);
    WrittenTestByComponents(ca, cc, VideosName, OutputName);
  }

  /** The prefix test against `/<t1>`, `/<t2>` and a normalised directory, on
      components. */
  lemma WrittenTestByComponents(ca: seq<string>, cc: seq<string>, t1: string, t2: string)
    requires AllNormal(ca) && t1 != "" && '/' !in t1 && t2 != "" && '/' !in t2
    ensures StartsWithAny(AbsPathOf(ca), [AbsPathOf([t1]), AbsPathOf([t2]), AbsPathOf(cc)])
            <==> || (ca != [] && (StartsWith(ca[0], t1) || StartsWith(ca[0], t2)))
                 || StartsWith(AbsPathOf(ca), AbsPathOf(cc))
  {
    assert AbsPathOf([t1]) == "/" + t1;
    assert AbsPathOf([t2]) == "/" + t2;
    StartsWithTop(ca, t1);
    StartsWithTop(ca, t2);
    StartsWithAnyOfThree(AbsPathOf(ca), AbsPathOf([t1]), AbsPathOf([t2]), AbsPathOf(cc));
  }

  lemma StartsWithAnyOfThree(p: string, x: string, y: string, z: string)
    ensures StartsWithAny(p, [x, y, z]) <==> StartsWith(p, x) || StartsWith(p, y) || StartsWith(p, z)
  {
    var dirs := [x, y, z];
    if StartsWith(p, x) || StartsWith(p, y) || StartsWith(p, z) {
      assert StartsWith(p, dirs[0]) || StartsWith(p, dirs[1]) || StartsWith(p, dirs[2]);
    }
  }

  /** The written test lets a sibling directory through: a path under
      `/videos2` (or any name that merely starts with `videos`) is accepted
      although it lies under none of the allowed directories. */
  lemma AllowListSiblingPrefix(name: string, sub: seq<string>, cc: seq<string>)
    requires NormalComp(name) && StartsWith(name, VideosName) && name != VideosName
    requires AllNormal(sub) && AllNormal(cc) && !(cc <= [name] + sub)
    ensures IsAllowedAsWritten(AbsPathOf([name] + sub), AbsPathOf(cc))
    ensures !IsAllowed(AbsPathOf([name] + sub), AbsPathOf(cc))
  {
    var ca := [name] + sub;
    assert AllNormal(ca);
    AllowedDirsOf(cc);
    SiblingStartsWith(name, sub);
    assert StartsWith(AbsPathOf(ca), FixedDirs(cc)[0]);
    InsideFixedDirs(ca, cc);
    assert !([OutputName] <= ca) by {
      assert name[0] == VideosName[0] != OutputName[0];
    }
  }

  /** The text of a path under a sibling `videos...` starts with
      `/videos`. */
  lemma SiblingStartsWith(name: string, sub: seq<string>)
    requires StartsWith(name, VideosName)
    ensures StartsWith(AbsPathOf([name] + sub), AbsPathOf([VideosName]))
  {
    var ca := [name] + sub;
    assert AbsPathOf([VideosName]) == "/" + VideosName;
    assert Strings.Join(ca, '/')[..|name|] == name by {
      assert ca[0] == name;
    }
    assert AbsPathOf(ca)[..|VideosName| + 1] == "/" + name[..|VideosName|];
  }

  // ---------------------------------------------------------------------
  // download_video

  /** The size limit of `download_video`: 200 MiB. */
  const MaxDownloadSize: nat := 200 * 1024 * 1024

  /** What `download_video` returns: one of its error dictionaries, or the
      served file's name and size. */
  datatype Download =
    | NotFound(path: string)
    | Denied
    | TooLarge(size: nat)
    | ReadFailed
    | Served(filename: string, size: nat)

  /** `download_video(video_path)` with the allow test on the absolute path
      as a parameter: existence first, then the allow test, then the size
      limit, then the read (which fails on a directory). */
  function DownloadWith(path: string, fs: FileSystem, cwd: string, allowed: string -> bool): (r: Download)
    ensures r.NotFound? <==> !Exists(path, fs, cwd)
    ensures r.Denied? <==> Exists(path, fs, cwd) && !allowed(Abspath(path, cwd))
    ensures r.TooLarge? || r.ReadFailed? || r.Served? ==>
              Exists(path, fs, cwd) && allowed(Abspath(path, cwd))
    ensures r.TooLarge? <==>
              Exists(path, fs, cwd) && allowed(Abspath(path, cwd))
              && fs[Abspath(path, cwd)].size > MaxDownloadSize
    ensures r.Served? ==>
              var e := fs[Abspath(path, cwd)];
              e.File? && r.size == e.size <= MaxDownloadSize && r.filename == Basename(Abspath(path, cwd))
  {
    if !Exists(path, fs, cwd) then NotFound(path)
    else
      var abs := Abspath(path, cwd);
      if !allowed(abs) then Denied
      else
        var size := fs[abs].size;
        if size > MaxDownloadSize then TooLarge(size)
        else if fs[abs].Dir? then ReadFailed
        else Served(Basename(abs), size)
  }

  /** `download_video(video_path)` as the server writes it: the allow test
      is the textual prefix test. */
  function DownloadVideo(path: string, fs: FileSystem, cwd: string): (r: Download)
    ensures r.NotFound? <==> !Exists(path, fs, cwd)
    ensures r.Denied? <==> Exists(path, fs, cwd) && !IsAllowedAsWritten(Abspath(path, cwd), cwd)
    ensures r.Served? <==>
              var abs := Abspath(path, cwd);
              && Exists(path, fs, cwd) && IsAllowedAsWritten(abs, cwd)
              && fs[abs].File? && fs[abs].size <= MaxDownloadSize
    ensures r.Served? ==>
              r.size == fs[Abspath(path, cwd)].size && r.filename == Basename(Abspath(path, cwd))
  {
    DownloadWith(path, fs, cwd, AllowedAsWrittenIn(cwd))
  }

  /** `download_video` with the test its error message describes: it denies
      every path the written test denies, and more, and otherwise answers
      as `download_video` does. */
  function DownloadVideoIntended(path: string, fs: FileSystem, cwd: string): (r: Download)
    ensures r.Denied? <==> Exists(path, fs, cwd) && !IsAllowed(Abspath(path, cwd), cwd)
    ensures DownloadVideo(path, fs, cwd).Denied? ==> r.Denied?
    ensures !r.Denied? ==> r == DownloadVideo(path, fs, cwd)
  {
    AllowedInNarrower(cwd);
    DownloadStricter(path, fs, cwd, AllowedAsWrittenIn(cwd), AllowedIn(cwd));
    DownloadWith(path, fs, cwd, AllowedIn(cwd))
  }

  /** A stricter allow test denies whatever a looser one denies, and
      otherwise gives the same answer. */
  lemma DownloadStricter(path: string, fs: FileSystem, cwd: string, loose: string -> bool, strict: string -> bool)
    requires forall k :: strict(k) ==> loose(k)
    ensures DownloadWith(path, fs, cwd, loose).Denied? ==> DownloadWith(path, fs, cwd, strict).Denied?
    ensures !DownloadWith(path, fs, cwd, strict).Denied? ==>
              DownloadWith(path, fs, cwd, strict) == DownloadWith(path, fs, cwd, loose)
  {
  }

  /** With the written test a file is served exactly when it exists, is a
      regular file of at most 200 MiB and, for normalised paths, its first
      component begins with `videos` or `output` or its text begins with
      the current directory's. */
  lemma DownloadServesAsWritten(ca: seq<string>, cc: seq<string>, fs: FileSystem)
    requires AllNormal(ca) && AllNormal(cc)
    ensures var p, cwd := AbsPathOf(ca), AbsPathOf(cc);
            DownloadVideo(p, fs, cwd).Served?
            <==> && p in fs && fs[p].File? && fs[p].size <= MaxDownloadSize
                 && (|| (ca != [] && (StartsWith(ca[0], VideosName) || StartsWith(ca[0], OutputName)))
                     || StartsWith(p, cwd))
  {
    var p, cwd := AbsPathOf(ca), AbsPathOf(cc);
    AbspathOfAbsPathOf(ca, cwd);
    assert p != "";
    AllowedAsWrittenByComponents(ca, cc);
  }

  /** With the written test a file under a sibling such as `/videos2` is
      served; with the test the error message describes it is denied. */
  lemma DownloadSiblingAsWritten(name: string, sub: seq<string>, cc: seq<string>, size: nat)
    requires NormalComp(name) && StartsWith(name, VideosName) && name != VideosName
    requires AllNormal(sub) && AllNormal(cc) && !(cc <= [name] + sub)
    requires size <= MaxDownloadSize
    ensures var p, cwd := AbsPathOf([name] + sub), AbsPathOf(cc);
            && DownloadVideo(p, map[p := File(size)], cwd).Served?
            && DownloadVideoIntended(p, map[p := File(size)], cwd) == Denied
  {
    var ca := [name] + sub;
    var p, cwd := AbsPathOf(ca), AbsPathOf(cc);
    assert AllNormal(ca);
    AbspathOfAbsPathOf(ca, cwd);
    assert p != "";
    AllowListSiblingPrefix(name, sub, cc);
  }

  /** With the corrected test a file is served exactly when it exists, lies
      in an allowed directory, is a regular file and is at most 200 MiB; for
      normalised paths that means its components start with `videos`,
      `output` or the current directory's. */
  lemma DownloadServesOnlyAllowedFiles(ca: seq<string>, cc: seq<string>, fs: FileSystem)
    requires AllNormal(ca) && AllNormal(cc)
    ensures var p := AbsPathOf(ca);
            DownloadVideoIntended(p, fs, AbsPathOf(cc)).Served?
            <==> && p in fs && fs[p].File? && fs[p].size <= MaxDownloadSize
                 && ([VideosName] <= ca || [OutputName] <= ca || cc <= ca)
  {
    var p, cwd := AbsPathOf(ca), AbsPathOf(cc);
    AbspathOfAbsPathOf(ca, cwd);
    AllowedByComponents(ca, cc);
  }

  /** The components of `abspath(p)` when the current directory is the
      normalised `cc`. */
  function AbsComponents(p: string, cc: seq<string>): seq<string> {
    NormComps(if IsAbs(p) then p else PosixPath.Join(AbsPathOf(cc), p))
  }

  /** In a normalised current directory, `abspath` of any path is a
      normalised absolute path, except that a path starting with exactly two
      slashes keeps both. */
  lemma AbspathInNormalCwd(p: string, cc: seq<string>)
    requires AllNormal(cc)
    ensures AllNormal(AbsComponents(p, cc))
    ensures var abs := Abspath(p, AbsPathOf(cc));
            || abs == AbsPathOf(AbsComponents(p, cc))
            || (StartsWith(p, "//") && abs == "/" + AbsPathOf(AbsComponents(p, cc)))
  {
    if IsAbs(p) {
      NormPathAbsolute(p);
    } else {
      AbspathOfRelative(p, cc);
    }
  }

  /** `abspath` of a relative path in a normalised current directory. */
  lemma AbspathOfRelative(p: string, cc: seq<string>)
    requires AllNormal(cc) && !IsAbs(p)
    ensures AllNormal(AbsComponents(p, cc))
    ensures Abspath(p, AbsPathOf(cc)) == AbsPathOf(AbsComponents(p, cc))
  {
    var q := PosixPath.Join(AbsPathOf(cc), p);
    if cc == [] {
      RootJoinOneSlash(p);
    } else {
      CwdJoinOneSlash(cc, p);
    }
    NormPathAbsolute(q);
  }

  /** A relative path joined to `/` starts with exactly one slash. */
  lemma RootJoinOneSlash(p: string)
    requires !IsAbs(p)
    ensures IsAbs(PosixPath.Join(AbsPathOf([]), p)) && LeadingSlashes(PosixPath.Join(AbsPathOf([]), p)) == 1
  {
    var q := PosixPath.Join(AbsPathOf([]), p);
    assert AbsPathOf([]) == "/";
    assert q == "/" + p;
    if p != "" {
      DifferAt(q, "//", 1);
    }
  }

  /** A relative path joined to a normalised directory other than the root
      starts with exactly one slash. */
  lemma CwdJoinOneSlash(cc: seq<string>, p: string)
    requires cc != [] && AllNormal(cc) && !IsAbs(p)
    ensures IsAbs(PosixPath.Join(AbsPathOf(cc), p)) && LeadingSlashes(PosixPath.Join(AbsPathOf(cc), p)) == 1
  {
    var cwd := AbsPathOf(cc);
    var q := PosixPath.Join(cwd, p);
    OneLeadingSlash(cc);
    assert StartsWith(q, cwd);
    assert q[1] == cwd[1];
    DifferAt(q, "//", 1);
  }

  /** A path whose second character is `/` lies in no directory of the form
      `/<name>/...`. */
  lemma SecondSlashOutside(q: string, ds: seq<string>)
    requires ds != [] && AllNormal(ds)
    requires |q| >= 2 && q[1] == '/'
    ensures !InsideDir(q, AbsPathOf(ds))
  {
    var d := AbsPathOf(ds);
    OneLeadingSlash(ds);
    var e := if EndsWith(d, "/") then d else d + "/";
    assert e[1] == d[1];
    DifferAt(q, e, 1);
    assert q[1] != d[1];
  }

  /** A path kept with two leading slashes is outside the allowed
      directories, unless the current directory is `/`. */
  lemma DoubleSlashOutside(ca: seq<string>, cc: seq<string>)
    requires AllNormal(ca) && AllNormal(cc)
    ensures cc != [] ==> !IsAllowed("/" + AbsPathOf(ca), AbsPathOf(cc))
  {
    if cc != [] {
      var q := "/" + AbsPathOf(ca);
      assert q[1] == '/';
      MountNamesNormal();
      AllowedDirsOf(cc);
      SecondSlashOutside(q, [VideosName]);
      SecondSlashOutside(q, [OutputName]);
      SecondSlashOutside(q, cc);
    }
  }

  /** For every input path, normalised or not: whatever the corrected
      `download_video` serves is, once `abspath` has removed `.`, `..` and
      repeated slashes, a path under `/videos`, `/output` or the current
      directory. */
  lemma DownloadIntendedStaysInside(p: string, fs: FileSystem, cc: seq<string>)
    requires AllNormal(cc)
    ensures var ca := AbsComponents(p, cc);
            DownloadVideoIntended(p, fs, AbsPathOf(cc)).Served? ==>
              && AllNormal(ca)
              && (Abspath(p, AbsPathOf(cc)) == AbsPathOf(ca) || cc == [])
              && ([VideosName] <= ca || [OutputName] <= ca || cc <= ca)
  {
    var ca := AbsComponents(p, cc);
    AbspathInNormalCwd(p, cc);
    AllowedByComponents(ca, cc);
    DoubleSlashOutside(ca, cc);
  }

  /** `download_video("/<top>/../<rest>")`: `abspath` cancels `top` with the
      `..`, so both versions answer as for `/<rest>`; the corrected one
      serves it only under `/videos`, `/output` or the current directory. */
  lemma ParentEscapeIsCollapsed(top: string, cs: seq<string>, cc: seq<string>, fs: FileSystem)
    requires NormalComp(top) && AllNormal(cs) && AllNormal(cc)
    ensures var p, cwd := AbsPathOf([top, ".."] + cs), AbsPathOf(cc);
            && Abspath(p, cwd) == AbsPathOf(cs)
            && DownloadVideo(p, fs, cwd).Served? == DownloadVideo(AbsPathOf(cs), fs, cwd).Served?
            && (DownloadVideoIntended(p, fs, cwd).Served?
                <==> && AbsPathOf(cs) in fs && fs[AbsPathOf(cs)].File? && fs[AbsPathOf(cs)].size <= MaxDownloadSize
                     && ([VideosName] <= cs || [OutputName] <= cs || cc <= cs))
  {
    var p, cwd := AbsPathOf([top, ".."] + cs), AbsPathOf(cc);
    NormPathDropsParent([], top, cs);
    assert [] + [top, ".."] + cs == [top, ".."] + cs && [] + cs == cs;
    assert IsAbs(p);
    AbspathOfAbsPathOf(cs, cwd);
    assert p != "" && AbsPathOf(cs) != "";
    DownloadServesOnlyAllowedFiles(cs, cc, fs);
  }

  /** The limit is inclusive: a file of exactly 200 MiB is served, one byte
      more is refused with its size. */
  lemma DownloadSizeBoundary(name: string, cc: seq<string>)
    requires NormalComp(name) && AllNormal(cc)
    ensures var p, cwd := AbsPathOf([VideosName, name]), AbsPathOf(cc);
            && DownloadVideo(p, map[p := File(MaxDownloadSize)], cwd).Served?
            && DownloadVideo(p, map[p := File(MaxDownloadSize + 1)], cwd) == TooLarge(MaxDownloadSize + 1)
  {
    var ca := [VideosName, name];
    assert AllNormal(ca);
    AbspathOfAbsPathOf(ca, AbsPathOf(cc));
    AllowedByComponents(ca, cc);
    assert [VideosName] <= ca;
    AllowedImpliesAllowedAsWritten(AbsPathOf(ca), AbsPathOf(cc));
  }

  // ---------------------------------------------------------------------
  // delete_videos
  //
  // The loop is stated over a path resolver `resolve` (`os.path.abspath`
  // with the current directory fixed) and an allow test `allowed` on
  // resolved paths; `DeleteVideos` instantiates both.

  datatype FailReason = OutsideAllowed | Missing | RemoveError

  /** One entry of the `failed` list: the path as given and why. */
  datatype Failure = Failure(path: string, reason: FailReason)

  /** The `{"success": [...], "failed": [...]}` summary. */
  datatype DeleteReport = DeleteReport(success: seq<string>, failed: seq<Failure>)

  /** What happened to one path. */
  datatype Step = Removed | Refused(reason: FailReason)

  /** One iteration of the loop: the allow-list first, then existence, then
      `os.remove`, which fails on a directory. */
  function DeleteStep(path: string, fs: FileSystem, resolve: string -> string, allowed: string -> bool)
    : (r: (Step, FileSystem))
    ensures var abs := resolve(path);
            && (r.0 == Removed <==> allowed(abs) && abs in fs && fs[abs].File?)
            && (r.0 == Refused(OutsideAllowed) <==> !allowed(abs))
            && (r.0 == Refused(Missing) <==> allowed(abs) && abs !in fs)
            && (r.0 == Removed ==> r.1 == fs - {abs})
            && (r.0 != Removed ==> r.1 == fs)
  {
    var abs := resolve(path);
    if !allowed(abs) then (Refused(OutsideAllowed), fs)
    else if abs !in fs then (Refused(Missing), fs)
    else if fs[abs].Dir? then (Refused(RemoveError), fs)
    else (Removed, fs - {abs})
  }

  /** The paths of the failure entries, in report order. */
  function FailedPaths(failures: seq<Failure>): (r: seq<string>)
    ensures |r| == |failures|
    ensures forall i :: 0 <= i < |failures| ==> r[i] == failures[i].path
  {
    if failures == [] then [] else [failures[0].path] + FailedPaths(failures[1..])
  }

  /** `xs` is a merge of `a` and `b`: every element of `xs` goes, in order,
      to exactly one of them. */
  predicate Interleaves(xs: seq<string>, a: seq<string>, b: seq<string>)
    decreases |xs|
  {
    if xs == [] then a == [] && b == []
    else
      || (a != [] && a[0] == xs[0] && Interleaves(xs[1..], a[1..], b))
      || (b != [] && b[0] == xs[0] && Interleaves(xs[1..], a, b[1..]))
  }

  /** The resolved paths of a list of paths. */
  function AbsSet(paths: seq<string>, resolve: string -> string): set<string> {
    if paths == [] then {} else {resolve(paths[0])} + AbsSet(paths[1..], resolve)
  }

  /** No two paths of the list resolve to the same file. */
  predicate Distinct(paths: seq<string>, resolve: string -> string) {
    paths == [] || (resolve(paths[0]) !in AbsSet(paths[1..], resolve) && Distinct(paths[1..], resolve))
  }

  /** The loop of `delete_videos`: the summary and the file system after
      the removals.  Every path is reported once, in order; exactly the
      files of the successes are gone, each once; nothing else changes. */
  function DeleteEach(paths: seq<string>, fs: FileSystem, resolve: string -> string, allowed: string -> bool)
    : (r: (DeleteReport, FileSystem))
    ensures Interleaves(paths, r.0.success, FailedPaths(r.0.failed))
    ensures r.1.Keys <= fs.Keys && forall k :: k in r.1 ==> r.1[k] == fs[k]
    ensures fs.Keys - r.1.Keys == AbsSet(r.0.success, resolve)
    ensures Distinct(r.0.success, resolve)
    decreases |paths|
  {
    if paths == [] then (DeleteReport([], []), fs)
    else
      var step := DeleteStep(paths[0], fs, resolve, allowed);
      var rest := DeleteEach(paths[1..], step.1, resolve, allowed);
      match step.0
      case Removed =>
        (DeleteReport([paths[0]] + rest.0.success, rest.0.failed), rest.1)
      case Refused(why) =>
        (DeleteReport(rest.0.success, [Failure(paths[0], why)] + rest.0.failed), rest.1)
  }

  /** `os.path.abspath` against the current directory `cwd`. */
  function AbsIn(cwd: string): string -> string {
    (p: string) => Abspath(p, cwd)
  }

  /** The allow-list test against the current directory `cwd`. */
  function AllowedIn(cwd: string): string -> bool {
    (abs: string) => IsAllowed(abs, cwd)
  }

  /** The allow-list test as the server writes it, against `cwd`. */
  function AllowedAsWrittenIn(cwd: string): string -> bool {
    (abs: string) => IsAllowedAsWritten(abs, cwd)
  }

  /** `delete_videos(video_paths)` run in `cwd`, with the allow test as the
      server writes it: the files removed are exactly the regular files
      named by the list whose absolute path passes the textual prefix
      test. */
  function DeleteVideos(paths: seq<string>, fs: FileSystem, cwd: string): (r: (DeleteReport, FileSystem))
    ensures fs.Keys - r.1.Keys
            == set k | k in AbsSet(paths, AbsIn(cwd)) && k in fs && fs[k].File? && IsAllowedAsWritten(k, cwd)
  {
    DeleteEachRemovesExactly(paths, fs, AbsIn(cwd), AllowedAsWrittenIn(cwd));
    DeleteEach(paths, fs, AbsIn(cwd), AllowedAsWrittenIn(cwd))
  }

  /** `delete_videos` with the test its error message describes: a file is
      removed exactly when `delete_videos` removes it and it really lies in
      an allowed directory. */
  function DeleteVideosIntended(paths: seq<string>, fs: FileSystem, cwd: string): (r: (DeleteReport, FileSystem))
    ensures forall k :: k in fs ==> (k !in r.1 <==> k !in DeleteVideos(paths, fs, cwd).1 && IsAllowed(k, cwd))
  {
    AllowedInNarrower(cwd);
    StricterRemovesLess(paths, fs, AbsIn(cwd), AllowedAsWrittenIn(cwd), AllowedIn(cwd));
    DeleteEach(paths, fs, AbsIn(cwd), AllowedIn(cwd))
  }

  /** The corrected test admits no path the written test refuses. */
  lemma AllowedInNarrower(cwd: string)
    ensures forall k :: AllowedIn(cwd)(k) ==> AllowedAsWrittenIn(cwd)(k)
  {
    forall k | AllowedIn(cwd)(k)
      ensures AllowedAsWrittenIn(cwd)(k)
    {
      AllowedImpliesAllowedAsWritten(k, cwd);
    }
  }

  /** A stricter allow test removes exactly the files the looser one
      removes that also pass it. */
  lemma StricterRemovesLess(paths: seq<string>, fs: FileSystem, resolve: string -> string,
                            loose: string -> bool, strict: string -> bool)
    requires forall k :: strict(k) ==> loose(k)
    ensures forall k :: k in fs ==>
              (k !in DeleteEach(paths, fs, resolve, strict).1
               <==> k !in DeleteEach(paths, fs, resolve, loose).1 && strict(k))
  {
    DeleteEachRemovesExactly(paths, fs, resolve, loose);
    DeleteEachRemovesExactly(paths, fs, resolve, strict);
    var a := DeleteEach(paths, fs, resolve, loose).1;
    var b := DeleteEach(paths, fs, resolve, strict).1;
    forall k | k in fs
      ensures k !in b <==> k !in a && strict(k)
    {
      assert k !in b <==> k in fs.Keys - b.Keys;
      assert k !in a <==> k in fs.Keys - a.Keys;
    }
  }

  /** The files a run of the loop removes: the allowed regular files that
      the list names. */
  function RemovableSet(paths: seq<string>, fs: FileSystem, resolve: string -> string, allowed: string -> bool): set<string> {
    set k | k in AbsSet(paths, resolve) && k in fs && fs[k].File? && allowed(k)
  }

  /** The loop removes every allowed regular file the list names, and
      nothing else. */
  lemma {:induction false} DeleteEachRemovesExactly(paths: seq<string>, fs: FileSystem, resolve: string -> string, allowed: string -> bool)
    ensures fs.Keys - DeleteEach(paths, fs, resolve, allowed).1.Keys == RemovableSet(paths, fs, resolve, allowed)
    decreases |paths|
  {
    if paths != [] {
      var abs := resolve(paths[0]);
      var first := DeleteStep(paths[0], fs, resolve, allowed);
      var fs1 := first.1;
      var rest := DeleteEach(paths[1..], fs1, resolve, allowed);
      DeleteEachRemovesExactly(paths[1..], fs1, resolve, allowed);
      assert DeleteEach(paths, fs, resolve, allowed).1 == rest.1;
      assert AbsSet(paths, resolve) == {abs} + AbsSet(paths[1..], resolve);
      var want := RemovableSet(paths, fs, resolve, allowed);
      var got := fs1.Keys - rest.1.Keys;
      forall k | k != abs
        ensures k in fs.Keys - rest.1.Keys <==> k in want
      {
        assert k in fs1 <==> k in fs;
        if k in fs1 {
          assert fs1[k] == fs[k];
        }
        assert k in got <==> k in RemovableSet(paths[1..], fs1, resolve, allowed);
      }
      assert abs in fs.Keys - rest.1.Keys <==> abs in want;
    }
  }

  /** Merging keeps every element: the two sides together are a
      permutation of the whole. */
  lemma {:induction false} InterleavesPartition(xs: seq<string>, a: seq<string>, b: seq<string>)
    requires Interleaves(xs, a, b)
    ensures |a| + |b| == |xs|
    ensures multiset(a) + multiset(b) == multiset(xs)
    decreases |xs|
  {
    if xs != [] {
      assert xs == [xs[0]] + xs[1..];
      if a != [] && a[0] == xs[0] && Interleaves(xs[1..], a[1..], b) {
        InterleavesPartition(xs[1..], a[1..], b);
        assert a == [a[0]] + a[1..];
      } else {
        InterleavesPartition(xs[1..], a, b[1..]);
        assert b == [b[0]] + b[1..];
      }
    }
  }

  /** A path the loop may remove: allowed and a regular file. */
  predicate Removable(path: string, fs: FileSystem, resolve: string -> string, allowed: string -> bool) {
    var abs := resolve(path);
    allowed(abs) && abs in fs && fs[abs].File?
  }

  /** A failure's reason is right: outside the allow-list exactly when the
      path is not allowed; missing only for an allowed path absent from
      `after`; a removal error exactly for an allowed path that was a
      directory in `before`. */
  predicate ReasonHolds(f: Failure, before: FileSystem, after: FileSystem, resolve: string -> string, allowed: string -> bool) {
    var abs := resolve(f.path);
    && (f.reason == OutsideAllowed <==> !allowed(abs))
    && (f.reason == Missing ==> allowed(abs) && abs !in after)
    && (f.reason == RemoveError <==> allowed(abs) && abs in before && before[abs].Dir?)
  }

  predicate AllRemovable(paths: seq<string>, fs: FileSystem, resolve: string -> string, allowed: string -> bool) {
    forall i :: 0 <= i < |paths| ==> Removable(paths[i], fs, resolve, allowed)
  }

  predicate AllReasonsHold(failures: seq<Failure>, before: FileSystem, after: FileSystem, resolve: string -> string, allowed: string -> bool) {
    forall i :: 0 <= i < |failures| ==> ReasonHolds(failures[i], before, after, resolve, allowed)
  }

  /** Every reported success was an allowed regular file before the call;
      every failure names the right reason: outside the allow-list exactly
      when the path is not allowed, missing only for an allowed path that is
      not in the final file system, and a removal error exactly for an
      allowed path naming a directory. */
  lemma {:induction false} DeleteReportHonest(paths: seq<string>, fs: FileSystem, resolve: string -> string, allowed: string -> bool)
    ensures var r := DeleteEach(paths, fs, resolve, allowed);
            AllRemovable(r.0.success, fs, resolve, allowed) && AllReasonsHold(r.0.failed, fs, r.1, resolve, allowed)
    decreases |paths|
  {
    if paths != [] {
      var first := DeleteStep(paths[0], fs, resolve, allowed);
      var fs1 := first.1;
      var rest := DeleteEach(paths[1..], fs1, resolve, allowed);
      var r := DeleteEach(paths, fs, resolve, allowed);
      DeleteReportHonest(paths[1..], fs1, resolve, allowed);
      assert AllRemovable(rest.0.success, fs1, resolve, allowed);
      assert AllReasonsHold(rest.0.failed, fs1, rest.1, resolve, allowed);
      forall k | k in fs1
        ensures k in fs && fs1[k] == fs[k]
      {
      }
      forall k | k in fs && fs[k].Dir?
        ensures k in fs1
      {
      }
      assert r.1 == rest.1;
      forall i | 0 <= i < |rest.0.success|
        ensures Removable(rest.0.success[i], fs, resolve, allowed)
      {
        assert Removable(rest.0.success[i], fs1, resolve, allowed);
      }
      forall i | 0 <= i < |rest.0.failed|
        ensures ReasonHolds(rest.0.failed[i], fs, r.1, resolve, allowed)
      {
        assert ReasonHolds(rest.0.failed[i], fs1, rest.1, resolve, allowed);
      }
      if first.0 == Removed {
        assert r.0 == DeleteReport([paths[0]] + rest.0.success, rest.0.failed);
        assert forall i :: 1 <= i < |r.0.success| ==> r.0.success[i] == rest.0.success[i - 1];
      } else {
        var f := Failure(paths[0], first.0.reason);
        assert r.0 == DeleteReport(rest.0.success, [f] + rest.0.failed);
        forall i | 0 <= i < |r.0.failed|
          ensures ReasonHolds(r.0.failed[i], fs, r.1, resolve, allowed)
        {
          if i == 0 {
            assert r.0.failed[0] == f;
            assert first.0 == Refused(f.reason);
            assert f.reason == Missing ==> resolve(f.path) !in fs1;
          } else {
            assert r.0.failed[i] == rest.0.failed[i - 1];
          }
        }
      }
    }
  }

  lemma {:induction false} AbsSetHas(paths: seq<string>, resolve: string -> string, i: nat)
    requires i < |paths|
    ensures resolve(paths[i]) in AbsSet(paths, resolve)
    decreases i
  {
    if i > 0 {
      AbsSetHas(paths[1..], resolve, i - 1);
    }
  }

  /** Paths none of which is in the file system: nothing is removed. */
  lemma {:induction false} NothingLeftToDelete(paths: seq<string>, fs: FileSystem, resolve: string -> string, allowed: string -> bool)
    requires forall i :: 0 <= i < |paths| ==> resolve(paths[i]) !in fs
    ensures DeleteEach(paths, fs, resolve, allowed).0.success == []
    ensures DeleteEach(paths, fs, resolve, allowed).1 == fs
    decreases |paths|
  {
    if paths != [] {
      NothingLeftToDelete(paths[1..], fs, resolve, allowed);
    }
  }

  /** Deleting the reported successes a second time removes nothing: the
      first call really removed them. */
  lemma DeleteAgainRemovesNothing(paths: seq<string>, fs: FileSystem, resolve: string -> string, allowed: string -> bool)
    ensures var (rep, after) := DeleteEach(paths, fs, resolve, allowed);
            && DeleteEach(rep.success, after, resolve, allowed).0.success == []
            && DeleteEach(rep.success, after, resolve, allowed).1 == after
  {
    var (rep, after) := DeleteEach(paths, fs, resolve, allowed);
    forall i | 0 <= i < |rep.success|
      ensures resolve(rep.success[i]) !in after
    {
      AbsSetHas(rep.success, resolve, i);
    }
    NothingLeftToDelete(rep.success, after, resolve, allowed);
  }

  /** The same file listed twice is removed once and then reported
      missing. */
  lemma DeleteSamePathTwice(p: string, fs: FileSystem, resolve: string -> string, allowed: string -> bool)
    requires Removable(p, fs, resolve, allowed)
    ensures DeleteEach([p, p], fs, resolve, allowed)
            == (DeleteReport([p], [Failure(p, Missing)]), fs - {resolve(p)})
  {
    var abs := resolve(p);
    var after := fs - {abs};
    assert DeleteStep(p, fs, resolve, allowed) == (Removed, after);
    assert DeleteStep(p, after, resolve, allowed) == (Refused(Missing), after);
    assert [p, p][1..] == [p] && [p][1..] == [];
    var last := DeleteEach([p][1..], after, resolve, allowed);
    assert last == (DeleteReport([], []), after);
    var second := DeleteEach([p, p][1..], after, resolve, allowed);
    assert second == (DeleteReport([], [Failure(p, Missing)] + last.0.failed), last.1);
    assert [Failure(p, Missing)] + last.0.failed == [Failure(p, Missing)];
    assert DeleteEach([p, p], fs, resolve, allowed) == (DeleteReport([p] + second.0.success, second.0.failed), second.1);
    assert [p] + second.0.success == [p];
  }

  /** With the corrected test a file is removed only if it lies in an
      allowed directory: for normalised paths, under `/videos`, `/output` or
      the current directory. */
  lemma DeleteVideosOnlyAllowed(paths: seq<string>, fs: FileSystem, cc: seq<string>, ca: seq<string>)
    requires AllNormal(cc) && AllNormal(ca)
    ensures AbsPathOf(ca) in fs && AbsPathOf(ca) !in DeleteVideosIntended(paths, fs, AbsPathOf(cc)).1
            ==> [VideosName] <= ca || [OutputName] <= ca || cc <= ca
  {
    if AbsPathOf(ca) in fs && AbsPathOf(ca) !in DeleteVideosIntended(paths, fs, AbsPathOf(cc)).1 {
      RemovedIsAllowed(paths, fs, cc, ca);
    }
  }

  lemma RemovedIsAllowed(paths: seq<string>, fs: FileSystem, cc: seq<string>, ca: seq<string>)
    requires AllNormal(cc) && AllNormal(ca)
    requires AbsPathOf(ca) in fs && AbsPathOf(ca) !in DeleteVideosIntended(paths, fs, AbsPathOf(cc)).1
    ensures [VideosName] <= ca || [OutputName] <= ca || cc <= ca
  {
    var cwd := AbsPathOf(cc);
    assert IsAllowed(AbsPathOf(ca), cwd);
    AllowedByComponents(ca, cc);
  }

  /** With the written test, for normalised paths, a file is removed exactly
      when the list names it, it is a regular file, and its first component
      begins with `videos` or `output` or its text begins with the current
      directory's. */
  lemma DeleteVideosAsWritten(paths: seq<string>, fs: FileSystem, cc: seq<string>, ca: seq<string>)
    requires AllNormal(cc) && AllNormal(ca) && AbsPathOf(ca) in fs
    ensures var p, cwd := AbsPathOf(ca), AbsPathOf(cc);
            p !in DeleteVideos(paths, fs, cwd).1
            <==> && p in AbsSet(paths, AbsIn(cwd)) && fs[p].File?
                 && (|| (ca != [] && (StartsWith(ca[0], VideosName) || StartsWith(ca[0], OutputName)))
                     || StartsWith(p, cwd))
  {
    var p, cwd := AbsPathOf(ca), AbsPathOf(cc);
    var after := DeleteVideos(paths, fs, cwd).1;
    assert p !in after <==> p in fs.Keys - after.Keys;
    AllowedAsWrittenByComponents(ca, cc);
  }

  lemma {:induction false} AbsSetMember(paths: seq<string>, resolve: string -> string, x: string) returns (i: nat)
    requires x in AbsSet(paths, resolve)
    ensures i < |paths| && resolve(paths[i]) == x
    decreases |paths|
  {
    if resolve(paths[0]) == x {
      i := 0;
    } else {
      var j := AbsSetMember(paths[1..], resolve, x);
      i := j + 1;
    }
  }

  /** `delete_videos` removes a file under a sibling directory such as
      `/videos2`; with the corrected test the same call refuses it as
      outside the allowed directories. */
  lemma DeleteSiblingAsWritten(name: string, sub: seq<string>, cc: seq<string>, fs: FileSystem)
    requires NormalComp(name) && StartsWith(name, VideosName) && name != VideosName
    requires AllNormal(sub) && AllNormal(cc) && !(cc <= [name] + sub)
    requires AbsPathOf([name] + sub) in fs && fs[AbsPathOf([name] + sub)].File?
    ensures var p, cwd := AbsPathOf([name] + sub), AbsPathOf(cc);
            && DeleteVideos([p], fs, cwd) == (DeleteReport([p], []), fs - {p})
            && DeleteVideosIntended([p], fs, cwd) == (DeleteReport([], [Failure(p, OutsideAllowed)]), fs)
  {
    var ca := [name] + sub;
    var p, cwd := AbsPathOf(ca), AbsPathOf(cc);
    assert AllNormal(ca);
    AbspathOfAbsPathOf(ca, cwd);
    AllowListSiblingPrefix(name, sub, cc);
    assert [p][1..] == [];
    DeleteOne(p, fs, AbsIn(cwd), AllowedAsWrittenIn(cwd));
    DeleteOne(p, fs, AbsIn(cwd), AllowedIn(cwd));
  }

  /** The loop over a single path is one step. */
  lemma DeleteOne(p: string, fs: FileSystem, resolve: string -> string, allowed: string -> bool)
    ensures var step := DeleteStep(p, fs, resolve, allowed);
            DeleteEach([p], fs, resolve, allowed)
            == (if step.0 == Removed then (DeleteReport([p], []), step.1)
                else (DeleteReport([], [Failure(p, step.0.reason)]), step.1))
  {
    assert [p][1..] == [];
    var step := DeleteStep(p, fs, resolve, allowed);
    assert DeleteEach([], step.1, resolve, allowed) == (DeleteReport([], []), step.1);
    assert [p] + [] == [p];
    if step.0 != Removed {
      assert [Failure(p, step.0.reason)] + [] == [Failure(p, step.0.reason)];
    }
  }

  /** The two tools check in different orders: a missing path is always
      "not found" for `download_video`, but for `delete_videos` it is
      "outside the allowed directories" when the allow test fails first. */
  lemma DownloadAndDeleteDisagree(p: string, fs: FileSystem, cwd: string)
    requires p != "" && Abspath(p, cwd) !in fs
    ensures DownloadVideo(p, fs, cwd) == NotFound(p)
    ensures DeleteVideos([p], fs, cwd).0
            == DeleteReport([], [Failure(p, if IsAllowedAsWritten(Abspath(p, cwd), cwd) then Missing else OutsideAllowed)])
  {
    assert [p][1..] == [];
  }
}

=== FILE: ffmpeg.dfy ===
/** `ffmpeg.py`: how the outcome of one external process becomes the
    `(code, log, append_msg)` triple of `run_command`, and how `run_ffmpeg`,
    `run_ffprobe` and `run_ffplay` prefix the binary and assemble their
    logs.  Spawning, the reader thread, waiting with a timeout and the
    installation probing of `command_dir` are outside the model: the
    directory `command_dir()` returned and what happened to the process are
    inputs. */
module Ffmpeg {
  import opened Values
  import opened Strings

  /** What happened to the process `run_command` started.  `lines` are the
      lines the reader thread had captured, in arrival order, when the log
      was assembled. */
  datatype ProcessOutcome =
    | Exited(exitCode: int, lines: seq<string>)
    | TimedOut(lines: seq<string>)
    | SpawnFailed(cause: string)

  function Captured(o: ProcessOutcome): seq<string> {
    match o
    case Exited(_, lines) => lines
    case TimedOut(lines) => lines
    case SpawnFailed(_) => []
  }

  /** The triple `run_command` returns. */
  datatype CommandResult = CommandResult(code: int, log: string, appendMsg: string)

  const TimeoutMessage := "Timeout expired"
  const ErrorPrefix := "An error occurred: "
  const NotSupported := "Not Support Platform"

  /** `run_command(command, timeout)`.  It never raises: every outcome is a
      result.  The log is the captured lines followed by `append_msg`,
      joined by newlines. */
  function RunCommand(o: ProcessOutcome): (r: CommandResult)
    ensures r.log == Strings.Join(Captured(o) + [r.appendMsg], '\n')
    ensures o.Exited? ==> r.code == o.exitCode && r.appendMsg == ""
    ensures o.TimedOut? ==> r.code == -1 && r.appendMsg == TimeoutMessage
    ensures o.SpawnFailed? ==> r.code == -1 && r.appendMsg == ErrorPrefix + o.cause
  {
    var (code, appendMsg) :=
      match o
      case Exited(c, _) => (c, "")
      case TimedOut(_) => (-1, TimeoutMessage)
      case SpawnFailed(e) => (-1, ErrorPrefix + e);
    CommandResult(code, Strings.Join(Captured(o) + [appendMsg], '\n'), appendMsg)
  }

  /** The log of `run_command` ends with its `append_msg`, after the
      captured lines and one newline (or is just the message when nothing
      was captured). */
  lemma RunCommandLogEndsWithMessage(o: ProcessOutcome)
    ensures var r := RunCommand(o);
            if Captured(o) == [] then r.log == r.appendMsg
            else r.log == Strings.Join(Captured(o), '\n') + "\n" + r.appendMsg
  {
    var r := RunCommand(o);
    if Captured(o) != [] {
      JoinSnoc(Captured(o), r.appendMsg, '\n');
    }
  }

  /** Splitting the log on newlines recovers what was captured: the fields
      of every captured line, in arrival order, then those of the message. */
  lemma RunCommandLogSplits(o: ProcessOutcome)
    ensures var r := RunCommand(o);
            Split(r.log, '\n') == SplitEach(Captured(o), '\n') + Split(r.appendMsg, '\n')
  {
    var r := RunCommand(o);
    SplitOfJoinSnoc(Captured(o), r.appendMsg, '\n');
  }

  /** A line as `readline` returns it before end of input: its text, then
      the newline that ended it. */
  predicate ReadLine(line: string) {
    EndsWith(line, "\n") && '\n' !in line[..|line| - 1]
  }

  /** The fields a run of `readline` lines leaves in a newline-joined log:
      each line's text, then the empty field between its own newline and
      the joining one. */
  function LineFields(lines: seq<string>): (fields: seq<string>)
    requires forall i :: 0 <= i < |lines| ==> ReadLine(lines[i])
    ensures |fields| == 2 * |lines|
  {
    if lines == [] then []
    else
      var l := lines[0];
      assert ReadLine(l);
      [l[..|l| - 1], ""] + LineFields(lines[1..])
  }

  lemma {:induction false} ReadLinesSplit(lines: seq<string>)
    requires forall i :: 0 <= i < |lines| ==> ReadLine(lines[i])
    ensures SplitEach(lines, '\n') == LineFields(lines)
  {
    if lines != [] {
      var l := lines[0];
      var text := l[..|l| - 1];
      assert ReadLine(l);
      assert l == text + ['\n'] + "";
      SplitAfterPart(text, '\n', "");
      SplitWhole("", '\n');
      ReadLinesSplit(lines[1..]);
    }
  }

  /** With the lines `readline` delivers, every captured line comes back
      from the log as its text followed by an empty field, and the last
      field is the message when that holds no newline (a timeout's always,
      a process that exited its empty one). */
  lemma RunCommandLogOfReadLines(o: ProcessOutcome)
    requires forall i :: 0 <= i < |Captured(o)| ==> ReadLine(Captured(o)[i])
    ensures var r := RunCommand(o);
            Split(r.log, '\n') == LineFields(Captured(o)) + Split(r.appendMsg, '\n')
    ensures var r := RunCommand(o);
            !o.SpawnFailed? ==> Split(r.log, '\n') == LineFields(Captured(o)) + [r.appendMsg]
  {
    RunCommandLogSplits(o);
    ReadLinesSplit(Captured(o));
    if !o.SpawnFailed? {
      MessageIsOneField(o);
    }
  }

  /** The message of a run that did not fail to start is a single field. */
  lemma MessageIsOneField(o: ProcessOutcome)
    requires !o.SpawnFailed?
    ensures Split(RunCommand(o).appendMsg, '\n') == [RunCommand(o).appendMsg]
  {
    assert '\n' !in TimeoutMessage;
    SplitWhole(RunCommand(o).appendMsg, '\n');
  }

  /** The command line `run_ffmpeg` and its siblings run: the binary in
      `cmd_dir`, a space, then the caller's arguments. */
  function CommandLine(cmdDir: string, binary: string, cmd: string): string {
    cmdDir + "/" + binary + " " + cmd
  }

  /** `run_ffmpeg(cmd, timeout)`.  `cmdDir` is what `command_dir()`
      returned; `o` is what happened to the process started for
      `CommandLine(cmdDir, "ffmpeg", cmd)`. */
  function RunFfmpeg(cmdDir: Option<string>, cmd: string, o: ProcessOutcome): (r: (int, string))
    ensures cmdDir.None? ==> r == (-1, NotSupported)
    ensures cmdDir.Some? ==> r.0 == RunCommand(o).code
  {
    match cmdDir
    case None => (-1, NotSupported)
    case Some(dir) =>
      var line := CommandLine(dir, "ffmpeg", cmd);
      var run := RunCommand(o);
      (run.code, Strings.Join([line, run.log, run.appendMsg], '\n'))
  }

  /** The log of `run_ffmpeg` is the command line, then the log of
      `run_command`, then `append_msg` once more: a timeout or error message
      ends the log twice. */
  lemma RunFfmpegLog(dir: string, cmd: string, o: ProcessOutcome)
    ensures var run := RunCommand(o);
            var line := CommandLine(dir, "ffmpeg", cmd);
            RunFfmpeg(Some(dir), cmd, o).1 == line + "\n" + run.log + "\n" + run.appendMsg
    ensures o.TimedOut? ==>
              EndsWith(RunFfmpeg(Some(dir), cmd, o).1, TimeoutMessage + "\n" + TimeoutMessage)
  {
    var run := RunCommand(o);
    var line := CommandLine(dir, "ffmpeg", cmd);
    JoinThree(line, run.log, run.appendMsg, '\n');
    LogEndsWithMessage(o);
    EndsTwice(line, run.log, run.appendMsg);
  }

  /** Splitting the `run_ffmpeg` log on newlines recovers the run: the
      fields of the command line, of every captured line, then those of the
      message twice (once from the log of `run_command`, once appended
      again).  A command line without a newline is the first field. */
  lemma RunFfmpegLogSplits(dir: string, cmd: string, o: ProcessOutcome)
    ensures var line, msg := CommandLine(dir, "ffmpeg", cmd), RunCommand(o).appendMsg;
            Split(RunFfmpeg(Some(dir), cmd, o).1, '\n')
            == Split(line, '\n') + SplitEach(Captured(o), '\n') + Split(msg, '\n') + Split(msg, '\n')
    ensures '\n' !in CommandLine(dir, "ffmpeg", cmd) ==>
              Split(RunFfmpeg(Some(dir), cmd, o).1, '\n')[0] == CommandLine(dir, "ffmpeg", cmd)
  {
    FramedLogSplits(CommandLine(dir, "ffmpeg", cmd), o);
  }

  /** The fields of a log framed by a command line and the message. */
  lemma FramedLogSplits(line: string, o: ProcessOutcome)
    ensures var run := RunCommand(o);
            Split(Strings.Join([line, run.log, run.appendMsg], '\n'), '\n')
            == Split(line, '\n') + SplitEach(Captured(o), '\n') + Split(run.appendMsg, '\n') + Split(run.appendMsg, '\n')
    ensures '\n' !in line ==> Split(Strings.Join([line, RunCommand(o).log, RunCommand(o).appendMsg], '\n'), '\n')[0] == line
  {
    var run := RunCommand(o);
    RunCommandLogSplits(o);
    Framed(line, run.log, run.appendMsg, SplitEach(Captured(o), '\n'));
  }

  lemma Framed(line: string, log: string, msg: string, fields: seq<string>)
    requires Split(log, '\n') == fields + Split(msg, '\n')
    ensures Split(Strings.Join([line, log, msg], '\n'), '\n')
            == Split(line, '\n') + fields + Split(msg, '\n') + Split(msg, '\n')
    ensures '\n' !in line ==> Split(Strings.Join([line, log, msg], '\n'), '\n')[0] == line
  {
    SplitOfJoinThree(line, log, msg, '\n');
    if '\n' !in line {
      SplitWhole(line, '\n');
    }
  }

  /** The log of `run_command` ends with its `append_msg`. */
  lemma LogEndsWithMessage(o: ProcessOutcome)
    ensures EndsWith(RunCommand(o).log, RunCommand(o).appendMsg)
  {
    RunCommandLogEndsWithMessage(o);
    var r := RunCommand(o);
    if Captured(o) != [] {
      var pre := Strings.Join(Captured(o), '\n') + "\n";
      assert r.log == pre + r.appendMsg;
      assert r.log[|pre|..] == r.appendMsg;
    }
  }

  /** A log that ends with a message, framed by a line before and the same
      message after, ends with the message twice. */
  lemma EndsTwice(line: string, log: string, msg: string)
    requires EndsWith(log, msg)
    ensures EndsWith(line + "\n" + log + "\n" + msg, msg + "\n" + msg)
  {
    var pre := log[..|log| - |msg|];
    assert log == pre + msg;
    var full := line + "\n" + log + "\n" + msg;
    assert full == (line + "\n" + pre) + (msg + "\n" + msg);
    var tail := msg + "\n" + msg;
    assert full[|full| - |tail|..] == tail;
  }

  /** What `run_ffprobe` and `run_ffplay` return: the 2-tuple when no
      command directory was found, a 3-tuple after a run. */
  datatype ProbeResult =
    | Unsupported(code: int, message: string)
    | Ran(code: int, command: string, log: string)

  /** The body shared by `run_ffprobe` and `run_ffplay`. */
  function RunViewer(binary: string, cmdDir: Option<string>, cmd: string, o: ProcessOutcome): ProbeResult {
    match cmdDir
    case None => Unsupported(-1, NotSupported)
    case Some(dir) =>
      var line := CommandLine(dir, binary, cmd);
      var run := RunCommand(o);
      if run.code != 0 then Ran(run.code, line, Strings.Join([line, run.log, run.appendMsg], '\n'))
      else Ran(run.code, line, run.log)
  }

  /** `run_ffprobe(cmd, timeout)`: with a command directory it reports the
      exit code and the command line; the log is raw on success and framed
      by the command line and `append_msg` on failure. */
  function RunFfprobe(cmdDir: Option<string>, cmd: string, o: ProcessOutcome): (r: ProbeResult)
    ensures cmdDir.None? <==> r.Unsupported?
    ensures r.Unsupported? ==> r == Unsupported(-1, NotSupported)
    ensures r.Ran? ==> r.code == RunCommand(o).code && r.command == CommandLine(cmdDir.value, "ffprobe", cmd)
    ensures r.Ran? && r.code == 0 ==> r.log == RunCommand(o).log
    ensures r.Ran? && r.code != 0 ==> r.log == r.command + "\n" + RunCommand(o).log + "\n" + RunCommand(o).appendMsg
  {
    ViewerFailureLog("ffprobe", cmdDir, cmd, o);
    RunViewer("ffprobe", cmdDir, cmd, o)
  }

  /** `run_ffplay(cmd, timeout)`: as `run_ffprobe`, for the `ffplay`
      binary. The two agree on everything but the binary named on the
      command line. */
  function RunFfplay(cmdDir: Option<string>, cmd: string, o: ProcessOutcome): (r: ProbeResult)
    ensures r.Unsupported? <==> RunFfprobe(cmdDir, cmd, o).Unsupported?
    ensures r.Ran? ==> r.code == RunFfprobe(cmdDir, cmd, o).code
    ensures r.Ran? && r.code == 0 ==> r.log == RunFfprobe(cmdDir, cmd, o).log
    ensures cmdDir.None? <==> r.Unsupported?
    ensures r.Unsupported? ==> r == Unsupported(-1, NotSupported)
    ensures r.Ran? ==> r.code == RunCommand(o).code && r.command == CommandLine(cmdDir.value, "ffplay", cmd)
    ensures r.Ran? && r.code == 0 ==> r.log == RunCommand(o).log
    ensures r.Ran? && r.code != 0 ==> r.log == r.command + "\n" + RunCommand(o).log + "\n" + RunCommand(o).appendMsg
  {
    ViewerFailureLog("ffplay", cmdDir, cmd, o);
    RunViewer("ffplay", cmdDir, cmd, o)
  }

  lemma ViewerFailureLog(binary: string, cmdDir: Option<string>, cmd: string, o: ProcessOutcome)
    ensures var r := RunViewer(binary, cmdDir, cmd, o);
            r.Ran? && r.code != 0 ==> r.log == r.command + "\n" + RunCommand(o).log + "\n" + RunCommand(o).appendMsg
  {
    var r := RunViewer(binary, cmdDir, cmd, o);
    if r.Ran? && r.code != 0 {
      var run := RunCommand(o);
      JoinThree(r.command, run.log, run.appendMsg, '\n');
    }
  }

  /** Splitting the log of `run_ffprobe` or `run_ffplay` on newlines
      recovers the run: after a failure, the fields of the command line, of
      every captured line and of the message twice; after success, those of
      the captured lines and the empty message. */
  lemma ViewerLogSplits(binary: string, dir: string, cmd: string, o: ProcessOutcome)
    ensures var r, msg := RunViewer(binary, Some(dir), cmd, o), RunCommand(o).appendMsg;
            r.code != 0 ==>
              Split(r.log, '\n') == Split(r.command, '\n') + SplitEach(Captured(o), '\n') + Split(msg, '\n') + Split(msg, '\n')
    ensures var r, msg := RunViewer(binary, Some(dir), cmd, o), RunCommand(o).appendMsg;
            r.code == 0 ==> Split(r.log, '\n') == SplitEach(Captured(o), '\n') + Split(msg, '\n')
  {
    var r := RunViewer(binary, Some(dir), cmd, o);
    if r.code != 0 {
      FramedLogSplits(r.command, o);
    } else {
      RunCommandLogSplits(o);
    }
  }

  /** Exit-status classification, the same for every wrapper that ran: a
      process that exited reports its own code, a timeout or a failure to
      start reports -1 and says why after the captured output. */
  lemma ClassifyOutcome(dir: string, cmd: string, o: ProcessOutcome)
    ensures o.Exited? ==> RunFfmpeg(Some(dir), cmd, o).0 == o.exitCode && RunFfprobe(Some(dir), cmd, o).code == o.exitCode
    ensures o.TimedOut? ==> RunFfmpeg(Some(dir), cmd, o).0 == -1 && EndsWith(RunCommand(o).log, TimeoutMessage)
    ensures o.SpawnFailed? ==> RunFfmpeg(Some(dir), cmd, o).0 == -1 && RunCommand(o).log == ErrorPrefix + o.cause
  {
    RunCommandLogEndsWithMessage(o);
    var run := RunCommand(o);
    if o.TimedOut? && Captured(o) != [] {
      assert run.log == (Strings.Join(Captured(o), '\n') + "\n") + TimeoutMessage;
    }
  }
}

=== FILE: posixpath.dfy ===
/** The `os.path` functions of a POSIX Python that the server calls: `join`,
    `basename`, `splitext`, `normpath`, `abspath` and `relpath`.  The current
    directory is an explicit parameter. */
module PosixPath {
  import opened Strings

  predicate IsAbs(p: string) {
    p != [] && p[0] == '/'
  }

  /** `os.path.join(a, b)`: an absolute `b` replaces `a`; otherwise one `/` is
      put between them unless `a` is empty or already ends in `/`. */
  function Join(a: string, b: string): (r: string)
    ensures EndsWith(r, b)
    ensures !IsAbs(b) && a != "" ==> StartsWith(r, a)
  {
    if IsAbs(b) then b
    else if a == "" || EndsWith(a, "/") then a + b
    else a + "/" + b
  }

  /** `os.path.basename`: everything after the last `/`. */
  function Basename(p: string): (r: string)
    ensures '/' !in r
    ensures EndsWith(p, r)
    ensures |r| < |p| ==> p[|p| - |r| - 1] == '/'
  {
    var k := RFind(p, '/');
    SuffixAfter(p, k, '/');
    p[k + 1..]
  }

  /** What follows the last occurrence of `c` is a suffix free of `c`. */
  lemma SuffixAfter(p: string, k: int, c: char)
    requires -1 <= k < |p|
    requires forall j :: k < j < |p| ==> p[j] != c
    ensures c !in p[k + 1..]
    ensures EndsWith(p, p[k + 1..])
  {
    var r := p[k + 1..];
    assert forall j :: 0 <= j < |r| ==> r[j] == p[k + 1 + j];
    assert p[|p| - |r|..] == r;
  }

  /** The base name of `dir + name` is `name` when `dir` is empty or ends
      in `/` and `name` holds no `/`. */
  lemma BasenameOfParts(dir: string, name: string)
    requires dir == [] || dir[|dir| - 1] == '/'
    requires '/' !in name
    ensures Basename(dir + name) == name
  {
    var p := dir + name;
    var k := RFind(p, '/');
    forall j | |dir| <= j < |p|
      ensures p[j] != '/'
    {
      assert p[j] == name[j - |dir|];
    }
    if dir != [] {
      assert p[|dir| - 1] == '/';
    }
    assert k == |dir| - 1;
    assert p[k + 1..] == name;
  }

  /** True when `p[lo..hi]` holds a character other than `.`. */
  predicate HasNonDot(p: string, lo: int, hi: int)
    requires 0 <= lo <= hi <= |p|
  {
    exists k :: lo <= k < hi && p[k] != '.'
  }

  /** `os.path.splitext`: the extension starts at the last `.` of the last
      component, unless everything before that dot in the component is dots
      (so `.bashrc` and `..mp4` have no extension). */
  function SplitExt(p: string): (r: (string, string))
    ensures r.0 + r.1 == p
    ensures r.1 == "" || (r.1[0] == '.' && '.' !in r.1[1..] && '/' !in r.1)
  {
    var sepIndex := RFind(p, '/');
    var dotIndex := RFind(p, '.');
    if dotIndex > sepIndex && HasNonDot(p, sepIndex + 1, dotIndex) then
      assert p == p[..dotIndex] + p[dotIndex..];
      (p[..dotIndex], p[dotIndex..])
    else
      (p, "")
  }

  function Ext(p: string): string {
    SplitExt(p).1
  }

  function Stem(p: string): string {
    SplitExt(p).0
  }

  /** A path component as `normpath` leaves it in an absolute path. */
  predicate NormalComp(c: string) {
    c != "" && c != "." && c != ".." && '/' !in c
  }

  predicate AllNormal(cs: seq<string>) {
    forall i :: 0 <= i < |cs| ==> NormalComp(cs[i])
  }

  /** The absolute path whose components are `cs`. */
  function AbsPathOf(cs: seq<string>): string {
    "/" + Strings.Join(cs, '/')
  }

  /** A component of a path that `normpath` has already collapsed: never
      empty or `.`, never holding `/`, and `..` only in a relative path. */
  predicate Collapsed(c: string, absolute: bool) {
    c != "" && c != "." && '/' !in c && (absolute ==> c != "..")
  }

  /** The component loop of `normpath`: skip empty and `.` components; keep
      `..` at the start of a relative path or after another `..`; otherwise
      let `..` drop the previous component (or vanish at the root). */
  function Collapse(comps: seq<string>, absolute: bool, acc: seq<string>): (r: seq<string>)
    requires forall i :: 0 <= i < |comps| ==> '/' !in comps[i]
    requires forall i :: 0 <= i < |acc| ==> Collapsed(acc[i], absolute)
    ensures forall i :: 0 <= i < |r| ==> Collapsed(r[i], absolute)
    decreases |comps|
  {
    if comps == [] then acc
    else
      var c := comps[0];
      if c == "" || c == "." then
        Collapse(comps[1..], absolute, acc)
      else if c != ".." || (!absolute && acc == []) || (acc != [] && acc[|acc| - 1] == "..") then
        Collapse(comps[1..], absolute, acc + [c])
      else if acc != [] then
        Collapse(comps[1..], absolute, acc[..|acc| - 1])
      else
        Collapse(comps[1..], absolute, acc)
  }

  /** How many leading slashes `normpath` keeps: POSIX lets exactly two
      leading slashes mean something, three or more collapse to one. */
  function LeadingSlashes(p: string): nat {
    if StartsWith(p, "//") && !StartsWith(p, "///") then 2
    else if StartsWith(p, "/") then 1
    else 0
  }

  /** The components `normpath` keeps: `.`, empty pieces and the `..` that
      cancel a component are gone, and in an absolute path every `..` is. */
  function NormComps(p: string): (cs: seq<string>)
    ensures LeadingSlashes(p) > 0 ==> AllNormal(cs)
  {
    Collapse(Split(p, '/'), LeadingSlashes(p) > 0, [])
  }

  /** `os.path.normpath`. */
  function NormPath(p: string): (r: string)
    ensures r != ""
    ensures IsAbs(r) <==> IsAbs(p)
  {
    if p == "" then
      "."
    else
      var slashes := LeadingSlashes(p);
      var comps := NormComps(p);
      var r := Repeat('/', slashes) + Strings.Join(comps, '/');
      assert IsAbs(r) <==> slashes > 0 by {
        if slashes > 0 {
          assert r[0] == '/';
        }
      }
      if r == "" then "." else r
  }

  /** `os.path.abspath`, with the process's current directory as `cwd`. */
  function Abspath(p: string, cwd: string): string {
    NormPath(if IsAbs(p) then p else Join(cwd, p))
  }

  /** The non-empty pieces of `p` between slashes. */
  function Components(p: string): (r: seq<string>)
    ensures forall i :: 0 <= i < |r| ==> r[i] != "" && '/' !in r[i]
  {
    NonEmpty(Split(p, '/'))
  }

  function NonEmpty(parts: seq<string>): (r: seq<string>)
    ensures forall i :: 0 <= i < |r| ==> r[i] != "" && exists j :: 0 <= j < |parts| && r[i] == parts[j]
  {
    if parts == [] then []
    else if parts[0] == "" then NonEmpty(parts[1..])
    else [parts[0]] + NonEmpty(parts[1..])
  }

  function CommonPrefixLen(a: seq<string>, b: seq<string>): (n: nat)
    ensures n <= |a| && n <= |b|
    ensures a[..n] == b[..n]
    ensures n < |a| && n < |b| ==> a[n] != b[n]
  {
    if a == [] || b == [] || a[0] != b[0] then 0
    else 1 + CommonPrefixLen(a[1..], b[1..])
  }

  function Pardirs(n: nat): (r: seq<string>)
    ensures |r| == n
    ensures forall i :: 0 <= i < n ==> r[i] == ".."
  {
    if n == 0 then [] else [".."] + Pardirs(n - 1)
  }

  /** `os.path.relpath(path, start)` for a non-empty `path` (Python raises
      `ValueError` on an empty one). */
  function Relpath(path: string, start: string, cwd: string): string
    requires path != ""
  {
    RelJoin(Components(Abspath(start, cwd)), Components(Abspath(path, cwd)))
  }

  /** The relative path from the directory with components `startList` to
      the path with components `pathList`. */
  function RelJoin(startList: seq<string>, pathList: seq<string>): string {
    var i := CommonPrefixLen(startList, pathList);
    var rel := Pardirs(|startList| - i) + pathList[i..];
    if rel == [] then "." else Strings.Join(rel, '/')
  }

  // ---------------------------------------------------------------------
  // Lemmas about already normalised absolute paths.

  /** Collapsing components that are already normal keeps them all. */
  lemma {:induction false} CollapseNormal(cs: seq<string>, acc: seq<string>)
    requires AllNormal(cs)
    requires forall i :: 0 <= i < |acc| ==> Collapsed(acc[i], true)
    ensures Collapse(cs, true, acc) == acc + cs
    decreases |cs|
  {
    if cs != [] {
      CollapseNormal(cs[1..], acc + [cs[0]]);
      assert acc + [cs[0]] + cs[1..] == acc + cs;
    }
  }

  /** The split of `AbsPathOf(cs)` is an empty piece followed by `cs`. */
  lemma SplitAbsPathOf(cs: seq<string>)
    requires cs != []
    requires forall i :: 0 <= i < |cs| ==> '/' !in cs[i]
    ensures Split(AbsPathOf(cs), '/') == [""] + cs
  {
    assert Strings.Join([""] + cs, '/') == AbsPathOf(cs) by {
      assert ([""] + cs)[1..] == cs;
    }
    SplitJoin([""] + cs, '/');
  }

  lemma SplitRoot()
    ensures Split("/", '/') == ["", ""]
  {
    assert IndexOf("/", '/') == 0;
    assert "/"[1..] == "";
    assert IndexOf("", '/') == 0;
  }

  /** `normpath` leaves a normalised absolute path alone. */
  lemma NormPathOfAbsPathOf(cs: seq<string>)
    requires AllNormal(cs)
    ensures NormPath(AbsPathOf(cs)) == AbsPathOf(cs)
  {
    var p := AbsPathOf(cs);
    if cs == [] {
      assert p == "/";
      SplitRoot();
      assert Collapse(["", ""], true, []) == [];
    } else {
      assert cs[0] != "";
      assert p[1] == cs[0][0] by {
        assert Strings.Join(cs, '/')[0] == cs[0][0] by {
          if |cs| > 1 {
            assert Strings.Join(cs, '/') == cs[0] + ['/'] + Strings.Join(cs[1..], '/');
          }
        }
      }
      assert LeadingSlashes(p) == 1;
      assert Repeat('/', 1) == "/";
      SplitAbsPathOf(cs);
      CollapseNormal(cs, []);
      assert Collapse([""] + cs, true, []) == Collapse(cs, true, []) by {
        assert ([""] + cs)[1..] == cs;
      }
      assert Collapse(Split(p, '/'), true, []) == cs;
      assert Repeat('/', 1) + Strings.Join(cs, '/') == p;
    }
  }

  /** An absolute path is the `/` and its kept components, with a second
      leading slash kept when there are exactly two, as POSIX allows. */
  lemma NormPathAbsolute(p: string)
    requires IsAbs(p)
    ensures AllNormal(NormComps(p))
    ensures LeadingSlashes(p) == 1 ==> NormPath(p) == AbsPathOf(NormComps(p))
    ensures LeadingSlashes(p) == 2 ==> NormPath(p) == "/" + AbsPathOf(NormComps(p))
  {
    var comps := NormComps(p);
    var j := Strings.Join(comps, '/');
    if LeadingSlashes(p) == 1 {
      assert Repeat('/', 1) + j == AbsPathOf(comps);
    } else if LeadingSlashes(p) == 2 {
      assert Repeat('/', 2) + j == "/" + AbsPathOf(comps);
    }
  }

  /** A path whose first component is non-empty has one leading slash. */
  lemma OneLeadingSlash(cs: seq<string>)
    requires cs != [] && cs[0] != "" && '/' !in cs[0]
    ensures |AbsPathOf(cs)| >= 2 && AbsPathOf(cs)[1] != '/'
    ensures LeadingSlashes(AbsPathOf(cs)) == 1
  {
    var p := AbsPathOf(cs);
    assert p[1] == cs[0][0] by {
      assert Strings.Join(cs, '/')[0] == cs[0][0] by {
        if |cs| > 1 {
          assert Strings.Join(cs, '/') == cs[0] + ['/'] + Strings.Join(cs[1..], '/');
        }
      }
    }
    assert cs[0][0] in cs[0];
    assert !StartsWith(p, "//") by {
      DifferAt(p, "//", 1);
    }
  }

  /** Normal components at the front of what is collapsed are kept. */
  lemma {:induction false} CollapseNormalPrefix(cs: seq<string>, rest: seq<string>, acc: seq<string>)
    requires AllNormal(cs)
    requires forall i :: 0 <= i < |rest| ==> '/' !in rest[i]
    requires forall i :: 0 <= i < |acc| ==> Collapsed(acc[i], true)
    ensures Collapse(cs + rest, true, acc) == Collapse(rest, true, acc + cs)
    decreases |cs|
  {
    if cs == [] {
      assert cs + rest == rest && acc + cs == acc;
    } else {
      var xs := cs + rest;
      assert xs[0] == cs[0] && xs[1..] == cs[1..] + rest;
      CollapseNormalPrefix(cs[1..], rest, acc + [cs[0]]);
      assert acc + [cs[0]] + cs[1..] == acc + cs;
    }
  }

  /** `..` right after a normal component cancels it. */
  lemma CollapseParent(c: string, rest: seq<string>, acc: seq<string>)
    requires NormalComp(c)
    requires forall i :: 0 <= i < |rest| ==> '/' !in rest[i]
    requires forall i :: 0 <= i < |acc| ==> Collapsed(acc[i], true)
    ensures Collapse([c, ".."] + rest, true, acc) == Collapse(rest, true, acc)
  {
    var ys := [".."] + rest;
    assert forall i :: 0 <= i < |ys| ==> '/' !in ys[i];
    assert [c, ".."] + rest == [c] + ys;
    assert AllNormal([c]);
    CollapseNormalPrefix([c], ys, acc);
    CollapseUp(c, rest, acc);
  }

  /** `..` right after a kept component removes it again. */
  lemma CollapseUp(c: string, rest: seq<string>, acc: seq<string>)
    requires Collapsed(c, true)
    requires forall i :: 0 <= i < |rest| ==> '/' !in rest[i]
    requires forall i :: 0 <= i < |acc| ==> Collapsed(acc[i], true)
    ensures Collapse([".."] + rest, true, acc + [c]) == Collapse(rest, true, acc)
  {
    var ys := [".."] + rest;
    var grown := acc + [c];
    assert ys[0] == ".." && ys[1..] == rest;
    assert grown[|grown| - 1] == c && grown[..|grown| - 1] == acc;
  }

  /** The component loop on `/<pre>/<c>/../<rest>` keeps `pre` and `rest`. */
  lemma CollapseDropsParent(pre: seq<string>, c: string, rest: seq<string>)
    requires AllNormal(pre) && NormalComp(c) && AllNormal(rest)
    ensures forall i :: 0 <= i < |pre + ([c, ".."] + rest)| ==> '/' !in (pre + ([c, ".."] + rest))[i]
    ensures Collapse([""] + (pre + ([c, ".."] + rest)), true, []) == pre + rest
  {
    var tail := [c, ".."] + rest;
    var xs := pre + tail;
    assert forall i :: 0 <= i < |tail| ==> '/' !in tail[i];
    assert forall i :: 0 <= i < |xs| ==> '/' !in xs[i];
    assert ([""] + xs)[0] == "" && ([""] + xs)[1..] == xs;
    CollapseNormalPrefix(pre, tail, []);
    assert [] + pre == pre;
    CollapseParent(c, rest, pre);
    CollapseNormal(rest, pre);
  }

  /** `normpath` lets `..` cancel the component before it:
      `/<pre>/<c>/../<rest>` becomes `/<pre>/<rest>`. */
  lemma NormPathDropsParent(pre: seq<string>, c: string, rest: seq<string>)
    requires AllNormal(pre) && NormalComp(c) && AllNormal(rest)
    ensures NormPath(AbsPathOf(pre + [c, ".."] + rest)) == AbsPathOf(pre + rest)
  {
    var xs := pre + ([c, ".."] + rest);
    assert pre + [c, ".."] + rest == xs;
    CollapseDropsParent(pre, c, rest);
    assert xs[0] != "" && '/' !in xs[0];
    var p := AbsPathOf(xs);
    SplitAbsPathOf(xs);
    OneLeadingSlash(xs);
    assert NormComps(p) == pre + rest;
    assert Repeat('/', 1) + Strings.Join(pre + rest, '/') == AbsPathOf(pre + rest);
  }

  /** An absolute path that is already normal is its own `abspath`. */
  lemma AbspathOfAbsPathOf(cs: seq<string>, cwd: string)
    requires AllNormal(cs)
    ensures Abspath(AbsPathOf(cs), cwd) == AbsPathOf(cs)
  {
    NormPathOfAbsPathOf(cs);
  }

  /** The components of `AbsPathOf(cs)` are `cs`. */
  lemma ComponentsOfAbsPathOf(cs: seq<string>)
    requires AllNormal(cs)
    ensures Components(AbsPathOf(cs)) == cs
  {
    if cs == [] {
      SplitRoot();
      assert NonEmpty(["", ""]) == NonEmpty([""]) == NonEmpty([]) == [];
    } else {
      SplitAbsPathOf(cs);
      NonEmptyOfNonEmpty(cs);
      assert ([""] + cs)[1..] == cs;
    }
  }

  lemma {:induction false} NonEmptyOfNonEmpty(cs: seq<string>)
    requires forall i :: 0 <= i < |cs| ==> cs[i] != ""
    ensures NonEmpty(cs) == cs
  {
    if cs != [] {
      NonEmptyOfNonEmpty(cs[1..]);
    }
  }

  /** `relpath` between normalised absolute paths works on their
      components directly. */
  lemma RelpathOfNormal(ca: seq<string>, cd: seq<string>, cwd: string)
    requires AllNormal(ca) && AllNormal(cd)
    ensures AbsPathOf(ca) != ""
    ensures Relpath(AbsPathOf(ca), AbsPathOf(cd), cwd) == RelJoin(cd, ca)
  {
    assert AbsPathOf(ca)[0] == '/';
    ComponentsOfAbspath(ca, cwd);
    ComponentsOfAbspath(cd, cwd);
  }

  lemma ComponentsOfAbspath(cs: seq<string>, cwd: string)
    requires AllNormal(cs)
    ensures Components(Abspath(AbsPathOf(cs), cwd)) == cs
  {
    AbspathOfAbsPathOf(cs, cwd);
    ComponentsOfAbsPathOf(cs);
  }

  /** `relpath` from a directory to a path inside it is the path's remaining
      components joined by `/`. */
  lemma RelpathInside(root: seq<string>, sub: seq<string>, cwd: string)
    requires AllNormal(root) && AllNormal(sub) && sub != []
    ensures Relpath(AbsPathOf(root + sub), AbsPathOf(root), cwd) == Strings.Join(sub, '/')
  {
    var full := root + sub;
    assert AllNormal(full);
    RelpathOfNormal(full, root, cwd);
    CommonPrefixOfExtension(root, sub);
    assert Pardirs(0) == [];
    assert Pardirs(0) + full[|root|..] == sub;
  }

  lemma CommonPrefixOfExtension(root: seq<string>, sub: seq<string>)
    ensures CommonPrefixLen(root, root + sub) == |root|
  {
  }

  // ---------------------------------------------------------------------
  // Directory containment on component lists.

  /** The components each followed by `/`: the form a directory takes as the
      prefix of the paths inside it. */
  function Terminated(cs: seq<string>): string {
    if cs == [] then "" else cs[0] + "/" + Terminated(cs[1..])
  }

  lemma {:induction false} JoinTerminated(cs: seq<string>)
    requires cs != []
    ensures Strings.Join(cs, '/') + "/" == Terminated(cs)
  {
    if |cs| > 1 {
      JoinTerminated(cs[1..]);
    }
  }

  lemma StartsWithShared(u: string, x: string, y: string)
    ensures StartsWith(u + x, u + y) <==> StartsWith(x, y)
  {
    if StartsWith(u + x, u + y) {
      assert x[..|y|] == (u + x)[..|u + y|][|u|..];
    }
    if StartsWith(x, y) {
      assert (u + x)[..|u + y|] == u + x[..|y|];
    }
  }

  /** One terminated component list is a textual prefix of another exactly
      when its components are a prefix of the other's. */
  lemma {:induction false} TerminatedPrefix(ca: seq<string>, cd: seq<string>)
    requires forall i :: 0 <= i < |ca| ==> ca[i] != "" && '/' !in ca[i]
    requires forall i :: 0 <= i < |cd| ==> cd[i] != "" && '/' !in cd[i]
    ensures StartsWith(Terminated(ca), Terminated(cd)) <==> cd <= ca
  {
    if cd == [] {
    } else if ca == [] {
    } else {
      var a, c := ca[0], cd[0];
      var ta, td := Terminated(ca), Terminated(cd);
      assert ta == a + ("/" + Terminated(ca[1..]));
      assert td == c + ("/" + Terminated(cd[1..]));
      if a == c {
        StartsWithShared(a + "/", Terminated(ca[1..]), Terminated(cd[1..]));
        assert ta == (a + "/") + Terminated(ca[1..]);
        assert td == (a + "/") + Terminated(cd[1..]);
        TerminatedPrefix(ca[1..], cd[1..]);
        assert cd <= ca <==> cd[1..] <= ca[1..] by {
          assert ca == [a] + ca[1..];
          assert cd == [a] + cd[1..];
        }
      } else {
        assert !(cd <= ca) by {
          assert ca[0] != cd[0];
        }
        if |a| < |c| {
          DifferAt(ta, td, |a|);
        } else if |a| > |c| {
          DifferAt(ta, td, |c|);
        } else {
          var i :| 0 <= i < |a| && a[i] != c[i];
          DifferAt(ta, td, i);
        }
      }
    }
  }

  lemma DifferAt(x: string, y: string, k: nat)
    requires k < |x| && k < |y| && x[k] != y[k]
    ensures !StartsWith(x, y)
  {
  }

  /** The last character of a join is the last character of the last
      part. */
  lemma {:induction false} JoinLast(cs: seq<string>)
    requires cs != [] && cs[|cs| - 1] != ""
    ensures var j, l := Strings.Join(cs, '/'), cs[|cs| - 1];
            j != "" && j[|j| - 1] == l[|l| - 1]
  {
    if |cs| > 1 {
      JoinLast(cs[1..]);
      assert cs[1..][|cs[1..]| - 1] == cs[|cs| - 1];
    }
  }

  /** For a normalised absolute path, starting with `/<top>` is having a
      first component that starts with `top`. */
  lemma StartsWithTop(ca: seq<string>, top: string)
    requires AllNormal(ca) && top != "" && '/' !in top
    ensures StartsWith(AbsPathOf(ca), "/" + top) <==> ca != [] && StartsWith(ca[0], top)
  {
    var j := Strings.Join(ca, '/');
    StartsWithShared("/", j, top);
    if ca != [] {
      var c := ca[0];
      if |ca| == 1 {
        assert j == c;
      } else {
        JoinCons(c, ca[1..], '/');
        assert [c] + ca[1..] == ca;
        assert j == c + "/" + Strings.Join(ca[1..], '/');
        if |top| <= |c| {
          assert j[..|top|] == c[..|top|];
        } else {
          assert j[|c|] == '/';
        }
      }
    }
  }

  /** A path without a dot has no extension. */
  lemma SplitExtWithoutDot(p: string)
    requires '.' !in p
    ensures SplitExt(p) == (p, "")
  {
    assert RFind(p, '.') == -1;
  }

  /** Where the last `/` and the last `.` are in `dir + stem + ext`. */
  lemma SplitExtOfParts(dir: string, stem: string, ext: string)
    requires '/' !in stem && exists k :: 0 <= k < |stem| && stem[k] != '.'
    requires |ext| >= 1 && ext[0] == '.' && '.' !in ext[1..] && '/' !in ext
    ensures SplitExt(dir + stem + ext) == (dir + stem, ext)
  {
    var p := dir + stem + ext;
    var d := |dir + stem|;
    var sepIndex := RFind(p, '/');
    var dotIndex := RFind(p, '.');
    assert p[d] == '.';
    forall j | d < j < |p|
      ensures p[j] != '.'
    {
      assert p[j] == ext[1..][j - d - 1];
    }
    assert dotIndex == d;
    forall j | |dir| <= j < |p|
      ensures p[j] != '/'
    {
      if j < d {
        assert p[j] == stem[j - |dir|];
      } else {
        assert p[j] == ext[j - d];
      }
    }
    assert sepIndex < |dir|;
    var k :| 0 <= k < |stem| && stem[k] != '.';
    assert p[|dir| + k] == stem[k];
    assert HasNonDot(p, sepIndex + 1, dotIndex);
    assert p[..d] == dir + stem;
    assert p[d..] == ext;
  }
}

=== FILE: seqs.dfy ===
/** Two sequence traversals the server writes as loops: the first element
    that satisfies a test, and the images of the elements that pass a
    filter. */
module Seqs {
  import opened Values

  /** The index of the first element satisfying `p`. */
  function FirstIndex<T>(xs: seq<T>, p: T -> bool): (k: Option<nat>)
    ensures k.Some? ==> k.value < |xs| && p(xs[k.value])
    ensures k.Some? ==> forall j :: 0 <= j < k.value ==> !p(xs[j])
    ensures k.None? <==> forall j :: 0 <= j < |xs| ==> !p(xs[j])
  {
    if xs == [] then None
    else if p(xs[0]) then Some(0)
    else
      match FirstIndex(xs[1..], p)
      case None => None
      case Some(k) => Some(k + 1)
  }

  /** The first index is the one position that satisfies `p` after a run
      of positions that do not. */
  lemma FirstIndexAt<T>(xs: seq<T>, p: T -> bool, k: nat)
    requires k < |xs| && p(xs[k])
    requires forall j :: 0 <= j < k ==> !p(xs[j])
    ensures FirstIndex(xs, p) == Some(k)
  {
  }

  /** `[f(x) for x in xs if keep(x)]`. */
  function FilterMap<T, U>(xs: seq<T>, keep: T -> bool, f: T -> U): (r: seq<U>)
    ensures |r| <= |xs|
  {
    if xs == [] then []
    else
      var rest := FilterMap(xs[1..], keep, f);
      if keep(xs[0]) then [f(xs[0])] + rest else rest
  }

  /** The image of every kept element is in the result. */
  lemma {:induction false} FilterMapComplete<T, U>(xs: seq<T>, keep: T -> bool, f: T -> U, m: nat)
    requires m < |xs| && keep(xs[m])
    ensures f(xs[m]) in FilterMap(xs, keep, f)
  {
    if m > 0 {
      assert xs[1..][m - 1] == xs[m];
      FilterMapComplete(xs[1..], keep, f, m - 1);
    }
  }

  /** Every element of the result is the image of a kept element. */
  lemma {:induction false} FilterMapSound<T, U>(xs: seq<T>, keep: T -> bool, f: T -> U, k: nat)
    requires k < |FilterMap(xs, keep, f)|
    ensures exists m :: 0 <= m < |xs| && keep(xs[m]) && FilterMap(xs, keep, f)[k] == f(xs[m])
  {
    var rest := FilterMap(xs[1..], keep, f);
    if keep(xs[0]) && k == 0 {
      assert FilterMap(xs, keep, f)[0] == f(xs[0]);
    } else {
      var k' := if keep(xs[0]) then k - 1 else k;
      assert FilterMap(xs, keep, f)[k] == rest[k'];
      FilterMapSound(xs[1..], keep, f, k');
      var m :| 0 <= m < |xs[1..]| && keep(xs[1..][m]) && rest[k'] == f(xs[1..][m]);
      assert xs[1..][m] == xs[m + 1];
    }
  }

  lemma {:induction false} FilterMapAppend<T, U>(a: seq<T>, b: seq<T>, keep: T -> bool, f: T -> U)
    ensures FilterMap(a + b, keep, f) == FilterMap(a, keep, f) + FilterMap(b, keep, f)
  {
    if a == [] {
      assert a + b == b;
    } else {
      assert (a + b)[1..] == a[1..] + b;
      FilterMapAppend(a[1..], b, keep, f);
    }
  }

  lemma FilterMapSnoc<T, U>(xs: seq<T>, x: T, keep: T -> bool, f: T -> U)
    ensures FilterMap(xs + [x], keep, f) == FilterMap(xs, keep, f) + (if keep(x) then [f(x)] else [])
  {
    FilterMapAppend(xs, [x], keep, f);
    assert [x][1..] == [];
  }

  /** The loop `for x in xs: if keep(x): r.append(f(x))`. */
  method CollectKept<T, U>(xs: seq<T>, keep: T -> bool, f: T -> U) returns (r: seq<U>)
    ensures r == FilterMap(xs, keep, f)
  {
    r := [];
    var j := 0;
    while j < |xs|
      invariant j <= |xs|
      invariant r == FilterMap(xs[..j], keep, f)
    {
      assert xs[..j + 1] == xs[..j] + [xs[j]];
      FilterMapSnoc(xs[..j], xs[j], keep, f);
      if keep(xs[j]) {
        r := r + [f(xs[j])];
      }
      j := j + 1;
    }
    assert xs[..j] == xs;
  }

  // ---------------------------------------------------------------------
  // Nested traversals: `for group in groups: for x in group: ...`

  /** The elements of all groups, group after group. */
  function Flatten<T>(groups: seq<seq<T>>): seq<T> {
    if groups == [] then [] else groups[0] + Flatten(groups[1..])
  }

  lemma {:induction false} FlattenAppend<T>(a: seq<seq<T>>, b: seq<seq<T>>)
    ensures Flatten(a + b) == Flatten(a) + Flatten(b)
  {
    if a == [] {
      assert a + b == b;
    } else {
      assert (a + b)[1..] == a[1..] + b;
      FlattenAppend(a[1..], b);
    }
  }

  lemma FlattenStep<T>(groups: seq<seq<T>>, i: nat)
    requires i < |groups|
    ensures Flatten(groups[..i + 1]) == Flatten(groups[..i]) + groups[i]
  {
    assert groups[..i + 1] == groups[..i] + [groups[i]];
    FlattenAppend(groups[..i], [groups[i]]);
    assert Flatten([groups[i]]) == groups[i] + Flatten([]);
  }

  /** Element `j` of group `i` sits right after the earlier groups and the
      earlier elements of group `i`. */
  lemma FlattenAt<T>(groups: seq<seq<T>>, i: nat, j: nat)
    requires i < |groups| && j < |groups[i]|
    ensures var n := |Flatten(groups[..i])|;
            && n + j < |Flatten(groups)|
            && Flatten(groups)[n + j] == groups[i][j]
            && Flatten(groups)[..n + j] == Flatten(groups[..i]) + groups[i][..j]
  {
    assert groups == groups[..i] + groups[i..];
    FlattenAppend(groups[..i], groups[i..]);
    assert Flatten(groups[i..]) == groups[i] + Flatten(groups[i + 1..]) by {
      assert groups[i..][1..] == groups[i + 1..];
    }
  }

  /** The inner loop of a nested search: the position of the first element
      of `g` satisfying `p`, or `|g|`. */
  method FirstInGroup<T>(g: seq<T>, p: T -> bool) returns (j: nat)
    ensures j <= |g|
    ensures forall m :: 0 <= m < j ==> !p(g[m])
    ensures j < |g| ==> p(g[j])
  {
    j := 0;
    while j < |g|
      invariant j <= |g|
      invariant forall m :: 0 <= m < j ==> !p(g[m])
    {
      if p(g[j]) {
        return;
      }
      j := j + 1;
    }
  }

  /** No element before element `j` of group `i` satisfies `p` when none of
      the earlier groups' elements and none of the earlier elements of group
      `i` do. */
  lemma NoEarlierHit<T>(groups: seq<seq<T>>, i: nat, j: nat, p: T -> bool)
    requires i < |groups| && j < |groups[i]|
    requires forall m :: 0 <= m < |Flatten(groups[..i])| ==> !p(Flatten(groups[..i])[m])
    requires forall m :: 0 <= m < j ==> !p(groups[i][m])
    ensures |Flatten(groups[..i])| + j < |Flatten(groups)|
    ensures forall m :: 0 <= m < |Flatten(groups[..i])| + j ==> !p(Flatten(groups)[m])
  {
    FlattenAt(groups, i, j);
    var n := |Flatten(groups[..i])|;
    var flat := Flatten(groups);
    var before := Flatten(groups[..i]) + groups[i][..j];
    assert flat[..n + j] == before;
    forall m | 0 <= m < n + j
      ensures !p(flat[m])
    {
      assert flat[m] == before[m];
      if m >= n {
        assert before[m] == groups[i][m - n];
      } else {
        assert before[m] == Flatten(groups[..i])[m];
      }
    }
  }

  /** A nested search that returns at the first hit: the group and the
      position in it of the first element, in traversal order, that
      satisfies `p`. */
  method FindNested<T>(groups: seq<seq<T>>, p: T -> bool) returns (hit: Option<(nat, nat)>)
    ensures hit.None? ==> FirstIndex(Flatten(groups), p).None?
    ensures hit.Some? ==>
              var (i, j) := hit.value;
              && i < |groups| && j < |groups[i]|
              && FirstIndex(Flatten(groups), p) == Some(|Flatten(groups[..i])| + j)
              && Flatten(groups)[|Flatten(groups[..i])| + j] == groups[i][j]
  {
    var i := 0;
    while i < |groups|
      invariant 0 <= i <= |groups|
      invariant forall m :: 0 <= m < |Flatten(groups[..i])| ==> !p(Flatten(groups[..i])[m])
    {
      var j := FirstInGroup(groups[i], p);
      if j < |groups[i]| {
        NoEarlierHit(groups, i, j, p);
        FlattenAt(groups, i, j);
        FirstIndexAt(Flatten(groups), p, |Flatten(groups[..i])| + j);
        return Some((i, j));
      }
      FlattenStep(groups, i);
      assert forall m :: 0 <= m < |groups[i]| ==> !p(groups[i][m]);
      i := i + 1;
    }
    assert groups[..i] == groups;
    return None;
  }

  /** The loop `for group in groups: for x in group: if keep(x):
      r.append(f(x))`. */
  method CollectNested<T, U>(groups: seq<seq<T>>, keep: T -> bool, f: T -> U) returns (r: seq<U>)
    ensures r == FilterMap(Flatten(groups), keep, f)
  {
    r := [];
    var i := 0;
    while i < |groups|
      invariant 0 <= i <= |groups|
      invariant r == FilterMap(Flatten(groups[..i]), keep, f)
    {
      var v := CollectKept(groups[i], keep, f);
      FlattenStep(groups, i);
      FilterMapAppend(Flatten(groups[..i]), groups[i], keep, f);
      r := r + v;
      i := i + 1;
    }
    assert groups[..i] == groups;
  }

  /** Every position of the flattening is an element of some group. */
  lemma {:induction false} FlattenIndex<T>(groups: seq<seq<T>>, n: nat) returns (ij: (nat, nat))
    requires n < |Flatten(groups)|
    ensures ij.0 < |groups| && ij.1 < |groups[ij.0]| && Flatten(groups)[n] == groups[ij.0][ij.1]
  {
    if n < |groups[0]| {
      ij := (0, n);
    } else {
      var r := FlattenIndex(groups[1..], n - |groups[0]|);
      ij := (r.0 + 1, r.1);
    }
  }

  // ---------------------------------------------------------------------
  // Sequence repetition, Python's `xs * n`

  /** `xs * n`: `n` copies of `xs`, one after the other. */
  function RepeatSeq<T>(xs: seq<T>, n: nat): (r: seq<T>)
    ensures |r| == |xs| * n
    ensures xs != [] ==> forall i :: 0 <= i < |r| ==> r[i] == xs[i % |xs|]
  {
    if n == 0 then []
    else
      var rest := RepeatSeq(xs, n - 1);
      assert |xs| * n == |xs| + |xs| * (n - 1);
      PeriodicCons(xs, rest);
      xs + rest
  }

  /** A copy of `xs` in front of a sequence with period `|xs|` keeps the
      period. */
  lemma PeriodicCons<T>(xs: seq<T>, rest: seq<T>)
    requires xs != [] ==> forall i :: 0 <= i < |rest| ==> rest[i] == xs[i % |xs|]
    ensures xs != [] ==> forall i :: 0 <= i < |xs + rest| ==> (xs + rest)[i] == xs[i % |xs|]
  {
    if xs != [] {
      var m := |xs|;
      forall i | 0 <= i < |xs + rest|
        ensures (xs + rest)[i] == xs[i % m]
      {
        if i >= m {
          var j := i - m;
          assert (xs + rest)[i] == rest[j];
          assert rest[j] == xs[j % m];
          ModShift(i, m);
        } else {
          ModUnique(i, m, 0, i);
        }
      }
    }
  }

  lemma ModShift(i: int, m: int)
    requires 0 < m <= i
    ensures (i - m) % m == i % m
  {
    var q, r := i / m, i % m;
    assert i == q * m + r;
    assert i - m == (q - 1) * m + r;
    ModUnique(i - m, m, q - 1, r);
  }

  /** The remainder of `q * m + r` by `m` is `r`, for `0 <= r < m`. */
  lemma ModUnique(x: int, m: int, q: int, r: int)
    requires 0 <= r < m && x == q * m + r
    ensures x % m == r
  {
    var d, e := x / m, x % m;
    assert x == d * m + e && 0 <= e < m;
    assert (q - d) * m == e - r;
    SmallMultiple(q - d, m);
  }

  /** The only multiple of `m` strictly between `-m` and `m` is zero. */
  lemma SmallMultiple(k: int, m: int)
    requires 0 < m && -m < k * m < m
    ensures k == 0
  {
    if k > 0 {
      MulAtLeast(k, m);
      assert false;
    } else if k < 0 {
      MulAtLeast(-k, m);
      assert false;
    }
  }

  lemma MulAtLeast(k: int, m: int)
    requires k >= 1 && m > 0
    ensures k * m >= m
  {
  }
}

=== FILE: server.dfy ===
/** `server.py`, the parts that decide rather than do: the base URL, the
    mapping from a file path to its static URL, the search of
    `find_video_path` and the listing of `list_output_videos`.  The process
    environment, the current directory, the file system and the results of
    `os.walk` are parameters. */
module Server {
  import opened Values
  import opened Strings
  import opened PosixPath
  import Utils
  import opened Seqs

  // ---------------------------------------------------------------------
  // get_base_url

  /** The process environment, `os.environ`. */
  type Env = map<string, string>

  /** `os.getenv(key, default)`. */
  function GetEnv(env: Env, key: string, default: string): string {
    if key in env then env[key] else default
  }

  const DefaultHost := "localhost"
  const DefaultPort := "8032"

  function ExternalUrl(env: Env): string {
    GetEnv(env, "MCP_EXTERNAL_URL", "")
  }

  /** The host the server is reached at: `MCP_HOST`, with the wildcard
      address `0.0.0.0` read as `localhost`. */
  function Host(env: Env): (h: string)
    ensures h != "0.0.0.0"
    ensures "MCP_HOST" in env && env["MCP_HOST"] != "0.0.0.0" ==> h == env["MCP_HOST"]
    ensures "MCP_HOST" !in env || env["MCP_HOST"] == "0.0.0.0" ==> h == DefaultHost
  {
    var h := GetEnv(env, "MCP_HOST", DefaultHost);
    if h == "0.0.0.0" then DefaultHost else h
  }

  /** `get_base_url()`: a non-empty `MCP_EXTERNAL_URL` without its trailing
      slashes, otherwise `http://<host>:<port>`. */
  function GetBaseUrl(env: Env): (r: string)
    ensures ExternalUrl(env) != "" ==>
              && StartsWith(ExternalUrl(env), r)
              && !EndsWith(r, "/")
              && forall i :: |r| <= i < |ExternalUrl(env)| ==> ExternalUrl(env)[i] == '/'
    ensures ExternalUrl(env) == "" ==>
              r == "http://" + Host(env) + ":" + GetEnv(env, "MCP_PORT", DefaultPort)
  {
    var external := ExternalUrl(env);
    if external != "" then RStrip(external, '/')
    else "http://" + Host(env) + ":" + GetEnv(env, "MCP_PORT", DefaultPort)
  }

  /** With nothing configured the server is `http://localhost:8032`, and
      binding to the wildcard address does not change that. */
  lemma BaseUrlDefaults(env: Env)
    requires "MCP_EXTERNAL_URL" !in env && "MCP_PORT" !in env
    requires "MCP_HOST" !in env || env["MCP_HOST"] == "0.0.0.0"
    ensures GetBaseUrl(env) == "http://localhost:8032"
  {
  }

  /** Trailing slashes of the external URL do not matter. */
  lemma BaseUrlIgnoresTrailingSlash(env: Env, url: string)
    requires url != ""
    ensures GetBaseUrl(env["MCP_EXTERNAL_URL" := url + "/"]) == GetBaseUrl(env["MCP_EXTERNAL_URL" := url])
  {
    assert (url + "/")[..|url + "/"| - 1] == url;
  }

  // ---------------------------------------------------------------------
  // get_file_url

  /** The names of the two directories the server mounts as static file
      trees (and, in `download_video` and `delete_videos`, lets clients
      reach). */
  const OutputName := "output"
  const VideosName := "videos"

  /** Both mount names are single normal path components, and they differ
      in their first letter. */
  lemma MountNamesNormal()
    ensures NormalComp(OutputName) && NormalComp(VideosName)
    ensures OutputName[0] != VideosName[0]
  {
  }

  /** The mounts `get_file_url` tries, in the order it tries them, as
      `(mount, directory)`: the root directories first, then the ones under
      the current directory. */
  function MountTable(cwd: string): (t: seq<(string, string)>)
    ensures |t| == 4
  {
    [(OutputName, "/" + OutputName), (VideosName, "/" + VideosName),
     (OutputName, PosixPath.Join(cwd, OutputName)), (VideosName, PosixPath.Join(cwd, VideosName))]
  }

  /** Entry `i` of `table` is the first whose directory is a textual prefix
      of `abs`. */
  predicate FirstMatchAt(abs: string, table: seq<(string, string)>, i: int) {
    && 0 <= i < |table| && StartsWith(abs, table[i].1)
    && forall j :: 0 <= j < i ==> !StartsWith(abs, table[j].1)
  }

  /** The static mount a normalised absolute path is served under, as
      `(mount, directory)`: the chain of prefix tests of `get_file_url`. */
  function MountOf(abs: string, cwd: string): (m: Option<(string, string)>)
    ensures m.Some? ==> (m.value.0 == OutputName || m.value.0 == VideosName) && StartsWith(abs, m.value.1)
    ensures m.None? <==>
              && !StartsWith(abs, "/" + OutputName) && !StartsWith(abs, "/" + VideosName)
              && !StartsWith(abs, PosixPath.Join(cwd, OutputName)) && !StartsWith(abs, PosixPath.Join(cwd, VideosName))
  {
    if StartsWith(abs, "/" + OutputName) then Some((OutputName, "/" + OutputName))
    else if StartsWith(abs, "/" + VideosName) then Some((VideosName, "/" + VideosName))
    else if StartsWith(abs, PosixPath.Join(cwd, OutputName)) then Some((OutputName, PosixPath.Join(cwd, OutputName)))
    else if StartsWith(abs, PosixPath.Join(cwd, VideosName)) then Some((VideosName, PosixPath.Join(cwd, VideosName)))
    else None
  }

  /** The chain of prefix tests picks the first entry of the mount table
      whose directory is a prefix of the path, and none exactly when no
      directory is. */
  lemma MountOfIsFirstMatch(abs: string, cwd: string)
    ensures var m, t := MountOf(abs, cwd), MountTable(cwd);
            && (m.Some? ==> exists i :: FirstMatchAt(abs, t, i) && m.value == t[i])
            && (m.None? <==> forall i :: 0 <= i < |t| ==> !StartsWith(abs, t[i].1))
  {
    var t := MountTable(cwd);
    assert t[0].1 == "/" + OutputName && t[1].1 == "/" + VideosName;
    assert t[2].1 == PosixPath.Join(cwd, OutputName) && t[3].1 == PosixPath.Join(cwd, VideosName);
    FirstOfFour(abs, t, MountOf(abs, cwd));
  }

  /** A chain of four prefix tests finds the first match of a four-entry
      table. */
  lemma FirstOfFour(abs: string, t: seq<(string, string)>, m: Option<(string, string)>)
    requires |t| == 4
    requires m == if StartsWith(abs, t[0].1) then Some(t[0])
                  else if StartsWith(abs, t[1].1) then Some(t[1])
                  else if StartsWith(abs, t[2].1) then Some(t[2])
                  else if StartsWith(abs, t[3].1) then Some(t[3])
                  else None
    ensures m.Some? ==> exists i :: FirstMatchAt(abs, t, i) && m.value == t[i]
    ensures m.None? <==> forall i :: 0 <= i < |t| ==> !StartsWith(abs, t[i].1)
  {
    if StartsWith(abs, t[0].1) {
      assert FirstMatchAt(abs, t, 0);
    } else if StartsWith(abs, t[1].1) {
      assert FirstMatchAt(abs, t, 1);
    } else if StartsWith(abs, t[2].1) {
      assert FirstMatchAt(abs, t, 2);
    } else if StartsWith(abs, t[3].1) {
      assert FirstMatchAt(abs, t, 3);
    }
  }

  /** `get_file_url(file_path)`: the base URL, the mount and the path
      relative to the mounted directory; the empty string for an empty path
      or a path under no mount. */
  function GetFileUrl(path: string, env: Env, cwd: string): (r: string)
    ensures path == "" ==> r == ""
    ensures path != "" ==> (r == "" <==> MountOf(Abspath(path, cwd), cwd).None?)
    ensures r != "" ==>
              var m := MountOf(Abspath(path, cwd), cwd).value;
              StartsWith(r, GetBaseUrl(env) + "/" + m.0 + "/")
  {
    if path == "" then ""
    else
      var abs := Abspath(path, cwd);
      match MountOf(abs, cwd)
      case None => ""
      case Some((mount, dir)) =>
        assert abs != "";
        GetBaseUrl(env) + "/" + mount + "/" + Relpath(abs, dir, cwd)
  }

  /** The absolute path of a directory followed by more components starts
      with that directory. */
  lemma AbsPathOfUnder(top: string, sub: seq<string>)
    requires sub != []
    ensures AbsPathOf([top] + sub) == "/" + top + "/" + Strings.Join(sub, '/')
    ensures StartsWith(AbsPathOf([top] + sub), "/" + top)
  {
    assert ([top] + sub)[1..] == sub;
    var p := AbsPathOf([top] + sub);
    assert p[..|"/" + top|] == "/" + top;
  }

  /** The URL of a path under a mount. */
  lemma FileUrlOfMount(path: string, env: Env, cwd: string, mount: string, dir: string)
    requires path != "" && MountOf(Abspath(path, cwd), cwd) == Some((mount, dir))
    ensures GetFileUrl(path, env, cwd) == GetBaseUrl(env) + "/" + mount + "/" + Relpath(Abspath(path, cwd), dir, cwd)
  {
  }

  /** A file inside `/output` or `/videos` gets the URL of the matching
      static mount, with its path below the directory kept as it is. */
  lemma FileUrlUnderServedDir(top: string, sub: seq<string>, env: Env, cwd: string)
    requires top == OutputName || top == VideosName
    requires AllNormal(sub) && sub != []
    ensures GetFileUrl(AbsPathOf([top] + sub), env, cwd)
            == GetBaseUrl(env) + "/" + top + "/" + Strings.Join(sub, '/')
  {
    MountOfServedDir(top, sub, cwd);
    FileUrlOfServedMount(top, sub, env, cwd);
  }

  lemma FileUrlOfServedMount(top: string, sub: seq<string>, env: Env, cwd: string)
    requires NormalComp(top) && AllNormal(sub) && sub != []
    requires MountOf(AbsPathOf([top] + sub), cwd) == Some((top, "/" + top))
    requires Abspath(AbsPathOf([top] + sub), cwd) == AbsPathOf([top] + sub)
    ensures GetFileUrl(AbsPathOf([top] + sub), env, cwd)
            == GetBaseUrl(env) + "/" + top + "/" + Strings.Join(sub, '/')
  {
    var p := AbsPathOf([top] + sub);
    assert p != "" by {
      assert p[0] == '/';
    }
    FileUrlOfMount(p, env, cwd, top, "/" + top);
    RelpathOfServedDir(top, sub, cwd);
  }

  lemma MountOfServedDir(top: string, sub: seq<string>, cwd: string)
    requires top == OutputName || top == VideosName
    requires AllNormal(sub) && sub != []
    ensures AbsPathOf([top] + sub) != ""
    ensures Abspath(AbsPathOf([top] + sub), cwd) == AbsPathOf([top] + sub)
    ensures MountOf(AbsPathOf([top] + sub), cwd) == Some((top, "/" + top))
  {
    var full := [top] + sub;
    assert NormalComp(top);
    assert AllNormal(full);
    var p := AbsPathOf(full);
    AbspathOfAbsPathOf(full, cwd);
    AbsPathOfUnder(top, sub);
    if top == VideosName {
      assert p[1] == VideosName[0] != OutputName[0];
      DifferAt(p, "/" + OutputName, 1);
    }
  }

  /** A directory given by one normal name is its own `abspath`, whatever
      the current directory. */
  lemma AbspathOfServedDir(top: string, cwd: string)
    requires NormalComp(top)
    ensures Abspath("/" + top, cwd) == "/" + top
  {
    assert AbsPathOf([top]) == "/" + top;
    AbspathOfAbsPathOf([top], cwd);
  }

  lemma ComponentsOfServedDir(top: string, cwd: string)
    requires NormalComp(top)
    ensures Components(Abspath("/" + top, cwd)) == [top]
  {
    assert AbsPathOf([top]) == "/" + top;
    ComponentsOfAbspath([top], cwd);
  }

  lemma RelpathOfServedDir(top: string, sub: seq<string>, cwd: string)
    requires NormalComp(top) && AllNormal(sub) && sub != []
    ensures Relpath(AbsPathOf([top] + sub), "/" + top, cwd) == Strings.Join(sub, '/')
  {
    var full := [top] + sub;
    assert AllNormal(full);
    assert AbsPathOf([top]) == "/" + top;
    RelpathOfNormal(full, [top], cwd);
    RelJoinUnder(top, sub);
  }

  lemma RelJoinUnder(top: string, sub: seq<string>)
    requires sub != []
    ensures RelJoin([top], [top] + sub) == Strings.Join(sub, '/')
  {
    var full := [top] + sub;
    assert CommonPrefixLen([top], full) == 1 by {
      assert [top][1..] == [];
    }
    assert Pardirs(0) + full[1..] == sub;
  }

  /** The fallback mounts: in a current directory whose first component
      starts with neither `output` nor `videos`, a file inside
      `<cwd>/output` or `<cwd>/videos` gets the URL of the matching static
      mount, with its path below the directory kept as it is. */
  lemma FileUrlUnderCwdMount(cc: seq<string>, top: string, sub: seq<string>, env: Env)
    requires top == OutputName || top == VideosName
    requires AllNormal(cc) && cc != [] && !StartsWith(cc[0], OutputName) && !StartsWith(cc[0], VideosName)
    requires AllNormal(sub) && sub != []
    ensures GetFileUrl(AbsPathOf(cc + [top] + sub), env, AbsPathOf(cc))
            == GetBaseUrl(env) + "/" + top + "/" + Strings.Join(sub, '/')
  {
    MountNamesNormal();
    CwdMountOf(cc, top, sub);
    FileUrlOfCwdMount(cc, top, sub, env);
  }

  lemma FileUrlOfCwdMount(cc: seq<string>, top: string, sub: seq<string>, env: Env)
    requires NormalComp(top) && AllNormal(cc) && AllNormal(sub) && sub != []
    requires MountOf(AbsPathOf(cc + [top] + sub), AbsPathOf(cc)) == Some((top, AbsPathOf(cc + [top])))
    ensures GetFileUrl(AbsPathOf(cc + [top] + sub), env, AbsPathOf(cc))
            == GetBaseUrl(env) + "/" + top + "/" + Strings.Join(sub, '/')
  {
    var cwd := AbsPathOf(cc);
    var root := cc + [top];
    var full := root + sub;
    assert AllNormal(root) && AllNormal(full);
    var p := AbsPathOf(full);
    AbspathOfAbsPathOf(full, cwd);
    assert p != "" by {
      assert p[0] == '/';
    }
    FileUrlOfMount(p, env, cwd, top, AbsPathOf(root));
    RelpathInside(root, sub, cwd);
  }

  lemma CwdMountOf(cc: seq<string>, top: string, sub: seq<string>)
    requires top == OutputName || top == VideosName
    requires AllNormal(cc) && cc != [] && !StartsWith(cc[0], OutputName) && !StartsWith(cc[0], VideosName)
    requires AllNormal(sub) && sub != []
    ensures MountOf(AbsPathOf(cc + [top] + sub), AbsPathOf(cc)) == Some((top, AbsPathOf(cc + [top])))
  {
    MountNamesNormal();
    var full := cc + [top] + sub;
    assert AllNormal(full);
    assert full[0] == cc[0];
    StartsWithTop(full, OutputName);
    StartsWithTop(full, VideosName);
    CwdPrefix(cc, top, sub);
    if top == VideosName {
      CwdSiblingMiss(cc, VideosName, OutputName, sub);
    }
  }

  /** A path below `<cwd>/<top>` starts with it. */
  lemma CwdPrefix(cc: seq<string>, top: string, sub: seq<string>)
    requires AllNormal(cc) && cc != [] && NormalComp(top) && sub != []
    ensures PosixPath.Join(AbsPathOf(cc), top) == AbsPathOf(cc + [top])
    ensures StartsWith(AbsPathOf(cc + [top] + sub), PosixPath.Join(AbsPathOf(cc), top))
  {
    var root := cc + [top];
    var p := AbsPathOf(root + sub);
    CwdJoin(cc, top);
    JoinAppend(root, sub, '/');
    assert p == AbsPathOf(root) + "/" + Strings.Join(sub, '/');
  }

  /** A path below `<cwd>/<top>` does not start with `<cwd>/<other>` when
      the two names differ in their first letter. */
  lemma CwdSiblingMiss(cc: seq<string>, top: string, other: string, sub: seq<string>)
    requires AllNormal(cc) && cc != [] && NormalComp(top) && NormalComp(other) && top[0] != other[0] && sub != []
    ensures !StartsWith(AbsPathOf(cc + [top] + sub), PosixPath.Join(AbsPathOf(cc), other))
  {
    var cwd := AbsPathOf(cc);
    var p := AbsPathOf(cc + [top] + sub);
    var q := PosixPath.Join(cwd, other);
    CwdPrefix(cc, top, sub);
    CwdJoin(cc, top);
    CwdJoin(cc, other);
    assert p[|cwd| + 1] == top[0];
    assert q[|cwd| + 1] == other[0];
    DifferAt(p, q, |cwd| + 1);
  }

  /** Joining a name onto a current directory of at least one component. */
  lemma CwdJoin(cc: seq<string>, top: string)
    requires AllNormal(cc) && cc != [] && NormalComp(top)
    ensures PosixPath.Join(AbsPathOf(cc), top) == AbsPathOf(cc) + "/" + top == AbsPathOf(cc + [top])
  {
    var cwd := AbsPathOf(cc);
    JoinLast(cc);
    var last := cc[|cc| - 1];
    assert NormalComp(last);
    assert last[|last| - 1] in last;
    var j := Strings.Join(cc, '/');
    assert cwd[|cwd| - 1] == j[|j| - 1] != '/';
    assert !EndsWith(cwd, "/");
    JoinSnoc(cc, top, '/');
  }

  /** The prefix test is on text, not on directories: a sibling directory
      whose name merely starts with `output` is mapped into the `/output`
      mount with a relative path that climbs out of it. */
  lemma FileUrlSiblingPrefix(name: string, sub: seq<string>, env: Env, cwd: string)
    requires NormalComp(name) && StartsWith(name, OutputName) && name != OutputName
    requires AllNormal(sub) && sub != []
    ensures GetFileUrl(AbsPathOf([name] + sub), env, cwd)
            == GetBaseUrl(env) + "/" + OutputName + "/" + Strings.Join(["..", name] + sub, '/')
  {
    var p := AbsPathOf([name] + sub);
    MountOfSibling(name, sub, cwd);
    FileUrlOfMount(p, env, cwd, OutputName, "/" + OutputName);
    RelpathOfSibling(OutputName, name, sub, cwd);
  }

  lemma MountOfSibling(name: string, sub: seq<string>, cwd: string)
    requires NormalComp(name) && StartsWith(name, OutputName)
    requires AllNormal(sub) && sub != []
    ensures AbsPathOf([name] + sub) != ""
    ensures Abspath(AbsPathOf([name] + sub), cwd) == AbsPathOf([name] + sub)
    ensures MountOf(AbsPathOf([name] + sub), cwd) == Some((OutputName, "/" + OutputName))
  {
    var full := [name] + sub;
    assert AllNormal(full);
    var p := AbsPathOf(full);
    AbspathOfAbsPathOf(full, cwd);
    AbsPathOfUnder(name, sub);
    assert StartsWith(p, "/" + OutputName) by {
      assert p[..|OutputName| + 1] == "/" + name[..|OutputName|];
    }
  }

  /** `relpath` from `/<top>` to a path under a sibling directory climbs
      one level and descends into the sibling. */
  lemma RelpathOfSibling(top: string, name: string, sub: seq<string>, cwd: string)
    requires NormalComp(top) && NormalComp(name) && name != top && AllNormal(sub)
    ensures Relpath(AbsPathOf([name] + sub), "/" + top, cwd) == Strings.Join(["..", name] + sub, '/')
  {
    var full := [name] + sub;
    assert AllNormal(full);
    assert AbsPathOf([top]) == "/" + top;
    RelpathOfNormal(full, [top], cwd);
    RelJoinSibling(top, full);
  }

  lemma RelJoinSibling(top: string, full: seq<string>)
    requires full != [] && full[0] != top
    ensures RelJoin([top], full) == Strings.Join([".."] + full, '/')
  {
    assert CommonPrefixLen([top], full) == 0;
    assert Pardirs(1) == [".."];
    assert full[0..] == full;
  }

  // ---------------------------------------------------------------------
  // find_video_path

  /** `VIDEO_EXTS`. */
  const VideoExts: set<string> := {".mp4", ".avi", ".mov", ".mkv", ".flv", ".wmv", ".webm", ".ts"}

  /** Whether an extension, lower-cased, is in `VIDEO_EXTS`. */
  predicate IsVideoExt(ext: string) {
    Lower(ext) in VideoExts
  }

  /** The target `(stem, ext)` of `find_video_path`: the name split at its
      extension when that is a video extension, otherwise the whole name as
      the stem and no extension. */
  function Target(videoName: string): (t: (string, string))
    ensures t.0 + t.1 == videoName
    ensures t.1 == "" || IsVideoExt(t.1)
    ensures IsVideoExt(Ext(videoName)) <==> t.1 != ""
  {
    var (stem, ext) := SplitExt(videoName);
    if IsVideoExt(ext) then (stem, ext) else (stem + ext, "")
  }

  /** Whether a walked file name matches the target: same stem ignoring
      case, and a video extension of its own when the target named one. */
  predicate Matches(file: string, t: (string, string)) {
    Lower(Stem(file)) == Lower(t.0) && (t.1 == "" || IsVideoExt(Ext(file)))
  }

  /** One `(root, dirs, files)` triple of `os.walk`; the sub-directory list
      only steers the walk, which is given whole. */
  datatype WalkEntry = WalkEntry(root: string, files: seq<string>)

  function Pairs(e: WalkEntry): (r: seq<(string, string)>)
    ensures |r| == |e.files|
    ensures forall i :: 0 <= i < |r| ==> r[i] == (e.root, e.files[i])
  {
    seq(|e.files|, i requires 0 <= i < |e.files| => (e.root, e.files[i]))
  }

  /** The `(root, file)` pairs of each walk entry. */
  function Groups(walk: seq<WalkEntry>): (g: seq<seq<(string, string)>>)
    ensures |g| == |walk|
    ensures forall i :: 0 <= i < |walk| ==> g[i] == Pairs(walk[i])
  {
    seq(|walk|, i requires 0 <= i < |walk| => Pairs(walk[i]))
  }

  /** Every `(root, file)` pair of a walk, in walk order. */
  function Listing(walk: seq<WalkEntry>): seq<(string, string)> {
    Flatten(Groups(walk))
  }

  lemma ListingAppend(a: seq<WalkEntry>, b: seq<WalkEntry>)
    ensures Listing(a + b) == Listing(a) + Listing(b)
  {
    assert Groups(a + b) == Groups(a) + Groups(b);
    FlattenAppend(Groups(a), Groups(b));
  }

  /** Every listed pair is a root and one of its files. */
  lemma ListingMember(walk: seq<WalkEntry>, n: nat)
    requires n < |Listing(walk)|
    ensures exists i, j :: 0 <= i < |walk| && 0 <= j < |walk[i].files| && Listing(walk)[n] == (walk[i].root, walk[i].files[j])
  {
    var ij := FlattenIndex(Groups(walk), n);
    assert Groups(walk)[ij.0][ij.1] == (walk[ij.0].root, walk[ij.0].files[ij.1]);
  }

  /** The match test as a test on walked pairs. */
  function MatchesTarget(t: (string, string)): ((string, string)) -> bool {
    (pair: (string, string)) => Matches(pair.1, t)
  }

  /** The first pair of `listing` satisfying `p`, joined as a path; the
      empty string when none does. */
  function FirstJoined(listing: seq<(string, string)>, p: ((string, string)) -> bool): (r: string)
    ensures var k := FirstIndex(listing, p);
            k.Some? ==> r == PosixPath.Join(listing[k.value].0, listing[k.value].1)
  {
    match FirstIndex(listing, p)
    case None => ""
    case Some(k) => PosixPath.Join(listing[k].0, listing[k].1)
  }

  /** The path `find_video_path` reports for a walk: the first matching
      file, in walk order, joined to its root; the empty string when no file
      matches. */
  function FoundPath(walk: seq<WalkEntry>, videoName: string): string {
    FirstJoined(Listing(walk), MatchesTarget(Target(videoName)))
  }

  /** `find_video_path(root_path, video_name)` over the triples `os.walk`
      produced for `root_path`: the nested loop returns at the first
      matching file. */
  method FindVideoPath(walk: seq<WalkEntry>, videoName: string) returns (r: string)
    ensures r == FoundPath(walk, videoName)
  {
    r := FindJoined(Groups(walk), MatchesTarget(Target(videoName)));
  }

  /** The nested search of `find_video_path` for any test on pairs. */
  method FindJoined(groups: seq<seq<(string, string)>>, p: ((string, string)) -> bool) returns (r: string)
    ensures r == FirstJoined(Flatten(groups), p)
  {
    var hit := FindNested(groups, p);
    if hit.None? {
      r := "";
    } else {
      var (i, j) := hit.value;
      r := PosixPath.Join(groups[i][j].0, groups[i][j].1);
    }
  }

  /** When the file at position `k` of the walk is the first to match,
      `find_video_path` reports it, joined to its root. */
  lemma FoundPathIsFirstMatch(walk: seq<WalkEntry>, videoName: string, k: nat)
    requires var listing, t := Listing(walk), Target(videoName);
             && k < |listing| && Matches(listing[k].1, t)
             && forall m :: 0 <= m < k ==> !Matches(listing[m].1, t)
    ensures FoundPath(walk, videoName) == PosixPath.Join(Listing(walk)[k].0, Listing(walk)[k].1)
  {
    var listing, p := Listing(walk), MatchesTarget(Target(videoName));
    forall m | 0 <= m < k
      ensures !p(listing[m])
    {
    }
    FirstIndexAt(listing, p, k);
  }

  /** When no walked file matches, `find_video_path` reports the empty
      string; and, as `os.walk` never yields an empty file name, it reports
      the empty string only then. */
  lemma FoundNothingIffNoMatch(walk: seq<WalkEntry>, videoName: string)
    requires forall i, j :: 0 <= i < |walk| && 0 <= j < |walk[i].files| ==> walk[i].files[j] != ""
    ensures var listing, t := Listing(walk), Target(videoName);
            FoundPath(walk, videoName) == ""
            <==> forall m :: 0 <= m < |listing| ==> !Matches(listing[m].1, t)
  {
    var listing, p := Listing(walk), MatchesTarget(Target(videoName));
    var k := FirstIndex(listing, p);
    if k.Some? {
      var n := k.value;
      assert listing[n].1 != "" by {
        ListingMember(walk, n);
      }
      assert |PosixPath.Join(listing[n].0, listing[n].1)| >= |listing[n].1|;
      assert p(listing[n]);
    } else {
      forall m | 0 <= m < |listing|
        ensures !Matches(listing[m].1, Target(videoName))
      {
        assert !p(listing[m]);
      }
    }
  }

  /** Every entry of `VIDEO_EXTS` is a lower-case dot and a tail without a
      dot or a slash. */
  lemma VideoExtShape(e: string)
    requires e in VideoExts
    ensures |e| >= 2 && e[0] == '.' && '.' !in e[1..] && '/' !in e && Lower(e) == e
  {
    VideoExtsAreDotLowerAlnum(e);
    DotLowerAlnumShape(e);
  }

  lemma DotLowerAlnumShape(e: string)
    requires DotLowerAlnum(e)
    ensures |e| >= 2 && e[0] == '.' && '.' !in e[1..] && '/' !in e && Lower(e) == e
  {
    assert forall i :: 0 <= i < |e[1..]| ==> e[1..][i] == e[i + 1];
    assert forall i :: 0 <= i < |e| ==> LowerChar(e[i]) == e[i];
    assert Lower(e) == e;
  }

  lemma VideoExtsAreDotLowerAlnum(e: string)
    requires e in VideoExts
    ensures DotLowerAlnum(e)
  {
    if e == ".mp4" {
      assert DotLowerAlnum(".mp4");
    } else if e == ".avi" {
      assert DotLowerAlnum(".avi");
    } else if e == ".mov" {
      assert DotLowerAlnum(".mov");
    } else if e == ".mkv" {
      assert DotLowerAlnum(".mkv");
    } else if e == ".flv" {
      assert DotLowerAlnum(".flv");
    } else if e == ".wmv" {
      assert DotLowerAlnum(".wmv");
    } else if e == ".webm" {
      assert DotLowerAlnum(".webm");
    } else {
      assert DotLowerAlnum(".ts");
    }
  }

  /** A dot followed by lower-case letters and digits. */
  predicate DotLowerAlnum(e: string) {
    |e| >= 2 && e[0] == '.' && forall i :: 1 <= i < |e| ==> 'a' <= e[i] <= 'z' || '0' <= e[i] <= '9'
  }

  /** The target's extension picks no particular video extension: a file
      with the same stem (in any case) and any video extension matches. */
  lemma AnyVideoExtMatches(stem: string, other: string, e1: string, e2: string)
    requires '/' !in stem && exists k :: 0 <= k < |stem| && stem[k] != '.'
    requires '/' !in other && Lower(other) == Lower(stem)
    requires e1 in VideoExts && e2 in VideoExts
    ensures Target(stem + e1) == (stem, e1)
    ensures Matches(other + e2, Target(stem + e1))
  {
    VideoExtShape(e1);
    VideoExtShape(e2);
    var k :| 0 <= k < |stem| && stem[k] != '.';
    assert LowerChar(other[k]) == LowerChar(stem[k]);
    SplitAtExt(stem, e1, k);
    SplitAtExt(other, e2, k);
  }

  /** A slash-free stem with a character other than a dot, followed by an
      extension, splits back into the two. */
  lemma SplitAtExt(stem: string, ext: string, k: nat)
    requires '/' !in stem && k < |stem| && stem[k] != '.'
    requires |ext| >= 1 && ext[0] == '.' && '.' !in ext[1..] && '/' !in ext
    ensures SplitExt(stem + ext) == (stem, ext)
  {
    assert stem + ext == "" + stem + ext;
    SplitExtOfParts("", stem, ext);
  }

  /** A name without a video extension is searched for as a whole stem: a
      file matches exactly when its stem is the whole name, ignoring case,
      whatever its own extension. */
  lemma NonVideoNameIsStem(videoName: string, file: string)
    requires !IsVideoExt(Ext(videoName))
    ensures Matches(file, Target(videoName)) <==> Lower(Stem(file)) == Lower(videoName)
  {
  }

  // ---------------------------------------------------------------------
  // The file system and list_output_videos

  /** What a normalised absolute path names: a regular file or a directory,
      with the size `os.path.getsize` reports. */
  datatype Entry = File(size: nat) | Dir(size: nat)

  /** The file system, keyed by normalised absolute path. */
  type FileSystem = map<string, Entry>

  /** `os.path.exists(p)`. */
  predicate Exists(p: string, fs: FileSystem, cwd: string) {
    p != "" && Abspath(p, cwd) in fs
  }

  /** On a normalised absolute path, existence is membership: the path is
      its own `abspath` and is never empty. */
  lemma ExistsOfNormal(cs: seq<string>, fs: FileSystem, cwd: string)
    requires AllNormal(cs)
    ensures Exists(AbsPathOf(cs), fs, cwd) <==> AbsPathOf(cs) in fs
  {
    AbspathOfAbsPathOf(cs, cwd);
    assert AbsPathOf(cs)[0] == '/';
  }

  /** The directory `list_output_videos` walks: `/output`, else
      `<cwd>/output`, else none. */
  function OutputDirOf(fs: FileSystem, cwd: string): (d: Option<string>)
    ensures d.Some? ==> Exists(d.value, fs, cwd)
    ensures d.Some? ==> d.value == "/" + OutputName || d.value == PosixPath.Join(cwd, OutputName)
    ensures Exists("/" + OutputName, fs, cwd) ==> d == Some("/" + OutputName)
    ensures d.None? <==> !Exists("/" + OutputName, fs, cwd) && !Exists(PosixPath.Join(cwd, OutputName), fs, cwd)
  {
    if Exists("/" + OutputName, fs, cwd) then Some("/" + OutputName)
    else if Exists(PosixPath.Join(cwd, OutputName), fs, cwd) then Some(PosixPath.Join(cwd, OutputName))
    else None
  }

  /** Whether a walked `(root, file)` pair is a video file. */
  predicate IsVideoPair(pair: (string, string)) {
    IsVideoExt(Ext(pair.1))
  }

  /** The absolute path of a walked pair. */
  function PathIn(cwd: string): ((string, string)) -> string {
    (pair: (string, string)) => Abspath(PosixPath.Join(pair.0, pair.1), cwd)
  }

  /** The absolute paths of the video files of a walk, in walk order. */
  function VideoFiles(walk: seq<WalkEntry>, cwd: string): seq<string> {
    FilterMap(Listing(walk), IsVideoPair, PathIn(cwd))
  }

  /** `list_output_videos()`, with `walk` the triples `os.walk` produced for
      the chosen output directory. */
  method ListOutputVideos(fs: FileSystem, cwd: string, walk: seq<WalkEntry>) returns (r: seq<string>)
    ensures r == (if OutputDirOf(fs, cwd).Some? then VideoFiles(walk, cwd) else [])
  {
    var outputDir := "/" + OutputName;
    if !Exists(outputDir, fs, cwd) {
      outputDir := PosixPath.Join(cwd, OutputName);
      if !Exists(outputDir, fs, cwd) {
        return [];
      }
    }
    r := CollectNested(Groups(walk), IsVideoPair, PathIn(cwd));
  }

  /** Every listed path is the absolute path of a walked file with a video
      extension. */
  lemma ListedIsVideo(walk: seq<WalkEntry>, cwd: string, k: nat)
    requires k < |VideoFiles(walk, cwd)|
    ensures exists m :: 0 <= m < |Listing(walk)| && IsVideoPair(Listing(walk)[m])
                        && VideoFiles(walk, cwd)[k] == PathIn(cwd)(Listing(walk)[m])
  {
    FilterMapSound(Listing(walk), IsVideoPair, PathIn(cwd), k);
  }

  /** Every walked file with a video extension is listed. */
  lemma VideoIsListed(walk: seq<WalkEntry>, cwd: string, m: nat)
    requires m < |Listing(walk)| && IsVideoPair(Listing(walk)[m])
    ensures PathIn(cwd)(Listing(walk)[m]) in VideoFiles(walk, cwd)
  {
    FilterMapComplete(Listing(walk), IsVideoPair, PathIn(cwd), m);
  }

  /** The listing keeps walk order: the videos of a walk are those of its
      first entries followed by those of the rest. */
  lemma VideoListingInWalkOrder(a: seq<WalkEntry>, b: seq<WalkEntry>, cwd: string)
    ensures VideoFiles(a + b, cwd) == VideoFiles(a, cwd) + VideoFiles(b, cwd)
  {
    ListingAppend(a, b);
    FilterMapAppend(Listing(a), Listing(b), IsVideoPair, PathIn(cwd));
  }
}

=== FILE: strings.dfy ===
/** The handful of Python `str` operations the server relies on: ASCII
    lower-casing, prefix tests, `find`/`rfind`, `split`/`join` on a single
    separator character and `rstrip` of one character. */
module Strings {

  /** `str.lower` restricted to ASCII: `A`..`Z` become `a`..`z`, every other
      character is left alone. */
  function LowerChar(c: char): char {
    if 'A' <= c <= 'Z' then (c as int + 32) as char else c
  }

  function Lower(s: string): (r: string)
    ensures |r| == |s|
    ensures forall i :: 0 <= i < |s| ==> r[i] == LowerChar(s[i])
  {
    if s == [] then [] else [LowerChar(s[0])] + Lower(s[1..])
  }

  /** Lower-casing is idempotent: an already lower-cased string is its own
      lower-case form. */
  lemma LowerIdempotent(s: string)
    ensures Lower(Lower(s)) == Lower(s)
  {
    assert forall i :: 0 <= i < |s| ==> LowerChar(LowerChar(s[i])) == LowerChar(s[i]);
  }

  predicate StartsWith(s: string, prefix: string) {
    |prefix| <= |s| && s[..|prefix|] == prefix
  }

  predicate EndsWith(s: string, suffix: string) {
    |suffix| <= |s| && s[|s| - |suffix|..] == suffix
  }

  function Repeat(c: char, n: nat): (r: string)
    ensures |r| == n
    ensures forall i :: 0 <= i < n ==> r[i] == c
  {
    if n == 0 then [] else [c] + Repeat(c, n - 1)
  }

  /** `s.find(c)`, except that "not found" is `|s|` rather than -1. */
  function IndexOf(s: string, c: char): (k: nat)
    ensures k <= |s|
    ensures k < |s| ==> s[k] == c
    ensures forall j :: 0 <= j < k ==> s[j] != c
  {
    if s == [] then 0
    else if s[0] == c then 0
    else 1 + IndexOf(s[1..], c)
  }

  /** `s.rfind(c)`: the index of the last `c`, or -1. */
  function RFind(s: string, c: char): (k: int)
    ensures -1 <= k < |s|
    ensures 0 <= k ==> s[k] == c
    ensures forall j :: k < j < |s| ==> s[j] != c
  {
    if s == [] then -1
    else if s[|s| - 1] == c then |s| - 1
    else RFind(s[..|s| - 1], c)
  }

  /** `s.split(sep)` for a one-character separator: never empty, and no part
      contains the separator. */
  function Split(s: string, sep: char): (parts: seq<string>)
    ensures |parts| >= 1
    ensures forall i :: 0 <= i < |parts| ==> sep !in parts[i]
    decreases |s|
  {
    var k := IndexOf(s, sep);
    if k == |s| then [s]
    else [s[..k]] + Split(s[k + 1..], sep)
  }

  /** `sep.join(parts)`. */
  function Join(parts: seq<string>, sep: char): string {
    if |parts| == 0 then ""
    else if |parts| == 1 then parts[0]
    else parts[0] + [sep] + Join(parts[1..], sep)
  }

  /** The first separator of `p + [sep] + rest` is the one after `p`. */
  lemma IndexOfAfterPart(p: string, sep: char, rest: string)
    requires sep !in p
    ensures IndexOf(p + [sep] + rest, sep) == |p|
  {
    var s := p + [sep] + rest;
    var k := IndexOf(s, sep);
    assert s[|p|] == sep;
  }

  /** Splitting a joined list gives the list back, provided no part holds the
      separator. */
  lemma {:induction false} SplitJoin(parts: seq<string>, sep: char)
    requires |parts| >= 1
    requires forall i :: 0 <= i < |parts| ==> sep !in parts[i]
    ensures Split(Join(parts, sep), sep) == parts
  {
    if |parts| > 1 {
      var tail := parts[1..];
      assert forall i :: 0 <= i < |tail| ==> sep !in tail[i] by {
        forall i | 0 <= i < |tail| ensures sep !in tail[i] {
          assert tail[i] == parts[i + 1];
        }
      }
      var rest := Join(tail, sep);
      assert Join(parts, sep) == parts[0] + [sep] + rest;
      assert sep !in parts[0];
      SplitAfterPart(parts[0], sep, rest);
      SplitJoin(tail, sep);
      assert parts == [parts[0]] + tail;
    }
  }

  /** Splitting at the first separator: the part before it, then the split
      of what follows. */
  lemma SplitAfterPart(p: string, sep: char, rest: string)
    requires sep !in p
    ensures Split(p + [sep] + rest, sep) == [p] + Split(rest, sep)
  {
    var s := p + [sep] + rest;
    IndexOfAfterPart(p, sep, rest);
    assert s[..|p|] == p;
    assert s[|p| + 1..] == rest;
  }

  /** The fields of every part, part after part. */
  function SplitEach(parts: seq<string>, sep: char): (fields: seq<string>)
    ensures |fields| >= |parts|
  {
    if parts == [] then [] else Split(parts[0], sep) + SplitEach(parts[1..], sep)
  }

  /** A string free of the separator is one field. */
  lemma SplitWhole(p: string, sep: char)
    requires sep !in p
    ensures Split(p, sep) == [p]
  {
    assert IndexOf(p, sep) == |p|;
  }

  /** Splitting at a separator between two strings: the fields of the first,
      then the fields of the second. */
  lemma {:induction false} SplitAround(a: string, sep: char, b: string)
    ensures Split(a + [sep] + b, sep) == Split(a, sep) + Split(b, sep)
    decreases |a|
  {
    var k := IndexOf(a, sep);
    if k == |a| {
      SplitWhole(a, sep);
      SplitAfterPart(a, sep, b);
    } else {
      var head, after := a[..k], a[k + 1..];
      var tail := after + [sep] + b;
      assert a == head + [sep] + after;
      assert a + [sep] + b == head + [sep] + tail;
      SplitAround(after, sep, b);
      SplitAroundStep(head, after, b, sep, a, a + [sep] + b, tail);
    }
  }

  /** One step of `SplitAround`: a separator-free head in front. */
  lemma SplitAroundStep(head: string, after: string, b: string, sep: char, left: string, whole: string, tail: string)
    requires sep !in head
    requires left == head + [sep] + after && tail == after + [sep] + b && whole == head + [sep] + tail
    requires Split(tail, sep) == Split(after, sep) + Split(b, sep)
    ensures Split(whole, sep) == Split(left, sep) + Split(b, sep)
  {
    SplitAfterPart(head, sep, tail);
    SplitAfterPart(head, sep, after);
    ConsAssoc(head, Split(after, sep), Split(b, sep));
  }

  lemma ConsAssoc<T>(h: T, x: seq<T>, y: seq<T>)
    ensures [h] + (x + y) == ([h] + x) + y
  {
  }

  lemma Assoc<T>(a: seq<T>, b: seq<T>, c: seq<T>)
    ensures a + (b + c) == (a + b) + c
  {
  }

  /** Splitting a join whose parts may hold the separator themselves: the
      fields are those of each part, in order.  `SplitJoin` is the case of
      parts free of the separator. */
  lemma {:induction false} SplitOfJoin(parts: seq<string>, sep: char)
    requires |parts| >= 1
    ensures Split(Join(parts, sep), sep) == SplitEach(parts, sep)
  {
    if |parts| == 1 {
      assert parts[1..] == [];
    } else {
      var tail := parts[1..];
      JoinCons(parts[0], tail, sep);
      assert [parts[0]] + tail == parts;
      SplitAround(parts[0], sep, Join(tail, sep));
      SplitOfJoin(tail, sep);
    }
  }

  lemma {:induction false} SplitEachAppend(xs: seq<string>, ys: seq<string>, sep: char)
    ensures SplitEach(xs + ys, sep) == SplitEach(xs, sep) + SplitEach(ys, sep)
    decreases |xs|
  {
    if xs == [] {
      assert xs + ys == ys;
    } else {
      assert (xs + ys)[1..] == xs[1..] + ys;
      SplitEachAppend(xs[1..], ys, sep);
      Assoc(Split(xs[0], sep), SplitEach(xs[1..], sep), SplitEach(ys, sep));
    }
  }

  /** Joining the parts of a split gives the original string back. */
  lemma {:induction false} JoinSplit(s: string, sep: char)
    ensures Join(Split(s, sep), sep) == s
    decreases |s|
  {
    var k := IndexOf(s, sep);
    if k < |s| {
      var head, after := s[..k], s[k + 1..];
      var tail := Split(after, sep);
      assert Split(s, sep) == [head] + tail;
      JoinSplit(after, sep);
      JoinCons(head, tail, sep);
      assert s == head + [sep] + after;
    }
  }

  /** Joining a part in front of a non-empty list. */
  lemma JoinCons(p: string, tail: seq<string>, sep: char)
    requires |tail| >= 1
    ensures Join([p] + tail, sep) == p + [sep] + Join(tail, sep)
  {
    assert ([p] + tail)[1..] == tail;
  }

  /** Three parts joined: one separator between each pair. */
  lemma JoinThree(a: string, b: string, c: string, sep: char)
    ensures Join([a, b, c], sep) == a + [sep] + b + [sep] + c
  {
    JoinCons(a, [b, c], sep);
    JoinCons(b, [c], sep);
    assert [a] + [b, c] == [a, b, c] && [b] + [c] == [b, c];
  }

  /** The fields of three joined parts: those of each part, in order. */
  lemma SplitOfJoinThree(a: string, b: string, c: string, sep: char)
    ensures Split(Join([a, b, c], sep), sep) == Split(a, sep) + Split(b, sep) + Split(c, sep)
  {
    SplitOfJoin([a, b, c], sep);
    assert [a, b, c][1..] == [b, c] && [b, c][1..] == [c] && [c][1..] == [];
    assert SplitEach([c], sep) == Split(c, sep) + SplitEach([], sep);
  }

  /** Splitting a join that ends with `m`: the fields of the other parts,
      then those of `m`. */
  lemma SplitOfJoinSnoc(xs: seq<string>, m: string, sep: char)
    ensures Split(Join(xs + [m], sep), sep) == SplitEach(xs, sep) + Split(m, sep)
  {
    SplitOfJoin(xs + [m], sep);
    SplitEachAppend(xs, [m], sep);
    assert [m][1..] == [];
    assert SplitEach([m], sep) == Split(m, sep) + SplitEach([], sep);
  }

  /** Joining `xs + [m]`: the last part follows the join of the others after
      one separator. */
  lemma {:induction false} JoinSnoc(xs: seq<string>, m: string, sep: char)
    requires |xs| >= 1
    ensures Join(xs + [m], sep) == Join(xs, sep) + [sep] + m
    decreases |xs|
  {
    if |xs| == 1 {
      assert xs + [m] == [xs[0], m];
    } else {
      assert (xs + [m])[1..] == xs[1..] + [m];
      JoinSnoc(xs[1..], m, sep);
    }
  }

  /** Joining two non-empty lists: the joins of each, one separator
      between them. */
  lemma {:induction false} JoinAppend(xs: seq<string>, ys: seq<string>, sep: char)
    requires |xs| >= 1 && |ys| >= 1
    ensures Join(xs + ys, sep) == Join(xs, sep) + [sep] + Join(ys, sep)
    decreases |xs|
  {
    if |xs| == 1 {
      JoinCons(xs[0], ys, sep);
      assert [xs[0]] + ys == xs + ys;
    } else {
      JoinAppend(xs[1..], ys, sep);
      JoinCons(xs[0], xs[1..] + ys, sep);
      JoinCons(xs[0], xs[1..], sep);
      assert [xs[0]] + (xs[1..] + ys) == xs + ys;
      assert [xs[0]] + xs[1..] == xs;
    }
  }

  /** `s.rstrip(c)`: the longest prefix of `s` that does not end in `c`. */
  function RStrip(s: string, c: char): (r: string)
    ensures StartsWith(s, r)
    ensures r == [] || r[|r| - 1] != c
    ensures forall i :: |r| <= i < |s| ==> s[i] == c
  {
    if s != [] && s[|s| - 1] == c then RStrip(s[..|s| - 1], c) else s
  }
}

=== FILE: taskmanager.dfy ===
/** `task_manager.py`: the registry of background tasks.  Task ids come from
    `uuid4` and timestamps from `time.time()` in the source; here both are
    parameters, and a new id is required to be fresh.  The lock that guards
    the map is left out: each operation is one atomic step on the map. */
module TaskManager {
  import opened Values

  const Pending := "PENDING"
  const Running := "RUNNING"
  const Completed := "COMPLETED"
  const Failed := "FAILED"

  /** A status after which the task has finished (`end_time` gets stamped). */
  predicate IsTerminal(status: string) {
    status == Completed || status == Failed
  }

  /** The `TaskInfo` record.  `result == Null` is Python's `None`; `error`
      and `endTime` are optional. */
  datatype TaskInfo = TaskInfo(
    id: string,
    status: string,
    tool: string,
    params: map<string, Value>,
    result: Value,
    error: Option<string>,
    startTime: real,
    endTime: Option<real>)

  type Tasks = map<string, TaskInfo>

  function OptStr(o: Option<string>): Value {
    match o
    case None => Null
    case Some(s) => Str(s)
  }

  function OptFloat(o: Option<real>): Value {
    match o
    case None => Null
    case Some(x) => Float(x)
  }

  /** `TaskInfo.to_dict()` (`dataclasses.asdict`): one entry per field. */
  function ToDict(t: TaskInfo): (d: Value)
    ensures d.Dict?
    ensures d.entries.Keys == {"id", "status", "tool", "params", "result", "error", "start_time", "end_time"}
  {
    Dict(map[
      "id" := Str(t.id),
      "status" := Str(t.status),
      "tool" := Str(t.tool),
      "params" := Dict(t.params),
      "result" := t.result,
      "error" := OptStr(t.error),
      "start_time" := Float(t.startTime),
      "end_time" := OptFloat(t.endTime)])
  }

  /** Reads a field dictionary back into a record; `None` if it does not
      have the shape `ToDict` produces. */
  function FromDict(d: Value): Option<TaskInfo> {
    if !d.Dict? then None
    else
      var e := d.entries;
      if !("id" in e && "status" in e && "tool" in e && "params" in e
           && "result" in e && "error" in e && "start_time" in e && "end_time" in e) then None
      else if !(e["id"].Str? && e["status"].Str? && e["tool"].Str? && e["params"].Dict?
                && (e["error"].Null? || e["error"].Str?) && e["start_time"].Float?
                && (e["end_time"].Null? || e["end_time"].Float?)) then None
      else
        Some(TaskInfo(
          e["id"].s, e["status"].s, e["tool"].s, e["params"].entries, e["result"],
          if e["error"].Null? then None else Some(e["error"].s),
          e["start_time"].f,
          if e["end_time"].Null? then None else Some(e["end_time"].f)))
  }

  /** The field dictionary holds every field of the record: reading it back
      gives the record. */
  lemma FromDictToDict(t: TaskInfo)
    ensures FromDict(ToDict(t)) == Some(t)
  {
  }

  /** `create_task(tool_name, params)` with `id` as the fresh uuid and `now`
      as the clock: a new `PENDING` record with no result, error or end time
      is stored under `id`; every other record stays as it was. */
  function CreateTask(tasks: Tasks, id: string, tool: string, params: map<string, Value>, now: real): (r: Tasks)
    requires id !in tasks
    ensures r.Keys == tasks.Keys + {id}
    ensures r[id].id == id && r[id].status == Pending && r[id].tool == tool && r[id].params == params
    ensures r[id].result == Null && r[id].error == None && r[id].endTime == None && r[id].startTime == now
    ensures forall k :: k in tasks ==> r[k] == tasks[k]
  {
    tasks[id := TaskInfo(id, Pending, tool, params, Null, None, now, None)]
  }

  /** `update_task(task_id, status, result, error)` at time `now`. */
  function UpdateTask(tasks: Tasks, id: string, status: string, result: Value, error: Option<string>, now: real): (r: Tasks)
    ensures id !in tasks ==> r == tasks
    ensures r.Keys == tasks.Keys
    ensures forall k :: k in tasks && k != id ==> r[k] == tasks[k]
    ensures id in tasks ==>
      var before, after := tasks[id], r[id];
      && after.status == status
      && after.id == before.id && after.tool == before.tool && after.params == before.params && after.startTime == before.startTime
      && after.result == (if result != Null then result else before.result)
      && after.error == (if error.Some? then error else before.error)
      && after.endTime == (if IsTerminal(status) then Some(now) else before.endTime)
  {
    if id !in tasks then tasks
    else
      var t := tasks[id];
      var t1 := t.(status := status);
      var t2 := if result != Null then t1.(result := result) else t1;
      var t3 := if error.Some? then t2.(error := error) else t2;
      var t4 := if IsTerminal(status) then t3.(endTime := Some(now)) else t3;
      tasks[id := t4]
  }

  /** `get_task_status(task_id)`: the record's field dictionary, or `None`
      for an id that was never created. */
  function GetTaskStatus(tasks: Tasks, id: string): (r: Option<Value>)
    ensures r.Some? <==> id in tasks
    ensures r.Some? ==> FromDict(r.value) == Some(tasks[id])
    ensures r.Some? ==> r.value.Dict? && r.value.entries.Keys == {"id", "status", "tool", "params", "result", "error", "start_time", "end_time"}
  {
    if id in tasks then
      FromDictToDict(tasks[id]);
      Some(ToDict(tasks[id]))
    else None
  }

  // ---------------------------------------------------------------------
  // A task's life: created once, then updated any number of times.

  datatype Update = Update(id: string, status: string, result: Value, error: Option<string>, now: real)

  function ApplyUpdates(tasks: Tasks, updates: seq<Update>): Tasks {
    if updates == [] then tasks
    else
      var u := updates[0];
      ApplyUpdates(UpdateTask(tasks, u.id, u.status, u.result, u.error, u.now), updates[1..])
  }

  /** Updates never add or drop a task, and never change the identity,
      tool, parameters or start time of one. */
  lemma {:induction false} UpdatesKeepIdentity(tasks: Tasks, updates: seq<Update>, id: string)
    requires id in tasks
    ensures var r := ApplyUpdates(tasks, updates);
            && r.Keys == tasks.Keys
            && r[id].id == tasks[id].id && r[id].tool == tasks[id].tool
            && r[id].params == tasks[id].params && r[id].startTime == tasks[id].startTime
  {
    if updates != [] {
      var u := updates[0];
      UpdatesKeepIdentity(UpdateTask(tasks, u.id, u.status, u.result, u.error, u.now), updates[1..], id);
    }
  }

  /** After creation, a task's end time stays unset exactly as long as no
      update has given it a terminal status. */
  lemma {:induction false} EndTimeUnsetUntilTerminal(tasks: Tasks, updates: seq<Update>, id: string)
    requires id in tasks && tasks[id].endTime == None
    ensures id in ApplyUpdates(tasks, updates)
    ensures ApplyUpdates(tasks, updates)[id].endTime == None
        <==> forall i :: 0 <= i < |updates| && updates[i].id == id ==> !IsTerminal(updates[i].status)
  {
    UpdatesKeepIdentity(tasks, updates, id);
    if updates != [] {
      var u := updates[0];
      var next := UpdateTask(tasks, u.id, u.status, u.result, u.error, u.now);
      if u.id == id && IsTerminal(u.status) {
        EndTimeStaysSet(next, updates[1..], id);
      } else {
        EndTimeUnsetUntilTerminal(next, updates[1..], id);
        assert forall i :: 1 <= i < |updates| ==> updates[i] == updates[1..][i - 1];
      }
    }
  }

  /** Once stamped, an end time is never cleared. */
  lemma {:induction false} EndTimeStaysSet(tasks: Tasks, updates: seq<Update>, id: string)
    requires id in tasks && tasks[id].endTime.Some?
    ensures id in ApplyUpdates(tasks, updates) && ApplyUpdates(tasks, updates)[id].endTime.Some?
  {
    if updates != [] {
      var u := updates[0];
      EndTimeStaysSet(UpdateTask(tasks, u.id, u.status, u.result, u.error, u.now), updates[1..], id);
    }
  }

  /** The registry does not enforce "end time set only in a terminal state":
      a task moved back to `RUNNING` after `COMPLETED` keeps its end time. */
  lemma EndTimeOutlivesTerminalStatus(tasks: Tasks, id: string, t1: real, t2: real)
    requires id in tasks
    ensures var r := UpdateTask(UpdateTask(tasks, id, Completed, Null, None, t1), id, Running, Null, None, t2);
            r[id].status == Running && r[id].endTime == Some(t1)
  {
  }
}

/** The `TaskManager` class itself: one map of tasks, changed only through
    the three operations above. */
module Registry {
  import opened Values
  import TaskManager

  class TaskRegistry {
    var tasks: TaskManager.Tasks

    constructor()
      ensures tasks == map[]
    {
      tasks := map[];
    }

    method CreateTask(freshId: string, tool: string, params: map<string, Value>, now: real) returns (id: string)
      requires freshId !in tasks
      modifies this
      ensures id == freshId && id !in old(tasks)
      ensures tasks == TaskManager.CreateTask(old(tasks), freshId, tool, params, now)
    {
      tasks := TaskManager.CreateTask(tasks, freshId, tool, params, now);
      id := freshId;
    }

    method UpdateTask(id: string, status: string, result: Value, error: Option<string>, now: real)
      modifies this
      ensures tasks == TaskManager.UpdateTask(old(tasks), id, status, result, error, now)
    {
      tasks := TaskManager.UpdateTask(tasks, id, status, result, error, now);
    }

    method GetTaskStatus(id: string) returns (r: Option<Value>)
      ensures r == TaskManager.GetTaskStatus(tasks, id)
    {
      r := TaskManager.GetTaskStatus(tasks, id);
    }
  }
}

=== FILE: utils.dfy ===
/** The helpers of `utils.py`: time conversion, URL detection and the
    default output path of a media operation. */
module Utils {
  import opened Values
  import opened Strings
  import opened PosixPath
  import opened Seqs

  // ---------------------------------------------------------------------
  // convert_to_seconds

  /** Why `convert_to_seconds` raises: `ValueError` for a bad numeral, a
      bad clock or tuple length or an unsupported type, and `TypeError` when
      `hours * 3600 + minutes * 60 + seconds` cannot combine a tuple's
      elements. */
  datatype TimeError =
    | BadNumeral(part: string)
    | BadClockFormat(text: string)
    | BadTupleFormat(length: nat)
    | NonNumericTuple
    | BadType

  /** What `convert_to_seconds` returns: a number of seconds or, for a
      3-tuple of strings, of lists or of tuples, the sequence that Python's
      `*` and `+` build from them. */
  datatype Seconds = Number(x: real) | Repeated(v: Value)

  /** What Python's `isinstance(v, (int, float))` accepts, as a number; `bool`
      is a subclass of `int`. */
  function AsNumber(v: Value): Option<real> {
    match v
    case Int(i) => Some(i as real)
    case Float(f) => Some(f)
    case Bool(b) => Some(if b then 1.0 else 0.0)
    case _ => None
  }

  /** `[float(p) for p in parts]`, with the numeral reader as a parameter:
      the first part it rejects ends the conversion. */
  function ParseParts(parts: seq<string>, numeral: string -> Option<real>): (r: Result<seq<real>, TimeError>)
    ensures r.Ok? <==> forall i :: 0 <= i < |parts| ==> numeral(parts[i]).Some?
    ensures r.Ok? ==> |r.value| == |parts| && forall i :: 0 <= i < |parts| ==> numeral(parts[i]) == Some(r.value[i])
    ensures r.Err? ==> exists i :: 0 <= i < |parts| && r.error == BadNumeral(parts[i])
  {
    if parts == [] then Ok([])
    else
      match numeral(parts[0])
      case None => Err(BadNumeral(parts[0]))
      case Some(x) =>
        match ParseParts(parts[1..], numeral)
        case Err(e) => Err(e)
        case Ok(xs) => Ok([x] + xs)
  }

  function Zeros(n: nat): (r: seq<real>)
    ensures |r| == n
    ensures forall i :: 0 <= i < n ==> r[i] == 0.0
  {
    if n == 0 then [] else [0.0] + Zeros(n - 1)
  }

  /** `hours * 3600 + minutes * 60 + seconds`, the missing leading fields
      being zero. */
  function HMS(nums: seq<real>): (r: real)
    requires 1 <= |nums| <= 3
    ensures |nums| == 3 ==> r == nums[0] * 3600.0 + nums[1] * 60.0 + nums[2]
    ensures |nums| == 2 ==> r == nums[0] * 60.0 + nums[1]
    ensures |nums| == 1 ==> r == nums[0]
  {
    var fields := Zeros(3 - |nums|) + nums;
    fields[0] * 3600.0 + fields[1] * 60.0 + fields[2]
  }

  /** The numbers of a tuple, or `None` if one of its elements is not a
      number. */
  function TupleNumbers(elems: seq<Value>): (r: Option<seq<real>>)
    ensures r.Some? ==> |r.value| == |elems| && forall i :: 0 <= i < |elems| ==> AsNumber(elems[i]) == Some(r.value[i])
    ensures r.None? ==> exists i :: 0 <= i < |elems| && AsNumber(elems[i]).None?
  {
    if elems == [] then Some([])
    else
      match AsNumber(elems[0])
      case None => None
      case Some(x) =>
        match TupleNumbers(elems[1..])
        case None => None
        case Some(xs) => Some([x] + xs)
  }

  /** `hours * 3600 + minutes * 60 + seconds` for three values that are not
      all numbers: three strings, three lists or three tuples are repeated
      and concatenated; any other mixture is a `TypeError`. */
  function SequenceHMS(h: Value, m: Value, s: Value): (r: Option<Value>)
    ensures r.Some? <==> || (h.Str? && m.Str? && s.Str?)
                         || (h.List? && m.List? && s.List?)
                         || (h.Tuple? && m.Tuple? && s.Tuple?)
    ensures r.Some? ==> r.value.Str? == h.Str? && r.value.List? == h.List? && r.value.Tuple? == h.Tuple?
  {
    if h.Str? && m.Str? && s.Str? then Some(Str(RepeatSeq(h.s, 3600) + RepeatSeq(m.s, 60) + s.s))
    else if h.List? && m.List? && s.List? then Some(List(RepeatSeq(h.items, 3600) + RepeatSeq(m.items, 60) + s.items))
    else if h.Tuple? && m.Tuple? && s.Tuple? then Some(Tuple(RepeatSeq(h.elems, 3600) + RepeatSeq(m.elems, 60) + s.elems))
    else None
  }

  /** `convert_to_seconds(time_input)`.  Numbers come back unchanged; a
      string is split on `:` and every part read as a numeral before its
      length is checked; a tuple's length is checked before its elements are
      combined, and only a 3-tuple can combine elements that are not
      numbers (a shorter tuple adds them to the number 0); any other type is
      rejected. */
  function ConvertToSeconds(input: Value, numeral: string -> Option<real>): (r: Result<Seconds, TimeError>)
    ensures AsNumber(input).Some? ==> r == Ok(Number(AsNumber(input).value))
    ensures input.Str? ==> (r.Ok? <==> 1 <= |Split(input.s, ':')| <= 3 && ParseParts(Split(input.s, ':'), numeral).Ok?)
    ensures input.Tuple? ==>
              (r.Ok? <==> || (1 <= |input.elems| <= 3 && TupleNumbers(input.elems).Some?)
                          || (|input.elems| == 3 && SequenceHMS(input.elems[0], input.elems[1], input.elems[2]).Some?))
    ensures r.Ok? && r.value.Repeated? ==>
              input.Tuple? && |input.elems| == 3 && TupleNumbers(input.elems).None?
    ensures r.Err? ==> (r.error.BadType? <==> !input.Str? && !input.Tuple? && AsNumber(input).None?)
  {
    match input
    case Int(_) => Ok(Number(AsNumber(input).value))
    case Float(_) => Ok(Number(AsNumber(input).value))
    case Bool(_) => Ok(Number(AsNumber(input).value))
    case Str(s) =>
      var parts := Split(s, ':');
      (match ParseParts(parts, numeral)
       case Err(e) => Err(e)
       case Ok(nums) =>
         if 1 <= |nums| <= 3 then Ok(Number(HMS(nums))) else Err(BadClockFormat(s)))
    case Tuple(elems) =>
      if 1 <= |elems| <= 3 then
        (match TupleNumbers(elems)
         case Some(nums) => Ok(Number(HMS(nums)))
         case None =>
           if |elems| < 3 then Err(NonNumericTuple)
           else
             match SequenceHMS(elems[0], elems[1], elems[2])
             case None => Err(NonNumericTuple)
             case Some(v) => Ok(Repeated(v)))
      else Err(BadTupleFormat(|elems|))
    case _ => Err(BadType)
  }

  /** An `int` or `float` is returned as it is. */
  lemma ConvertNumberUnchanged(i: int, f: real, numeral: string -> Option<real>)
    ensures ConvertToSeconds(Int(i), numeral) == Ok(Number(i as real))
    ensures ConvertToSeconds(Float(f), numeral) == Ok(Number(f))
  {
  }

  /** A clock string of one to three numerals separated by `:` gives
      `h*3600 + m*60 + s`, `m*60 + s` or `s`. */
  lemma ConvertClock(parts: seq<string>, nums: seq<real>, numeral: string -> Option<real>)
    requires 1 <= |parts| <= 3 && |nums| == |parts|
    requires forall i :: 0 <= i < |parts| ==> ':' !in parts[i] && numeral(parts[i]) == Some(nums[i])
    ensures |parts| == 3 ==> ConvertToSeconds(Str(Strings.Join(parts, ':')), numeral) == Ok(Number(nums[0] * 3600.0 + nums[1] * 60.0 + nums[2]))
    ensures |parts| == 2 ==> ConvertToSeconds(Str(Strings.Join(parts, ':')), numeral) == Ok(Number(nums[0] * 60.0 + nums[1]))
    ensures |parts| == 1 ==> ConvertToSeconds(Str(Strings.Join(parts, ':')), numeral) == Ok(Number(nums[0]))
  {
    ClockIsHMS(parts, nums, numeral);
    var v := HMS(nums);
    if |parts| == 3 {
      assert v == nums[0] * 3600.0 + nums[1] * 60.0 + nums[2];
    } else if |parts| == 2 {
      assert v == nums[0] * 60.0 + nums[1];
    } else {
      assert v == nums[0];
    }
  }

  /** The clock string joined from `parts` converts to the combined value of
      the numbers its parts read as. */
  lemma ClockIsHMS(parts: seq<string>, nums: seq<real>, numeral: string -> Option<real>)
    requires 1 <= |parts| <= 3 && |nums| == |parts|
    requires forall i :: 0 <= i < |parts| ==> ':' !in parts[i] && numeral(parts[i]) == Some(nums[i])
    ensures ConvertToSeconds(Str(Strings.Join(parts, ':')), numeral) == Ok(Number(HMS(nums)))
  {
    var s := Strings.Join(parts, ':');
    SplitJoin(parts, ':');
    var r := ParseParts(parts, numeral);
    assert r.Ok?;
    assert r.value == nums by {
      assert forall i :: 0 <= i < |nums| ==> Some(r.value[i]) == numeral(parts[i]) == Some(nums[i]);
    }
    assert ConvertToSeconds(Str(s), numeral) == Ok(Number(HMS(r.value)));
  }

  /** A clock string with more than three numeric parts is rejected. */
  lemma ConvertTooManyParts(s: string, numeral: string -> Option<real>)
    requires |Split(s, ':')| > 3
    requires forall i :: 0 <= i < |Split(s, ':')| ==> numeral(Split(s, ':')[i]).Some?
    ensures ConvertToSeconds(Str(s), numeral) == Err(BadClockFormat(s))
  {
  }

  /** A tuple of one to three numbers is combined exactly like the clock
      string whose parts read as those numbers. */
  lemma ConvertTupleLikeClock(elems: seq<Value>, parts: seq<string>, numeral: string -> Option<real>)
    requires 1 <= |elems| <= 3 && |parts| == |elems|
    requires forall i :: 0 <= i < |parts| ==> ':' !in parts[i] && AsNumber(elems[i]).Some? && numeral(parts[i]) == AsNumber(elems[i])
    ensures ConvertToSeconds(Tuple(elems), numeral) == ConvertToSeconds(Str(Strings.Join(parts, ':')), numeral)
    ensures ConvertToSeconds(Tuple(elems), numeral).Ok?
  {
    SplitJoin(parts, ':');
    var t := TupleNumbers(elems);
    var p := ParseParts(parts, numeral);
    assert t.Some? && p.Ok?;
    assert t.value == p.value;
  }

  /** Three strings are not an error: `h * 3600 + m * 60 + s` repeats the
      first 3600 times and the second 60 times, then appends the third, so
      the result is text and not a number of seconds.  One or two strings
      are added to the number 0 and fail. */
  lemma ConvertStringTriple(h: string, m: string, s: string, numeral: string -> Option<real>)
    ensures var r := ConvertToSeconds(Tuple([Str(h), Str(m), Str(s)]), numeral);
            && r.Ok? && r.value.Repeated? && r.value.v.Str?
            && |r.value.v.s| == 3600 * |h| + 60 * |m| + |s|
            && (h != [] ==> forall i :: 0 <= i < 3600 * |h| ==> r.value.v.s[i] == h[i % |h|])
            && r.value.v.s[3600 * |h| + 60 * |m|..] == s
    ensures ConvertToSeconds(Tuple([Str(m), Str(s)]), numeral) == Err(NonNumericTuple)
    ensures ConvertToSeconds(Tuple([Str(s)]), numeral) == Err(NonNumericTuple)
  {
    var elems := [Str(h), Str(m), Str(s)];
    assert AsNumber(elems[0]).None?;
    assert AsNumber([Str(m), Str(s)][0]).None?;
    assert AsNumber([Str(s)][0]).None?;
    var t := RepeatSeq(h, 3600) + RepeatSeq(m, 60) + s;
    assert ConvertToSeconds(Tuple(elems), numeral) == Ok(Repeated(Str(t)));
    assert |RepeatSeq(h, 3600)| == |h| * 3600;
    forall i | 0 <= i < 3600 * |h|
      ensures t[i] == RepeatSeq(h, 3600)[i]
    {
    }
  }

  /** Strings mixed with numbers, or sequences of different kinds, cannot
      be combined. */
  lemma ConvertMixedTriple(x: real, m: string, s: seq<Value>, numeral: string -> Option<real>)
    ensures ConvertToSeconds(Tuple([Float(x), Str(m), Str(m)]), numeral) == Err(NonNumericTuple)
    ensures ConvertToSeconds(Tuple([Str(m), Str(m), List(s)]), numeral) == Err(NonNumericTuple)
  {
    assert AsNumber([Float(x), Str(m), Str(m)][1]).None?;
    assert AsNumber([Str(m), Str(m), List(s)][0]).None?;
  }

  /** Tuples of any other length, and values of any other type, are
      rejected. */
  lemma ConvertRejects(elems: seq<Value>, v: Value, numeral: string -> Option<real>)
    requires |elems| == 0 || |elems| > 3
    requires v.Null? || v.List? || v.Dict?
    ensures ConvertToSeconds(Tuple(elems), numeral) == Err(BadTupleFormat(|elems|))
    ensures ConvertToSeconds(v, numeral) == Err(BadType)
  {
  }

  // ---------------------------------------------------------------------
  // is_url

  /** `is_url(path)`: a string whose lower-cased form starts with `http://`
      or `https://`; anything that is not a string is not a URL. */
  function IsUrl(v: Value): (b: bool)
    ensures b ==> v.Str? && 7 <= |v.s|
  {
    match v
    case Str(s) => StartsWith(Lower(s), "http://") || StartsWith(Lower(s), "https://")
    case _ => false
  }

  /** `s` begins with `prefix`, letters compared without regard to case
      (`prefix` is itself lower case). */
  predicate PrefixIgnoringCase(s: string, prefix: string) {
    |prefix| <= |s| && forall i :: 0 <= i < |prefix| ==> LowerChar(s[i]) == prefix[i]
  }

  lemma LowerStartsWith(s: string, prefix: string)
    ensures StartsWith(Lower(s), prefix) <==> PrefixIgnoringCase(s, prefix)
  {
    if PrefixIgnoringCase(s, prefix) {
      assert Lower(s)[..|prefix|] == prefix;
    }
    if StartsWith(Lower(s), prefix) {
      forall i | 0 <= i < |prefix|
        ensures LowerChar(s[i]) == prefix[i]
      {
        assert Lower(s)[..|prefix|][i] == prefix[i];
      }
    }
  }

  /** A value is a URL exactly when it is a string whose scheme part is
      `http` or `https` in any mix of letter case (the scheme is
      case-insensitive, as section 3.1 of RFC 3986 has it). */
  lemma IsUrlIff(v: Value)
    ensures IsUrl(v) <==> v.Str? && (PrefixIgnoringCase(v.s, "http://") || PrefixIgnoringCase(v.s, "https://"))
  {
    if v.Str? {
      LowerStartsWith(v.s, "http://");
      LowerStartsWith(v.s, "https://");
    }
  }

  /** Changing the letter case of a string does not change whether it is a
      URL. */
  lemma IsUrlCaseInsensitive(s: string)
    ensures IsUrl(Str(Lower(s))) == IsUrl(Str(s))
  {
    LowerIdempotent(s);
  }

  // ---------------------------------------------------------------------
  // The path of a URL, as `urllib.parse.urlparse` splits it.

  /** The index of the first character of `s` that is in `stops`, or `|s|`. */
  function IndexOfAny(s: string, stops: set<char>): (k: nat)
    ensures k <= |s|
    ensures k < |s| ==> s[k] in stops
    ensures forall j :: 0 <= j < k ==> s[j] !in stops
  {
    if s == [] then 0
    else if s[0] in stops then 0
    else 1 + IndexOfAny(s[1..], stops)
  }

  /** The characters `urlsplit` deletes, wherever they occur, before it
      splits a URL: tab, carriage return and line feed. */
  const UnsafeUrlChars: set<char> := {'\t', '\r', '\n'}

  /** The characters that end the network location. */
  const NetlocEnds: set<char> := {'/', '?', '#'}

  /** The characters that end the path: the start of a query or fragment. */
  const PathEnds: set<char> := {'?', '#'}

  /** `s` holds no character of `cs`. */
  predicate NoneIn(s: string, cs: set<char>) {
    forall i :: 0 <= i < |s| ==> s[i] !in cs
  }

  lemma NoneInPrefix(s: string, k: nat, cs: set<char>)
    requires k <= |s| && NoneIn(s, cs)
    ensures NoneIn(s[..k], cs)
  {
    assert forall i :: 0 <= i < k ==> s[..k][i] == s[i];
  }

  lemma NoneInSuffix(s: string, k: nat, cs: set<char>)
    requires k <= |s| && NoneIn(s, cs)
    ensures NoneIn(s[k..], cs)
  {
    assert forall i :: 0 <= i < |s| - k ==> s[k..][i] == s[k + i];
  }

  /** `s` with every tab, carriage return and line feed deleted. */
  function RemoveUnsafe(s: string): (r: string)
    ensures forall i :: 0 <= i < |r| ==> r[i] !in UnsafeUrlChars && r[i] in s
    ensures (forall i :: 0 <= i < |s| ==> s[i] !in UnsafeUrlChars) ==> r == s
  {
    if s == [] then []
    else
      var rest := RemoveUnsafe(s[1..]);
      if s[0] in UnsafeUrlChars then rest else [s[0]] + rest
  }

  /** The `path` field of `urlparse(u)` for an `http`/`https` URL: tabs,
      carriage returns and line feeds are deleted (the scheme and `//` in
      front, being letters, `:` and `/`, hold none); after the scheme and
      `//` comes the network location, ended by `/`, `?` or `#`; the path
      runs to the first `?` or `#`; `;params` after the path's last `/` are
      split off.  The path therefore holds none of the deleted characters
      and no `?` or `#`. */
  function UrlPath(u: string): (p: string)
    requires IsUrl(Str(u))
    ensures forall i :: 0 <= i < |p| ==> p[i] !in UnsafeUrlChars && p[i] != '?' && p[i] != '#'
  {
    PathAfterScheme(u[SchemeLen(u)..])
  }

  /** The length of `http://` or `https://`, whichever `u` starts with. */
  function SchemeLen(u: string): (n: nat)
    requires IsUrl(Str(u))
    ensures n == 7 || n == 8
    ensures n <= |u|
  {
    if StartsWith(Lower(u), "http://") then 7 else 8
  }

  /** The path of what follows `scheme://`. */
  function PathAfterScheme(after: string): (p: string)
    ensures forall i :: 0 <= i < |p| ==> p[i] !in UnsafeUrlChars && p[i] != '?' && p[i] != '#'
  {
    var clean := RemoveUnsafe(after);
    var netlocEnd := IndexOfAny(clean, NetlocEnds);
    var rest := clean[netlocEnd..];
    NoneInSuffix(clean, netlocEnd, UnsafeUrlChars);
    var pathEnd := IndexOfAny(rest, PathEnds);
    var path := rest[..pathEnd];
    NoneInPrefix(rest, pathEnd, UnsafeUrlChars);
    var stripped := StripParams(path);
    NoneInPrefix(path, |stripped|, UnsafeUrlChars);
    NoneInPrefix(path, |stripped|, PathEnds);
    stripped
  }

  lemma {:induction false} RemoveUnsafeAppend(a: string, b: string)
    ensures RemoveUnsafe(a + b) == RemoveUnsafe(a) + RemoveUnsafe(b)
    decreases |a|
  {
    if a == [] {
      assert a + b == b;
    } else {
      assert (a + b)[0] == a[0];
      assert (a + b)[1..] == a[1..] + b;
      RemoveUnsafeAppend(a[1..], b);
    }
  }

  /** The scheme and `//` of a URL hold none of the deleted characters,
      and deleting them elsewhere keeps the scheme. */
  lemma SchemeKept(u: string)
    requires IsUrl(Str(u))
    ensures var n := SchemeLen(u);
            && RemoveUnsafe(u) == u[..n] + RemoveUnsafe(u[n..])
            && IsUrl(Str(RemoveUnsafe(u))) && SchemeLen(RemoveUnsafe(u)) == n
  {
    var n := SchemeLen(u);
    SchemeIsClean(u);
    assert u == u[..n] + u[n..];
    RemoveUnsafeAppend(u[..n], u[n..]);
    var v := RemoveUnsafe(u);
    assert v[..n] == u[..n];
    SameScheme(u, v);
  }

  lemma SchemeIsClean(u: string)
    requires IsUrl(Str(u))
    ensures RemoveUnsafe(u[..SchemeLen(u)]) == u[..SchemeLen(u)]
  {
    if SchemeLen(u) == 7 {
      SchemeClean("http://");
      CleanUnderLowerPrefix(u, "http://");
    } else {
      SchemeClean("https://");
      CleanUnderLowerPrefix(u, "https://");
    }
  }

  lemma SchemeClean(scheme: string)
    requires scheme == "http://" || scheme == "https://"
    ensures forall j :: 0 <= j < |scheme| ==> scheme[j] !in UnsafeUrlChars
  {
    forall j | 0 <= j < |scheme|
      ensures scheme[j] !in UnsafeUrlChars
    {
      assert scheme[j] in "https:/";
    }
  }

  /** A string whose lower-cased form starts with `pre` holds no deleted
      character where `pre` holds none. */
  lemma CleanUnderLowerPrefix(u: string, pre: string)
    requires StartsWith(Lower(u), pre)
    requires forall j :: 0 <= j < |pre| ==> pre[j] !in UnsafeUrlChars
    ensures RemoveUnsafe(u[..|pre|]) == u[..|pre|]
  {
    var n := |pre|;
    forall i | 0 <= i < n
      ensures u[..n][i] !in UnsafeUrlChars
    {
      assert Lower(u)[i] == LowerChar(u[i]) == pre[i];
    }
  }

  /** Two strings that agree on the scheme of the first are URLs of the
      same scheme. */
  lemma SameScheme(u: string, v: string)
    requires IsUrl(Str(u)) && SchemeLen(u) <= |v| && v[..SchemeLen(u)] == u[..SchemeLen(u)]
    ensures IsUrl(Str(v)) && SchemeLen(v) == SchemeLen(u)
  {
    var n := SchemeLen(u);
    LowerPrefix(u, n);
    LowerPrefix(v, n);
    LowerPrefix(u, 7);
    LowerPrefix(v, 7);
    assert v[..7] == v[..n][..7];
    assert u[..7] == u[..n][..7];
  }

  lemma LowerPrefix(s: string, k: nat)
    requires k <= |s|
    ensures Lower(s)[..k] == Lower(s[..k])
  {
  }

  /** Deleting tabs, carriage returns and line feeds before parsing changes
      nothing: the URL is still a URL and has the same path. */
  lemma UrlPathIgnoresUnsafe(u: string)
    requires IsUrl(Str(u))
    ensures IsUrl(Str(RemoveUnsafe(u)))
    ensures UrlPath(RemoveUnsafe(u)) == UrlPath(u)
  {
    SchemeKept(u);
    var n := SchemeLen(u);
    var v := RemoveUnsafe(u);
    assert v[n..] == RemoveUnsafe(u[n..]);
    var clean := RemoveUnsafe(u[n..]);
    assert RemoveUnsafe(clean) == clean;
  }

  /** `urllib.parse._splitparams`: a `;` at or after the last `/` (anywhere,
      if there is no `/`) starts the parameters, so what remains is a prefix
      of the path. */
  function StripParams(path: string): (r: string)
    ensures |r| <= |path| && r == path[..|r|]
  {
    var from := if '/' in path then RFind(path, '/') else 0;
    var k := from + IndexOf(path[from..], ';');
    path[..k]
  }

  /** With no `;` in it, a path has no parameters to cut off. */
  lemma StripParamsWithoutParams(path: string)
    requires ';' !in path
    ensures StripParams(path) == path
  {
    var from := if '/' in path then RFind(path, '/') else 0;
    assert forall j :: 0 <= j < |path[from..]| ==> path[from..][j] != ';';
  }

  /** A `;` after the last `/` starts the parameters: the path is cut just
      before it. */
  lemma StripParamsCutsLastSegment(d: string, seg: string, x: string)
    requires d != [] && d[|d| - 1] == '/'
    requires '/' !in seg && ';' !in seg && '/' !in x
    ensures StripParams(d + seg + ";" + x) == d + seg
  {
    var path := d + seg + ";" + x;
    var last := |d| - 1;
    assert path[last] == '/';
    assert forall j :: last < j < |path| ==> path[j] != '/' by {
      forall j | last < j < |path|
        ensures path[j] != '/'
      {
        if j < |d| + |seg| {
          assert path[j] == seg[j - |d|];
        } else if j > |d| + |seg| {
          assert path[j] == x[j - |d| - |seg| - 1];
        }
      }
    }
    var from := RFind(path, '/');
    assert from == last;
    var tail := path[from..];
    assert tail == "/" + seg + ";" + x;
    var k := IndexOf(tail, ';');
    assert tail[|seg| + 1] == ';';
    assert forall j :: 0 <= j < |seg| ==> tail[j + 1] == seg[j];
    assert k == |seg| + 1;
    assert path[..from + k] == d + seg;
  }

  /** The first character of `x + y` in `stops` is right after `x`, when
      `x` holds none and `y` is empty or starts with one. */
  lemma IndexOfAnyAt(x: string, y: string, stops: set<char>)
    requires NoneIn(x, stops)
    requires y == [] || y[0] in stops
    ensures IndexOfAny(x + y, stops) == |x|
  {
    assert forall j :: 0 <= j < |x| ==> (x + y)[j] == x[j];
    if y != [] {
      assert (x + y)[|x|] == y[0];
    }
  }

  /** Deleting tabs, carriage returns and line feeds from a network
      location, a path and a query holding them only in the query leaves
      the first two as they are. */
  lemma CleanParts(host: string, path: string, tail: string)
    requires NoneIn(host, UnsafeUrlChars) && NoneIn(path, UnsafeUrlChars)
    ensures RemoveUnsafe(host + path + tail) == host + (path + RemoveUnsafe(tail))
  {
    var hp := host + path;
    KeptClean(host);
    KeptClean(path);
    RemoveUnsafeAppend(host, path);
    RemoveUnsafeAppend(hp, tail);
    Assoc(host, path, RemoveUnsafe(tail));
  }

  /** A query or fragment keeps its leading `?` or `#`. */
  lemma CleanTailHead(tail: string)
    requires tail == [] || tail[0] in PathEnds
    ensures RemoveUnsafe(tail) == [] || RemoveUnsafe(tail)[0] == tail[0]
  {
    if tail != [] {
      assert tail[0] !in UnsafeUrlChars;
    }
  }

  /** A string without tabs, carriage returns or line feeds is kept. */
  lemma KeptClean(s: string)
    requires NoneIn(s, UnsafeUrlChars)
    ensures RemoveUnsafe(s) == s
  {
  }

  /** What follows `scheme://` splits into a network location, a path and
      a query or fragment; the path is what `urlparse` reports. */
  lemma PathAfterSchemeOfParts(host: string, path: string, tail: string)
    requires NoneIn(host, UnsafeUrlChars) && NoneIn(host, NetlocEnds)
    requires path == [] || path[0] == '/'
    requires NoneIn(path, UnsafeUrlChars) && NoneIn(path, PathEnds) && ';' !in path
    requires tail == [] || tail[0] in PathEnds
    ensures PathAfterScheme(host + path + tail) == path
  {
    CleanParts(host, path, tail);
    CleanTailHead(tail);
    var t := RemoveUnsafe(tail);
    var clean := host + (path + t);
    assert path + t == [] || (path + t)[0] in NetlocEnds;
    IndexOfAnyAt(host, path + t, NetlocEnds);
    assert clean[|host|..] == path + t;
    IndexOfAnyAt(path, t, PathEnds);
    assert (path + t)[..|path|] == path;
    StripParamsWithoutParams(path);
  }

  /** A string that starts with `scheme`, whose letters in any case spell
      `lit`, is a URL whose scheme part is `scheme`. */
  lemma SchemeLenOf(u: string, scheme: string, lit: string)
    requires StartsWith(u, scheme)
    requires lit == "http://" || lit == "https://"
    requires |scheme| == |lit| && forall i :: 0 <= i < |lit| ==> LowerChar(scheme[i]) == lit[i]
    ensures IsUrl(Str(u)) && SchemeLen(u) == |scheme|
  {
    forall i | 0 <= i < |lit|
      ensures LowerChar(u[i]) == lit[i]
    {
      assert u[i] == scheme[i];
    }
    assert PrefixIgnoringCase(u, lit);
    LowerStartsWith(u, "http://");
    LowerStartsWith(u, "https://");
    if lit == "https://" {
      assert LowerChar(u[4]) != "http://"[4];
    }
  }

  /** `urlparse` on `scheme://host/path?query#fragment`, scheme letters in
      any case: the path is exactly the part between the network location
      and the query or fragment. */
  lemma UrlPathOfParts(scheme: string, host: string, path: string, tail: string)
    requires Lower(scheme) == "http://" || Lower(scheme) == "https://"
    requires NoneIn(host, UnsafeUrlChars) && NoneIn(host, NetlocEnds)
    requires path == [] || path[0] == '/'
    requires NoneIn(path, UnsafeUrlChars) && NoneIn(path, PathEnds) && ';' !in path
    requires tail == [] || tail[0] in PathEnds
    ensures IsUrl(Str(scheme + host + path + tail))
    ensures UrlPath(scheme + host + path + tail) == path
  {
    var after := host + path + tail;
    var u := scheme + after;
    Assoc(scheme, host + path, tail);
    Assoc(scheme, host, path);
    assert u[..|scheme|] == scheme;
    SchemeLenOf(u, scheme, Lower(scheme));
    assert u[|scheme|..] == after;
    PathAfterSchemeOfParts(host, path, tail);
  }

  // ---------------------------------------------------------------------
  // get_default_output_path

  /** The file name the output is named after: the last component of a
      local path, or of a URL's path with `downloaded_video.mp4` when that
      is empty. */
  function InputFileName(input: string): string {
    if IsUrl(Str(input)) then
      var name := Basename(UrlPath(input));
      if name == "" then "downloaded_video.mp4" else name
    else
      Basename(input)
  }

  /** The output directory: `/output` when it exists, the current
      directory otherwise. */
  function OutputDir(outputExists: bool, cwd: string): string {
    if outputExists then "/output" else cwd
  }

  /** The extension the output gets: the input's, or `.mp4` if it has none. */
  function OutputExt(name: string): string {
    if Ext(name) == "" then ".mp4" else Ext(name)
  }

  /** The output's file name: the input's stem, then the suffix, then the
      extension. */
  function OutputFileName(name: string, suffix: string): string {
    Stem(name) + suffix + OutputExt(name)
  }

  /** `get_default_output_path(input_path, suffix)`. */
  function GetDefaultOutputPath(input: string, suffix: string, outputExists: bool, cwd: string): (r: string)
    ensures EndsWith(r, OutputFileName(InputFileName(input), suffix))
    ensures '/' !in suffix && OutputDir(outputExists, cwd) != "" ==> StartsWith(r, OutputDir(outputExists, cwd))
  {
    InputFileNameHasNoSlash(input);
    OutputNameIsRelative(InputFileName(input), suffix);
    PosixPath.Join(OutputDir(outputExists, cwd), OutputFileName(InputFileName(input), suffix))
  }

  /** A slash-free suffix gives an output file name that is not an
      absolute path, so joining it keeps the directory in front. */
  lemma OutputNameIsRelative(name: string, suffix: string)
    requires '/' !in name
    ensures '/' !in suffix ==> !IsAbs(OutputFileName(name, suffix))
  {
    if '/' !in suffix {
      var n := OutputFileName(name, suffix);
      var stem := Stem(name);
      StemHasNoSlash(name);
      OutputExtShape(name);
      if stem != "" {
        assert n[0] == stem[0];
      } else if suffix != "" {
        assert n[0] == suffix[0];
      } else {
        assert n[0] == OutputExt(name)[0];
      }
    }
  }

  lemma OutputExtShape(name: string)
    ensures var e := OutputExt(name); |e| >= 1 && e[0] == '.' && '.' !in e[1..] && '/' !in e
  {
    assert ".mp4"[1..] == "mp4";
  }

  /** The output file name has no `/`, and splits into the input's stem with
      the suffix, and the output extension. */
  lemma OutputFileNameShape(name: string, suffix: string)
    requires '/' !in name
    requires suffix != "" && '/' !in suffix && '.' !in suffix
    ensures '/' !in OutputFileName(name, suffix)
    ensures SplitExt(OutputFileName(name, suffix)) == (Stem(name) + suffix, OutputExt(name))
  {
    StemHasNoSlash(name);
    OutputExtShape(name);
    NameShape(Stem(name), suffix, OutputExt(name));
  }

  lemma StemHasNoSlash(name: string)
    requires '/' !in name
    ensures '/' !in Stem(name)
  {
    var base := Stem(name);
    assert forall i :: 0 <= i < |base| ==> base[i] == (base + Ext(name))[i];
  }

  /** A slash-free stem, a non-empty suffix without dots and an extension
      make a file name that splits back into stem-with-suffix and
      extension. */
  lemma NameShape(base: string, suffix: string, ext: string)
    requires '/' !in base
    requires suffix != "" && '/' !in suffix && '.' !in suffix
    requires |ext| >= 1 && ext[0] == '.' && '.' !in ext[1..] && '/' !in ext
    ensures '/' !in base + suffix + ext
    ensures SplitExt(base + suffix + ext) == (base + suffix, ext)
  {
    var stem := base + suffix;
    assert '/' !in stem;
    assert exists k :: 0 <= k < |stem| && stem[k] != '.' by {
      assert stem[|base|] == suffix[0];
    }
    SplitExtOfParts("", stem, ext);
    assert "" + stem + ext == base + suffix + ext;
  }

  /** Joining a relative file name to a directory puts it after a `/`. */
  lemma JoinRelative(dir: string, file: string)
    requires dir != "" && file != "" && '/' !in file
    ensures var d := if EndsWith(dir, "/") then dir else dir + "/";
            PosixPath.Join(dir, file) == d + file && StartsWith(d, dir) && EndsWith(d, "/")
  {
  }

  lemma BasenameAfterSlash(dir: string, file: string)
    requires EndsWith(dir, "/") && '/' !in file
    ensures Basename(dir + file) == file
  {
    var p := dir + file;
    assert p[|dir| - 1] == '/';
    forall j | |dir| <= j < |p|
      ensures p[j] != '/'
    {
      assert p[j] == file[j - |dir|];
    }
    assert RFind(p, '/') == |dir| - 1;
    assert p[|dir|..] == file;
  }

  /** The input's file name never holds a `/`. */
  lemma InputFileNameHasNoSlash(input: string)
    ensures '/' !in InputFileName(input)
  {
    assert '/' !in "downloaded_video.mp4";
  }

  /** Joining the output file name of `name` to `dir`. */
  lemma OutputPathShape(dir: string, name: string, suffix: string)
    requires dir != "" && '/' !in name
    requires suffix != "" && '/' !in suffix && '.' !in suffix
    ensures var r := PosixPath.Join(dir, OutputFileName(name, suffix));
            && StartsWith(r, dir)
            && Basename(r) == Stem(name) + suffix + OutputExt(name)
            && Ext(r) == OutputExt(name)
  {
    StemHasNoSlash(name);
    OutputExtShape(name);
    JoinedNameShape(dir, Stem(name), suffix, OutputExt(name));
  }

  /** A file name built from a stem, a suffix and an extension, joined to a
      directory: the result starts with the directory, is named by the file
      name and has the extension. */
  lemma JoinedNameShape(dir: string, base: string, suffix: string, ext: string)
    requires dir != "" && '/' !in base
    requires suffix != "" && '/' !in suffix && '.' !in suffix
    requires |ext| >= 1 && ext[0] == '.' && '.' !in ext[1..] && '/' !in ext
    ensures var r := PosixPath.Join(dir, base + suffix + ext);
            && StartsWith(r, dir)
            && Basename(r) == base + suffix + ext
            && Ext(r) == ext
  {
    var stem := base + suffix;
    NoSlashConcat(base, suffix);
    NoSlashConcat(stem, ext);
    JoinRelative(dir, stem + ext);
    var d := if EndsWith(dir, "/") then dir else dir + "/";
    FileAfterSlash(d, stem, ext, |base|);
  }

  lemma NoSlashConcat(a: string, b: string)
    requires '/' !in a && '/' !in b
    ensures '/' !in a + b
  {
  }

  /** A slash-free file name after a directory ending in `/`: the file name
      is the base name, and its extension is the path's extension. */
  lemma FileAfterSlash(d: string, stem: string, ext: string, k: nat)
    requires EndsWith(d, "/") && '/' !in stem && '/' !in ext && '/' !in stem + ext
    requires k < |stem| && stem[k] != '.'
    requires |ext| >= 1 && ext[0] == '.' && '.' !in ext[1..]
    ensures Basename(d + (stem + ext)) == stem + ext
    ensures Ext(d + (stem + ext)) == ext
  {
    SplitExtOfParts(d, stem, ext);
    assert d + (stem + ext) == d + stem + ext;
    BasenameAfterSlash(d, stem + ext);
  }

  /** A local input's file name is its last component. */
  lemma LocalInputFileName(dir: string, file: string)
    requires dir == [] || dir[|dir| - 1] == '/'
    requires !IsUrl(Str(dir + file)) && '/' !in file
    ensures InputFileName(dir + file) == file
  {
    BasenameOfParts(dir, file);
  }

  /** The output name of `stem + ext`: the suffix goes between the two, and
      a name without a dot gets `.mp4`. */
  lemma OutputFileNameOfParts(stem: string, ext: string, suffix: string)
    requires '/' !in stem && exists k :: 0 <= k < |stem| && stem[k] != '.'
    requires (ext == [] && '.' !in stem) || (|ext| >= 1 && ext[0] == '.' && '.' !in ext[1..] && '/' !in ext)
    ensures OutputFileName(stem + ext, suffix) == stem + suffix + (if ext == [] then ".mp4" else ext)
  {
    if ext == [] {
      assert stem + ext == stem;
      SplitExtWithoutDot(stem);
    } else {
      SplitExtOfParts([], stem, ext);
      assert [] + stem + ext == stem + ext;
    }
  }

  /** A local input `dir + stem + ext` (the directory empty or ending in
      `/`) gives `<output dir>/<stem><suffix><ext>`, with `.mp4` for a name
      without a dot: `clip.mp4` becomes `/output/clip<suffix>.mp4` when
      `/output` exists. */
  lemma DefaultOutputOfLocalFile(dir: string, stem: string, ext: string, suffix: string, outputExists: bool, cwd: string)
    requires dir == [] || dir[|dir| - 1] == '/'
    requires !IsUrl(Str(dir + stem + ext))
    requires '/' !in stem && exists k :: 0 <= k < |stem| && stem[k] != '.'
    requires (ext == [] && '.' !in stem) || (|ext| >= 1 && ext[0] == '.' && '.' !in ext[1..] && '/' !in ext)
    ensures var name := stem + suffix + (if ext == [] then ".mp4" else ext);
            && GetDefaultOutputPath(dir + stem + ext, suffix, outputExists, cwd) == PosixPath.Join(OutputDir(outputExists, cwd), name)
            && (outputExists ==> GetDefaultOutputPath(dir + stem + ext, suffix, outputExists, cwd) == "/output/" + name)
  {
    var file := stem + ext;
    var rest := suffix + (if ext == [] then ".mp4" else ext);
    var name := stem + suffix + (if ext == [] then ".mp4" else ext);
    Assoc(dir, stem, ext);
    Assoc(stem, suffix, if ext == [] then ".mp4" else ext);
    LocalInputFileName(dir, file);
    OutputFileNameOfParts(stem, ext, suffix);
    var k :| 0 <= k < |stem| && stem[k] != '.';
    assert (stem + rest)[0] == stem[0];
    DefaultOutputOfName(dir + file, file, name, suffix, outputExists, cwd);
  }

  /** The default output path of an input whose file name and output file
      name are known. */
  lemma DefaultOutputOfName(input: string, file: string, name: string, suffix: string, outputExists: bool, cwd: string)
    requires InputFileName(input) == file && OutputFileName(file, suffix) == name
    requires name != [] && name[0] != '/'
    ensures GetDefaultOutputPath(input, suffix, outputExists, cwd) == PosixPath.Join(OutputDir(outputExists, cwd), name)
    ensures outputExists ==> GetDefaultOutputPath(input, suffix, outputExists, cwd) == "/output/" + name
  {
    if outputExists {
      JoinUnderOutput(name);
    }
  }

  /** Joining a relative name under `/output` puts one `/` between. */
  lemma JoinUnderOutput(name: string)
    requires name != [] && name[0] != '/'
    ensures PosixPath.Join("/output", name) == "/output/" + name
  {
    assert !IsAbs(name);
    assert !EndsWith("/output", "/");
  }

  /** The default output path lies in the output directory, is named after
      the input with the suffix inserted before the extension, and keeps the
      input's extension (`.mp4` when it had none). */
  lemma DefaultOutputKeepsExtension(input: string, suffix: string, outputExists: bool, cwd: string)
    requires suffix != "" && '/' !in suffix && '.' !in suffix
    requires outputExists || cwd != ""
    ensures var r := GetDefaultOutputPath(input, suffix, outputExists, cwd);
            var name := InputFileName(input);
            && StartsWith(r, OutputDir(outputExists, cwd))
            && Basename(r) == Stem(name) + suffix + OutputExt(name)
            && Ext(r) == OutputExt(name)
  {
    InputFileNameHasNoSlash(input);
    OutputPathShape(OutputDir(outputExists, cwd), InputFileName(input), suffix);
  }

  /** A URL whose path names no file is saved as
      `downloaded_video<suffix>.mp4` in the output directory. */
  lemma UrlWithoutFileName(input: string, suffix: string, outputExists: bool, cwd: string)
    ensures IsUrl(Str(input)) && Basename(UrlPath(input)) == ""
            ==> (GetDefaultOutputPath(input, suffix, outputExists, cwd)
                 == PosixPath.Join(OutputDir(outputExists, cwd), "downloaded_video" + suffix + ".mp4"))
  {
    if IsUrl(Str(input)) && Basename(UrlPath(input)) == "" {
      assert InputFileName(input) == "downloaded_video.mp4";
      DefaultFileName(suffix);
    }
  }

  lemma DefaultFileName(suffix: string)
    ensures OutputFileName("downloaded_video.mp4", suffix) == "downloaded_video" + suffix + ".mp4"
  {
    assert "downloaded_video.mp4" == "" + "downloaded_video" + ".mp4";
    assert "downloaded_video"[0] != '.';
    assert ".mp4"[1..] == "mp4";
    SplitExtOfParts("", "downloaded_video", ".mp4");
  }
}

=== FILE: values.dfy ===
/** Shared value types: an optional value and the dynamically typed values
    that cross the tool boundary (task parameters, task results, the inputs
    accepted by the time and URL helpers). */
module Values {

  datatype Option<+T> = None | Some(value: T) {
    function GetOr(default: T): T {
      match this
      case Some(v) => v
      case None => default
    }
  }

  /** The outcome of an operation that Python would end with an exception:
      `Err` carries which exception. */
  datatype Result<+R, +E> = Ok(value: R) | Err(error: E)

  /** A Python value as far as this server looks at it.  `Null` is Python's
      `None`; `Dict` keys are strings, as in the JSON payloads the server
      exchanges. */
  datatype Value =
    | Null
    | Bool(b: bool)
    | Int(i: int)
    | Float(f: real)
    | Str(s: string)
    | List(items: seq<Value>)
    | Tuple(elems: seq<Value>)
    | Dict(entries: map<string, Value>)
}
